=== FILE: README.md ===
# pegjs-tracer, modelled in Dafny

pegjs-tracer turns the stream of trace events a PEG.js parser emits
(`rule.enter`, `rule.match`, `rule.fail`) into text diagrams. This project
models its core as pure Dafny functions over immutable data and proves what
that core promises.

- **Trace tree and furthest-failure frontier** (`TraceTree`, `trace_tree.dfy`).
  - The `Tracer` keeps an arena of nodes. Entry 0 is the root, and every node
    records its parent's index, its `matches` and `fails` child lists, its
    path key and its number.
  - `onEnter` adds a node under the cursor and moves the cursor down to it.
    `onMatch` and `onFail` file the cursor node under its parent and move the
    cursor back up.
  - `onFail` also maintains `maxFailPos` and the frontier `maxFails`.
  - `Valid` is the invariant every step keeps:
    - the parent links, paths and numbers agree;
    - stack discipline: exactly the cursor and its ancestors are still
      entered, and every other node is filed under its parent;
    - every frontier member is a finished failure at `maxFailPos`, and no two
      members share a `(path, rule)` site.
- **Parse-tree extraction and flattening** (`ParseTree`). This covers
  `getParseTree` in its full and its failure view, and the pre-order
  `treeToList`.
- **Column layout of the graph** (`NodeGraph`). This is `buildNodeGraph`: it
  walks the list from its end, opens new columns, and merges the columns of a
  node's children into that node's column.
- **Row renderer** (`TextGraph`). This is `TextGraph`: state rows of
  two-character cells, and two-row merge blocks for one column or several.
- **Source quoter** (`TextQuoter`). This is `TextQuoter`: the source text is
  normalised, checked and split into lines; a line range is then quoted with
  middle elision and underline rows.
- **Text utilities** (`TextUtil`). These are `truncate`, `setTextStyle` (ANSI
  SGR, the Select Graphic Rendition control of section 8.3.117 of ECMA-48),
  `makeIndent`, `makeLine` and `concatTextBlock`, plus JavaScript's `slice`,
  `split` and `join`.
- **Node text and the two string entry points** (`Render`).
  - `buildNodeText` draws a title line and the quoted source.
  - `getParseTreeString` and `getBacktraceString` draw the graph, or return
    their placeholder text.
- **Worked examples** (`FrontierExamples`, `LayoutExamples`). These are
  concrete traces and layouts, stated for arbitrary rule names and offsets.

The model follows these conventions:

- Exceptions become `Result` failures:
  - `Array(n)` with a negative length fails with `InvalidArrayLength` (the
    engine's upper limits on array and string lengths are not modelled);
  - a missing source fails with `MissingSource`;
  - a vertical tab or form feed in the source fails with `UnsupportedNewline`;
  - `match` or `fail` with the cursor at the root fails with `NullParent`.
- A JavaScript value that may be `undefined` becomes an `Option`.
- An event's `type` string becomes a `TraceEvents.Kind`: the three recognised
  strings are their own constructors, and `OtherType` can never hold one of
  them, so the dispatch of `trace` cannot be bypassed.
- The hidden-path regular expressions become an abstract filter
  `hidden: string -> bool`, applied to `path + rule`.
- Layout properties are stated with colour off. With colour on, styling is
  exactly `TextUtil.SetTextStyle`.

Three behaviours of the code are easy to misread, and the model keeps them
as written:

- The full view of `getParseTree` drops a hidden node together with its whole
  subtree. It does not attach the node's children to the node's parent
  (src/index.ts:372).
- Quoting ten lines with a budget of three keeps two lines at the head and one
  at the tail (`ceil` and `floor` of 3/2), so three content lines surround
  `...`. `LayoutExamples.ElideTenLines` shows this.
- The frontier depends on the order of failures at the same offset.
  - A callee's failure keeps its caller out of the frontier.
  - A caller that failed before its callee stays next to it.
  - `FrontierExamples.InnerFailureStandsForCaller` and
    `FrontierExamples.CallerFirstKeepsBoth` show both orders.

## Model

| member | source | states |
|---|---|---|
| TraceTree.Init | src/index.ts:147-166 | The initial tracer is valid: the root alone, the cursor on it, `maxFailPos` 0, an empty frontier, level 0, no nodes numbered |
| TraceTree.Enter | src/index.ts:241-262 | The new node is appended with the cursor's `path + rule + "/"` as its path and `numNodes + 1` as its number, under the cursor. The cursor moves to it and the level rises by one. Earlier nodes and the frontier are unchanged, and the tracer stays valid |
| TraceTree.EnterValid | src/index.ts:241-262 | Entering keeps the whole invariant: links, stack discipline and the frontier |
| TraceTree.Match | src/index.ts:306-320 | The cursor node takes the event's type and location and is appended to its parent's `matches`. The cursor returns to the parent, the level drops by one, every other node and the frontier are unchanged, and the tracer stays valid |
| TraceTree.Fail | src/index.ts:272-304 | The node is appended to its parent's `fails` and the cursor returns to the parent. `maxFailPos` becomes the larger of the old value and the offset. A further failure resets the frontier to the node alone; a nearer one leaves it unchanged. At the same offset the node joins exactly when no member is its direct child or its own site. Members are never removed at an equal or nearer offset, and the tracer stays valid |
| TraceTree.FrontierStep | src/index.ts:274-290 | The frontier update on its own: reset, keep, or append-iff-not-represented, as for `Fail` |
| TraceTree.FailFrontierSites | src/index.ts:277-290 | After a failure no two frontier members share a `(path, rule)` site |
| TraceTree.Covered | src/index.ts:264-270 | The backwards scan finds a member exactly when some member is a direct child of the node's site (`isParentRule`) or is the same site (`isSameRule`) |
| TraceTree.FinishTree | src/index.ts:292-303 | Filing the cursor under its parent keeps parent links, paths, rules and numbers. It keeps stack discipline with the cursor moved to the parent, and the parent's chain is the old chain minus the node |
| TraceEvents.KindOf | src/index.ts:209-219 | A `type` string reads as enter, match or fail exactly when it is `rule.enter`, `rule.match` or `rule.fail`; any other string is carried as it is |
| TraceEvents.KindNameRoundTrip | src/index.ts:209-219 | Reading a type string and writing it back gives the string, and the reverse gives the type |
| TraceTree.Trace | src/index.ts:206-220 | Dispatch: `rule.enter` gives exactly `Enter`, a successful `rule.match` gives exactly `Match`, and any other type gives exactly `Fail`. Climbing from the root fails with `NullParent`, which happens exactly when the event is not an enter and the cursor is the root. On success the tracer stays valid, `numNodes` counts enters, `maxFailPos` never decreases and covers a failure's offset, and the level moves by one |
| TraceTree.ReplayCountsEnters | src/index.ts:252 | After a whole event stream, `numNodes` has grown by the number of `rule.enter` events |
| TraceTree.ReplayMaxFailPos | src/index.ts:274-276 | After a stream, `maxFailPos` bounds every failure offset seen and is either its start value or the offset of some failure |
| TraceTree.EnterThenMatch | src/index.ts:241-262 | An enter then a match returns the cursor and level, files the new node as the cursor's last match, and leaves the frontier unchanged |
| TraceTree.ReplayEnterMatch | src/index.ts:206-220 | Replaying an enter and a match does not throw and ends in the state `EnterThenMatch` describes |
| TraceTree.ReplaySnoc | src/index.ts:206-220 | Replaying one more event traces it in the state the earlier events left, unless those already threw |
| TraceTree.ZeroBased | src/index.ts:172-185 | Lines and columns drop by one; offsets are kept |
| TraceTree.SourceLines | src/index.ts:187-193 | The excerpt of a one-based location has as many rows as the quoter gives for the zero-based range. With colour off it fails exactly when an underline row would have a length below -1 (a length of -1 draws nothing) |
| ParseTree.GetParseTree | src/index.ts:353-390 | Every copy copies an arena node, and its children copy some of that node's children in order, matches first. The full view always gives a tree whose children are exactly the visible children. A frontier member always survives the failure view, and every leaf of the failure view is a frontier member |
| ParseTree.Kids | src/index.ts:368-382 | `buildChilden` keeps an order-preserving subsequence of the children. The full view keeps exactly the visible ones, and the failure view keeps only copies whose leaves are frontier members |
| ParseTree.KidsExact | src/index.ts:368-382 | `buildChilden` keeps exactly the children the filter does not skip and whose copy is not null, in order, and each kept copy is that child's own `getParseTree` copy |
| ParseTree.GetParseTreeExact | src/index.ts:353-390 | A copy's children are the copies of exactly those surviving children, each exact in turn, so the copy is exact at every depth in both views |
| ParseTree.FailureCopyKeeps | src/index.ts:368-386 | A frontier member below a node in the unfiltered tree survives in that node's failure-view copy: pruning never hides a real failure |
| ParseTree.FrontierInBacktrace | src/index.ts:353-390 | After a finished parse every frontier member appears in the root's backtrace tree |
| ParseTree.FailureViewIgnoresHidden | src/index.ts:372 | The failure view does not depend on the hidden-path filter |
| ParseTree.SurvivesIffReachesFrontier | src/index.ts:384-386 | A node survives the failure view exactly when its unfiltered subtree holds a frontier member |
| ParseTree.UnfilteredKids | src/index.ts:368-382 | With nothing hidden, the copied children are the unfiltered copies of all children, in order |
| ParseTree.AllReachable | src/index.ts:353-390 | Once the cursor is back at the root, every arena node appears in the root's unfiltered copy |
| ParseTree.BacktraceExistsIffFailures | src/index.ts:384-389 | After a finished parse the failure view of the root exists exactly when the frontier is non-empty |
| ParseTree.TreeToList | src/index.ts:434-446 | The pre-order list starts with the tree's root, its length is the tree's node count, and every later entry's parent copy lies before it |
| ParseTree.ListOf | src/index.ts:434-446 | A null tree gives the empty list. Otherwise the list starts with the root, whose parent is absent, and has one entry per node |
| ParseTree.ListPreOrder | src/index.ts:434-446 | The list's entries copy the tree's nodes in pre-order: a node, then each child's subtree from left to right |
| ParseTree.PreOrderIds | src/index.ts:434-446 | The pre-order holds every node of the tree and no other |
| ParseTree.ListOfPreOrder | src/index.ts:434-446 | The list of a tree is its pre-order, and a node is listed exactly when it is in the tree |
| ParseTree.ListParentsFaithful | src/index.ts:434-446 | The parent position of every list entry names the copy of its arena parent |
| ParseTree.ListIdsAbove | src/index.ts:434-446 | Every entry below the top of a copied tree names a later arena node than the top |
| NodeGraph.Converging | src/index.ts:401-407 | `parentIndexes` ascends, and a column index is in it exactly when that column's node is a child of the popped node |
| NodeGraph.FilterOut | src/index.ts:421 | The filter drops exactly the named indices: the length shrinks by their number, the prefix before the first is kept, and a column survives exactly when it sits at an index not named |
| NodeGraph.NewColumn | src/index.ts:411-415 | With no converging column, the node opens column `nodes.length`, styled `VLINE_STYLES[column % 5]`, and the earlier columns are kept |
| NodeGraph.MergeColumns | src/index.ts:416-421 | Otherwise the node takes over the lowest converging column and inherits its style. The column count shrinks by one less than the number of converging columns, and the survivors are exactly the columns not merged away |
| NodeGraph.OpenStep | src/index.ts:409-415 | The step of a node without converging columns: column `nodes.length`, earlier columns unchanged, the cycled style, and one row per label line, plus a bar row when sources are hidden and nodes remain to be drawn below it |
| NodeGraph.JoinStep | src/index.ts:416-423 | The step of a node with converging columns: the lowest such column, inherited style, fewer columns, and two rows per merged-away column ahead of the label rows |
| NodeGraph.Step | src/index.ts:398-427 | One loop iteration leaves the popped node in the column it was drawn in |
| NodeGraph.OpenRowCount | src/index.ts:409-427 | A node opening a column draws its label rows and, when sources are hidden and nodes remain, one bar row |
| NodeGraph.JoinRowCount | src/index.ts:416-427 | A node merging columns also draws two rows for every converging column but the lowest |
| NodeGraph.StepKeepsColumns | src/index.ts:398-423 | One iteration keeps the column invariant: the open columns are exactly the processed nodes whose parent is not processed yet |
| NodeGraph.RunKeepsColumns | src/index.ts:398-428 | The whole loop keeps the column invariant |
| NodeGraph.FinalColumns | src/index.ts:398-431 | At the end the open columns are exactly the top-level nodes of the list |
| NodeGraph.StepTitleRow | src/index.ts:409-423 | With colour off, after the merge rows a node's first row has one cell per remaining column: the node's glyph in its own column, bars elsewhere (blanks when the last node closes a merge), then the title |
| NodeGraph.StepMergeRows | src/index.ts:416-418 | With colour off, a node that takes over converging columns first draws `drawMergeEdges` of all of them but the lowest, into the lowest |
| NodeGraph.BuildNodeGraph | src/index.ts:392-432 | Every node draws at least one row |
| NodeGraph.Label | src/index.ts:342-350 | The node text is the title, followed by the source lines only when sources are shown |
| TextGraph.Glyph | src/graph.ts:76-85 | With colour off the glyph is `x ` for a failure, `o ` for a match and `? ` otherwise |
| TextGraph.DrawStateLine | src/graph.ts:70-92 | With colour off the row is `2 * nodes.length` wide. The cell at `column` is the glyph and every other cell is a bar and a space, or two spaces on the last state |
| TextGraph.DrawState | src/graph.ts:56-67 | There are `max(1, contents.length)` rows. Row k is the state line, with the glyph only on row 0, followed by `contents[k]`. With colour off, every later row is a bar and a space per column followed by its content, or two spaces per column on the last state |
| TextGraph.DrawMergeEdge | src/graph.ts:95-127 | Exactly two rows, each `2 * nodes.length` wide with colour off. Row 0 has bar cells up to `toIndex`, bar-underscore cells toward the source and a bar-slash cell just before it. Row 1 has bar cells before `toIndex`, a bar-slash cell at it, bar cells up to the source and space-slash cells after it |
| TextGraph.SortAscending | src/graph.ts:133-135 | The sorted copy is ordered, is a permutation of the input, and is strictly increasing when the input has no duplicates |
| TextGraph.Insert | src/graph.ts:135 | Insertion into an ordered list keeps it ordered and adds exactly the element |
| TextGraph.MergeSteps | src/graph.ts:137-147 | After each splice the later sources are renumbered, so merge k still folds the column the k-th source named originally, on a list k columns shorter |
| TextGraph.DrawMergeEdges | src/graph.ts:130-150 | `2 * fromIndexes.length` rows. Rows 2k and 2k + 1 are the `drawMergeEdge` block of the k-th merge of the sorted sources, which folds the column that source named originally on a list k columns shorter; with colour off block k is `2 * (nodes.length - k)` wide |
| TextGraph.MergeBlocks | src/graph.ts:137-139 | Rows 2k and 2k + 1 are the two rows of `drawMergeEdge` for merge step k, one block after the other, as wide as their column lists |
| TextQuoter.New | src/TextQuoter.ts:45-68 | A missing source fails. Otherwise the result fails exactly when a vertical tab or form feed survives normalisation. On success the stored lines are clean, there is one more line than there are line feeds, and joining the lines with line feeds gives the normalised text |
| TextQuoter.Normalize | src/TextQuoter.ts:56-59 | The result holds no carriage return or tab, and every other character except space and line feed occurs in it exactly when it occurs in the input |
| TextQuoter.NormalizeTab | src/TextQuoter.ts:57 | A tab becomes one space |
| TextQuoter.NormalizeCrLf | src/TextQuoter.ts:58 | A carriage return followed by a line feed becomes one line feed |
| TextQuoter.NormalizeCr | src/TextQuoter.ts:59 | A carriage return not followed by a line feed becomes a line feed |
| TextQuoter.NormalizeOther | src/TextQuoter.ts:56-59 | Every other character is copied unchanged |
| TextQuoter.NormalizeIsScan | src/TextQuoter.ts:56-59 | The three chained replaces equal a single left-to-right reading that applies the four cases above |
| TextQuoter.NormalizeIdempotent | src/TextQuoter.ts:56-59 | Normalising twice is normalising once |
| TextQuoter.ReplaceChar | src/TextQuoter.ts:57-59 | Each occurrence of one character becomes another, position by position; the length is kept and the replaced character no longer occurs (used for tabs to spaces and lone carriage returns to line feeds) |
| TextQuoter.ClampMaxLines | src/TextQuoter.ts:90 | A budget of 0 or below 3 becomes 3, and any other budget is kept |
| TextQuoter.Highlight | src/TextQuoter.ts:102-113 | Highlighting keeps the row count and, with colour off, the rows |
| TextQuoter.Elide | src/TextQuoter.ts:92-117 | Within budget the lines are kept. Past it there are `maxLines + 1` rows: the first `ceil(maxLines / 2)` lines, `...`, then the last `floor(maxLines / 2)` lines |
| TextQuoter.DrawHLine | src/TextQuoter.ts:80-82 | Fails exactly for a start or length below -1. With colour off the line is `start` spaces followed by `length` copies of the character |
| TextQuoter.AddMarkers | src/TextQuoter.ts:119-124 | A one-line range with start ≤ end gets a caret row of `max(end - start, 1)` carets after `start` spaces, and with start > end nothing. A multi-line range gets an underscore row of `lines[0].length - start` before and a caret row of `end` carets after. Failure happens exactly when a length is below -1 |
| TextQuoter.GetQuotedLines | src/TextQuoter.ts:85-127 | Every row starts with the quote string, and there is at least one row. The row count is the content rows plus the marker rows. With colour off it fails exactly when an underline length is below -1 |
| TextQuoter.QuotedLinesContent | src/TextQuoter.ts:98-126 | With colour off the content rows are the prefixed raw source lines of the range, elided in the middle past the budget |
| TextQuoter.QuotedLinesMarkers | src/TextQuoter.ts:119-125 | With colour off the caret and underscore rows have exactly the stated widths behind the quote string |
| TextQuoter.GetQuotedText | src/TextQuoter.ts:130-135 | The quoted text exists exactly when the quoted rows do |
| TextQuoter.QuotedTextSplitsBack | src/TextQuoter.ts:130-135 | With colour off, splitting the quoted text at line feeds gives back the quoted rows |
| TextUtil.Truncate | src/text-util.ts:52-58 | Unchanged when `maxlen ≤ 0` or the string fits. Otherwise `...` followed by a suffix of the string, `max(maxlen, 3)` long |
| TextUtil.TruncateIdempotent | src/text-util.ts:52-58 | Truncating twice with the same bound changes nothing more |
| TextUtil.Slice | src/text-util.ts:74-79 | `slice` within bounds is the subsequence, and its length is the clamped index distance |
| TextUtil.SetTextStyle | src/text-util.ts:61-83 | The string is unchanged exactly when the style yields no code. Otherwise it is wrapped in the opening sequence and the reset, whole or around `[start, end)`, with a falsy `end` meaning the length |
| TextUtil.SetTextStyleRoundTrip | src/text-util.ts:74-79 | Deleting the inserted opening sequence and reset from a ranged style gives the input back |
| TextUtil.Codes | src/text-util.ts:63-72 | One code per present part, foreground first and attribute last |
| TextUtil.UnknownColorsFallBack | src/text-util.ts:64-75 | Foreground and background names that the tables hold neither as their own entry nor as a member inherited from `Object.prototype` give `ESC[37;40m` |
| TextUtil.InheritedNamesLeak | src/text-util.ts:63-72 | A name inherited from `Object.prototype` (`constructor`, `toString`, `__proto__`, …) gets no fallback in any part of the style: the inherited member's text goes into the escape sequence |
| TextUtil.SetTextStyleIf | src/graph.ts:47-53 | With colour off the string is unchanged; with colour on it is styled |
| TextUtil.MakeIndent | src/text-util.ts:86-88 | At unbounded length: fails exactly when `n < -1`. Otherwise `n` copies of the character (none for -1) |
| TextUtil.MakeLine | src/text-util.ts:100-102 | `indent` spaces followed by `length` copies of the character. At unbounded length, fails exactly when either is below -1 |
| TextUtil.ConcatTextBlock | src/text-util.ts:91-97 | `max(a.length, b.length)` elements, element i being `a[i] + b[i]` with a missing side empty |
| TextUtil.Split | src/TextQuoter.ts:67 | One more piece than separators, no piece holds the separator, and joining the pieces gives the string back |
| TextUtil.SplitJoin | src/TextQuoter.ts:130-135 | Splitting a join of separator-free pieces gives the pieces back |
| Render.Digits | src/index.ts:325-332 | Decimal digits without leading zeros |
| Render.DigitsRoundTrip | src/index.ts:325-332 | Reading the digits back gives the number |
| Render.TitleParts | src/index.ts:330-340 | Three parts with traces shown, else two. Uncoloured, they are `#number`, the location and the rule text, the last being the truncated path plus rule when full paths are shown |
| Render.TitleEnds | src/index.ts:330-342 | Uncoloured, a title starts with `#` exactly when traces are shown and ends with the rule text |
| Render.TitleWithoutTrace | src/index.ts:324-342 | Uncoloured and without traces, the title is the location, a space and the rule text |
| Render.NodeText | src/index.ts:322-351 | For the tracer's own quoter (same `useColor`, default highlight): the first line is the title. Without sources that is all; with sources the rest is the node's quoted excerpt, and the text fails exactly when quoting fails |
| Render.Items | src/index.ts:448-471 | After the root is shifted off, item j draws list entry j + 1 with its parent position moved down by one. Parents precede children, and without sources nothing fails |
| Render.GraphLines | src/index.ts:448-471 | There is no drawing exactly when `getParseTree` returns null. The drawing has at least one row per non-root node, and without sources it never fails |
| Render.ItemParentsNamed | src/index.ts:403-407 | An item's parent position names the item of its arena parent |
| Render.GetParseTreeString | src/index.ts:448-458 | The full view always has a tree, so the placeholder is never returned. The result is the joined graph rows |
| Render.GetBacktraceString | src/index.ts:460-471 | The placeholder appears exactly when the failure view prunes the root; otherwise the result is the joined graph rows |
| Render.BacktraceHintIffNoFailures | src/index.ts:460-471 | After a finished parse the placeholder appears exactly when no failure was recorded |
| Render.BacktraceIgnoresHidden | src/index.ts:460-471 | The backtrace does not depend on the hidden-path filter |
| Render.ListRows | src/index.ts:455-456 | The rows drawn for a tree list: at least one per entry below the top, never failing without sources, and failing only where quoting does |
| Render.SameTreeSameLines | src/index.ts:448-471 | Two filters that leave the same tree give the same rows |
| FrontierExamples.InnerFailureStandsForCaller | src/index.ts:277-290 | When a callee fails and then its caller fails at the same offset, only the callee is in the frontier |
| FrontierExamples.SiblingsBothStay | src/index.ts:277-290 | Two different top-level rules failing at the same offset both stay |
| FrontierExamples.CallerFirstKeepsBoth | src/index.ts:277-290 | A caller that failed before its callee stays next to it |
| LayoutExamples.ElideTenLines | src/TextQuoter.ts:92-117 | Ten lines under a budget of three become `0`, `1`, `...`, `9` |
| LayoutExamples.CalleeThenCaller | src/index.ts:392-432 | A failed caller over its failed callee is drawn as `x callee`, a bar, then `x caller` |

## Left out

- `printNode` and the live trace output (`console.log`) are I/O. `currentLevel` is kept only as a counter.
- `isHidden`'s regular expressions and their compilation in the constructor depend on the JavaScript regex engine. They are an abstract `hidden` filter on `path + rule`.
- `applyDefault`, the styled `headStringMap`/`typeStringMap` tables and the forwarding of events to a parent tracer are plumbing, and forwarding is a plain call into another tracer. The options are passed in explicitly.
- `lastChildType` is written by `onMatch` and `onFail` but never read by the modelled code.
- The compiled copies under build/ and the older src/*.js duplicates are not modelled: the TypeScript sources are modelled once.
- Node numbers are arena positions, so the root carries 0, where the tracer leaves it without a number.
- TraceTree.Match: with the cursor at the root, `onMatch` assigns the node's type and location before it throws. The model refuses the call (`requires t.current != 0`), and `Trace` returns `NullParent` with no partial update.
- TraceTree.Fail: with the cursor at the root, `onFail` updates the frontier and the node before it throws. The model refuses the call as for `Match`.
- TraceTree.SourceLines: requires `1 <= start line <= end line <= line count`. Outside that range the code reads lines that do not exist as `undefined`. On some paths it then throws: `undefined.length` in the underscore row, or `slice` on `undefined` when colour is on and a line is styled. On others it quotes the text `undefined` without throwing, for example with colour off, or with colour on for a one-line range whose start column is not before its end column. None of those outcomes is modelled.
- TextQuoter.GetQuotedLines: requires `0 <= startLine <= endLine < sourceLines.length`, for the same reason.
- Render.NodeText: with sources shown it requires the node's location to be quotable, as above.
- Render.NodeText, Render.Items and the entry points require the quoter the tracer builds for itself (`QuoterFor`): the same `useColor` as the options and the default highlight, since the constructor passes nothing else.
- TextUtil.MakeIndent and TextUtil.MakeLine: lengths are unbounded. The engine throws `RangeError` when `Array(n + 1)` asks for more than 2^32 - 1 elements, and when the joined string exceeds its maximum string length (an engine-dependent bound near 2^29 to 2^30 code units). The model returns a string there. Every caller's lengths come from source columns far below those bounds.
- TextUtil.InheritedNamesLeak: the text of an inherited member is V8's rendering of a built-in function (`function toString() { [native code] }`) and of `Object.prototype` (`[object Object]`); other engines may print functions differently.
- Render.GraphLines, Render.Items, Render.ItemParentsNamed, Render.GetParseTreeString, Render.GetBacktraceString, Render.BacktraceHintIffNoFailures and Render.BacktraceIgnoresHidden: with sources shown they require that every node the view draws (every entry of its tree list below the root) has a quotable location, as above. Nodes that are hidden, pruned or never finished are not required to be quotable.
- TextGraph.DrawMergeEdge: requires `0 <= fromIndex < nodes.length`. Outside that range the code reads the style of a missing node; its only caller never passes such an index.
- TextGraph.DrawMergeEdges: requires distinct in-range indices. Its only caller passes distinct column indices.
- NodeGraph.Step: the exact row counts are stated by `NodeGraph.OpenRowCount` and `NodeGraph.JoinRowCount`, one for each branch.
- NodeGraph.BuildNodeGraph: its own contract bounds only the row count. With colour off, each step's merge rows and title row are stated by `NodeGraph.StepMergeRows` and `NodeGraph.StepTitleRow`. A step's source-line rows and bar row are stated only through `TextGraph.DrawState`. With colour on, every row is stated only through `TextUtil.SetTextStyle`.
- ParseTree.TreeToList and ParseTree.ListOf: their own contracts state the length, the top entry and the parent positions. The order of the listed nodes is stated by `ParseTree.ListPreOrder` and `ParseTree.ListOfPreOrder`.
- ParseTree.Kids: its own contract states the shape of the kept copies. Which children are kept, and that each copy is exact, is stated by `ParseTree.KidsExact`, because the contract of `Kids` cannot call the mutually recursive `GetParseTree`.
- TextQuoter.Normalize: its own contract states only what is absent and which characters survive. The character-by-character mapping is stated by `TextQuoter.NormalizeIsScan` and the four case lemmas.
- TextQuoter.Highlight: with colour on, the rows are stated only through `TextUtil.SetTextStyle`.
- Render.TitleParts: with colour on, the parts are stated only through `TextUtil.SetTextStyle`.
- JavaScript's `NaN`, non-integer numbers and `maxLines` being `undefined` are not modelled: every number is an integer, and an absent `maxLines` is 0.
- JavaScript measures strings in UTF-16 code units, while a Dafny `char` is one Unicode scalar value. For text outside the Basic Multilingual Plane, the code's lengths and columns differ from the model's: `truncate` and `slice` lengths, `lines[0].length` in the underscore row, and location columns.
- Floating-point `Math.ceil` and `Math.floor` on halves are written as integer division.

=== FILE: frontier_examples.dfy ===
/** Worked examples of the furthest-failure frontier, for any rule names
    and any failure offset. */
module FrontierExamples {
  import opened TraceEvents
  import opened TraceTree

  /** Inside `a`, a rule called from the top level. */
  function Inside1(a: string, loc: Location): (t: Tracer)
    ensures Valid(t) && |t.nodes| == 2 && t.current == 1 && t.maxFailPos == 0 && t.maxFails == []
    ensures t.nodes[1].path == "/" && t.nodes[1].rule == a
  {
    Enter(Init(), Event(RuleEnter, a, loc))
  }

  /** Inside `b`, called from `a`. */
  function Inside2(a: string, b: string, loc: Location): (t: Tracer)
    ensures Valid(t) && |t.nodes| == 3 && t.current == 2 && t.maxFailPos == 0 && t.maxFails == []
    ensures t.nodes[1].path == "/" && t.nodes[1].rule == a && t.nodes[2].path == ChildPath(t.nodes[1])
  {
    Enter(Inside1(a, loc), Event(RuleEnter, b, loc))
  }

  /** `b` has failed at `loc` and the cursor is back at `a`. */
  function After2(a: string, b: string, loc: Location): (t: Tracer)
    requires loc.start.offset >= 0
    ensures Valid(t) && |t.nodes| == 3 && t.current == 1
  {
    Fail(Inside2(a, b, loc), Event(RuleFail, b, loc))
  }

  /** The failure of `b` alone makes up the frontier. */
  lemma After2Frontier(a: string, b: string, loc: Location)
    requires loc.start.offset >= 0
    ensures After2(a, b, loc).maxFailPos == loc.start.offset && After2(a, b, loc).maxFails == [2]
    ensures After2(a, b, loc).nodes[1].path == "/"
    ensures After2(a, b, loc).nodes[2].path == ChildPath(After2(a, b, loc).nodes[1])
  {
  }

  /** `a` calls `b`, `b` fails, then `a` fails at the same offset: `b` already
      stands for its caller, so the frontier holds only `b` (node 2). */
  lemma InnerFailureStandsForCaller(a: string, b: string, loc: Location)
    requires loc.start.offset >= 0
    ensures NextFrontier(After2(a, b, loc), loc.start.offset) == (loc.start.offset, [2])
  {
    After2Frontier(a, b, loc);
    assert Represents(After2(a, b, loc).nodes, 2, 1);
  }

  /** The top-level rule `x` has failed at `loc`. */
  function After1(x: string, loc: Location): (t: Tracer)
    requires loc.start.offset >= 0
    ensures Valid(t) && |t.nodes| == 2 && t.current == 0
  {
    Fail(Inside1(x, loc), Event(RuleFail, x, loc))
  }

  /** The failure of `x` alone makes up the frontier. */
  lemma After1Frontier(x: string, loc: Location)
    requires loc.start.offset >= 0
    ensures After1(x, loc).maxFailPos == loc.start.offset && After1(x, loc).maxFails == [1]
    ensures After1(x, loc).nodes[1].path == "/" && After1(x, loc).nodes[1].rule == x
  {
  }

  /** After `x` failed, the top-level rule `y` has been entered. */
  function Next1(x: string, y: string, loc: Location): (t: Tracer)
    requires loc.start.offset >= 0
    ensures Valid(t) && |t.nodes| == 3 && t.current == 2
    ensures t.maxFailPos == loc.start.offset && t.maxFails == [1]
    ensures t.nodes[1].path == "/" && t.nodes[1].rule == x && t.nodes[2].path == "/" && t.nodes[2].rule == y
  {
    After1Frontier(x, loc);
    Enter(After1(x, loc), Event(RuleEnter, y, loc))
  }

  /** Two different top-level rules failing at the same offset both stay. */
  lemma SiblingsBothStay(x: string, y: string, loc: Location)
    requires x != y && loc.start.offset >= 0
    ensures NextFrontier(Next1(x, y, loc), loc.start.offset) == (loc.start.offset, [1, 2])
  {
    var t := Next1(x, y, loc);
    assert |ChildPath(t.nodes[2])| > |t.nodes[1].path|;
    assert !Represents(t.nodes, 1, 2);
    assert !Covered(t.nodes, t.maxFails, t.current);
    assert NextFrontier(t, loc.start.offset) == (t.maxFailPos, t.maxFails + [t.current]);
    assert t.maxFails + [t.current] == [1, t.current];
  }

  /** After `p` failed it is tried again, and it calls `c`. */
  function Retry(p: string, c: string, loc: Location): (t: Tracer)
    requires loc.start.offset >= 0
    ensures Valid(t) && |t.nodes| == 4 && t.current == 3
    ensures t.maxFailPos == loc.start.offset && t.maxFails == [1]
    ensures t.nodes[1].path == "/" && t.nodes[1].rule == p && t.nodes[3].rule == c
    ensures t.nodes[3].path == ChildPath(t.nodes[2])
  {
    Enter(Next1(p, p, loc), Event(RuleEnter, c, loc))
  }

  /** The frontier depends on the order of failures: a caller's site that
      failed first stays next to a later failure of its callee, although the
      callee failing first would have kept the caller out
      (`InnerFailureStandsForCaller`). */
  lemma CallerFirstKeepsBoth(p: string, c: string, loc: Location)
    requires p != c && loc.start.offset >= 0
    ensures NextFrontier(Retry(p, c, loc), loc.start.offset) == (loc.start.offset, [1, 3])
  {
    var t := Retry(p, c, loc);
    DeeperSiteJoins(t);
  }

  /** A failure at the frontier's offset joins a frontier that holds only the
      top-level node 1, when it is neither a direct child of node 1 nor at the
      same site. */
  lemma DeeperSiteJoins(t: Tracer)
    requires Valid(t) && t.maxFails == [1] && 1 < |t.nodes|
    requires t.nodes[1].path == "/" && |t.nodes[t.current].path| > 0
    requires t.nodes[t.current].rule != t.nodes[1].rule
    ensures NextFrontier(t, t.maxFailPos) == (t.maxFailPos, [1, t.current])
  {
    assert |ChildPath(t.nodes[t.current])| > |t.nodes[1].path|;
    assert !Represents(t.nodes, 1, t.current);
    assert !Covered(t.nodes, t.maxFails, t.current);
    assert t.maxFails + [t.current] == [1, t.current];
  }
}

=== FILE: layout_examples.dfy ===
/** Worked examples of the quoter's elision and of the graph layout. */
module LayoutExamples {
  import opened Results
  import opened TextUtil
  import opened TraceEvents
  import opened TraceTree
  import opened NodeGraph
  import TextQuoter

  /** Ten lines under a budget of three keep two at the head and one at the tail. */
  lemma ElideTenLines()
    ensures TextQuoter.Elide(["0", "1", "2", "3", "4", "5", "6", "7", "8", "9"], 3) == ["0", "1", "...", "9"]
  {
    var lines := ["0", "1", "2", "3", "4", "5", "6", "7", "8", "9"];
    var r := TextQuoter.Elide(lines, 3);
    assert r[..2] == ["0", "1"] && r[2] == "..." && r[3..] == ["9"];
    assert r == r[..2] + [r[2]] + r[3..];
  }

  /** The two-node list of a failed rule `p` whose callee `c` also failed. */
  function CalleeList(p: string, c: string): (items: seq<Item>)
    ensures |items| == 2 && WellFormed(items)
  {
    [Item(RuleFail, -1, p, []), Item(RuleFail, 0, c, [])]
  }

  /** A single failed column drawn with a title gives one row: the cross, then the title. */
  lemma CrossRow(lanes: seq<TextGraph.Lane>, title: string, last: bool)
    requires |lanes| == 1 && lanes[0].kind == RuleFail
    ensures TextGraph.DrawState(false, lanes, Some(0), [title], last) == ["x " + title]
  {
    var line := TextGraph.DrawStateLine(false, lanes, Some(0), last);
    assert line == TextGraph.Pair(line, 0);
  }

  /** A single column drawn without a node gives one bar. */
  lemma BarRow(lanes: seq<TextGraph.Lane>)
    requires |lanes| == 1
    ensures TextGraph.DrawState(false, lanes, None, [], false) == ["| "]
  {
    var line := TextGraph.DrawStateLine(false, lanes, None, false);
    assert line == TextGraph.Pair(line, 0);
    assert line + "" == line;
  }

  /** The callee, last on the list, opens column 0 and is followed by a bar. */
  lemma CalleeStep(p: string, c: string)
    ensures Step(false, false, CalleeList(p, c), 1, []).cols == [Col(1, VLineStyles[0])]
    ensures Step(false, false, CalleeList(p, c), 1, []).rows == ["x " + c, "| "]
  {
    var items := CalleeList(p, c);
    assert Converging(items, [], 1, 0) == [];
    var cols := [Col(1, VLineStyles[0])];
    var s := Step(false, false, items, 1, []);
    assert s.cols == cols;
    CrossRow(Lanes(items, cols), c, false);
    BarRow(Lanes(items, cols));
  }

  /** The caller takes column 0 over and, as the last node, draws no bar. */
  lemma CallerStep(p: string, c: string)
    ensures Step(false, false, CalleeList(p, c), 0, [Col(1, VLineStyles[0])]).rows == ["x " + p]
  {
    var items := CalleeList(p, c);
    var cols := [Col(1, VLineStyles[0])];
    assert Converging(items, cols, 0, 1) == [0];
    var s := Step(false, false, items, 0, cols);
    assert |s.cols| == 1;
    CrossRow(Lanes(items, s.cols), p, true);
  }

  /** A failed rule `p` whose callee `c` also failed, drawn without colour or
      source: `c` opens column 0, a bar row follows, and `p` takes the
      column over as the last node. */
  lemma CalleeThenCaller(p: string, c: string)
    ensures BuildNodeGraph(false, false, CalleeList(p, c)) == ["x " + c, "| ", "x " + p]
  {
    var items := CalleeList(p, c);
    CalleeStep(p, c);
    CallerStep(p, c);
    TwoRounds(items, [Col(1, VLineStyles[0])], ["x " + c, "| "], ["x " + p]);
  }

  /** With two nodes the loop runs twice: the second node's step, then the first's. */
  lemma TwoRounds(items: seq<Item>, cols: seq<Col>, second: seq<string>, first: seq<string>)
    requires |items| == 2
    requires Step(false, false, items, 1, []).cols == cols && Step(false, false, items, 1, []).rows == second
    requires ColsIn(cols, 2) && Step(false, false, items, 0, cols).rows == first
    requires |second| == 2 && |first| == 1
    ensures BuildNodeGraph(false, false, items) == [second[0], second[1], first[0]]
  {
    var s := Step(false, false, items, 1, []);
    assert BuildNodeGraph(false, false, items) == s.rows + Run(false, false, items, 1, s.cols).rows;
    LastRun(items, s.cols);
    ThreeRows(second, first);
  }

  lemma ThreeRows(a: seq<string>, b: seq<string>)
    requires |a| == 2 && |b| == 1
    ensures a + b == [a[0], a[1], b[0]]
  {
  }

  /** The last round of the loop draws the first node's step and nothing after it. */
  lemma LastRun(items: seq<Item>, cols: seq<Col>)
    requires 1 <= |items| && ColsIn(cols, |items|)
    ensures Run(false, false, items, 1, cols).rows == Step(false, false, items, 0, cols).rows
  {
    var s := Step(false, false, items, 0, cols);
    assert Run(false, false, items, 1, cols).rows == s.rows + Run(false, false, items, 0, s.cols).rows;
    assert s.rows + [] == s.rows;
  }
}

=== FILE: node_graph.dfy ===
/** `buildNodeGraph`: the column allocation that turns a pre-order node list
    into graph rows, processing the list from its end. A node whose children
    hold open columns merges them into the lowest one and takes it over;
    any other node opens a new column on the right. */
module NodeGraph {
  import opened Results
  import opened TextUtil
  import opened TraceEvents
  import opened TextGraph

  /** `VLINE_STYLES`: the column colours, cycled by column index. */
  const VLineStyles: seq<Style> := [
    Style(Some("yellow"), None, None),
    Style(Some("magenta"), None, None),
    Style(Some("blue"), None, None),
    Style(Some("white"), None, None),
    Style(Some("green"), None, None)
  ]

  /** A node of the rendered list: its type, the list position of its parent
      copy (negative when the parent is not in the list), and the parts of its
      `buildNodeText`: the title line and the quoted source lines. */
  datatype Item = Item(kind: Kind, parent: int, title: string, source: seq<string>)

  /** `buildNodeText(node, withSource)`: the title, then the source lines when asked for. */
  function Label(item: Item, showSource: bool): (r: seq<string>)
    ensures |r| >= 1 && r[0] == item.title
    ensures |r| == 1 + (if showSource then |item.source| else 0)
  {
    [item.title] + (if showSource then item.source else [])
  }

  /** Parents precede their children, as in a pre-order list. */
  predicate WellFormed(items: seq<Item>) {
    forall j :: 0 <= j < |items| ==> items[j].parent < j
  }

  /** An open column: the list position of the node it currently ends in, and its style. */
  datatype Col = Col(pos: nat, style: Style)

  function Positions(cols: seq<Col>): (r: seq<nat>)
    ensures |r| == |cols| && forall i :: 0 <= i < |cols| ==> r[i] == cols[i].pos
  {
    seq(|cols|, i requires 0 <= i < |cols| => cols[i].pos)
  }

  predicate ColsIn(cols: seq<Col>, n: int) {
    forall i :: 0 <= i < |cols| ==> cols[i].pos < n
  }

  /** What the row renderer sees of the columns. */
  function Lanes(items: seq<Item>, cols: seq<Col>): (r: seq<Lane>)
    requires ColsIn(cols, |items|)
    ensures |r| == |cols|
    ensures forall i :: 0 <= i < |cols| ==> r[i] == Lane(items[cols[i].pos].kind, cols[i].style)
  {
    seq(|cols|, i requires 0 <= i < |cols| => Lane(items[cols[i].pos].kind, cols[i].style))
  }

  /** `parentIndexes`: the indices, ascending, of the first `n` columns whose
      node is a child of the node at list position `k`. */
  function Converging(items: seq<Item>, cols: seq<Col>, k: int, n: nat): (r: seq<int>)
    requires ColsIn(cols, |items|) && n <= |cols|
    ensures StrictlyIncreasing(r) && InColumns(r, n)
    ensures forall i :: 0 <= i < n ==> (i in r <==> items[cols[i].pos].parent == k)
  {
    if n == 0 then []
    else Converging(items, cols, k, n - 1) + (if items[cols[n - 1].pos].parent == k then [n - 1] else [])
  }

  /** `x` sits at an index of `cols` that `drop` does not name (indices counted from `base`). */
  predicate Kept(cols: seq<Col>, drop: seq<int>, base: int, x: Col) {
    exists i :: 0 <= i < |cols| && base + i !in drop && cols[i] == x
  }

  /** `cols.filter((e, i) => drop.indexOf(i) < 0)` for ascending absolute
      indices `drop`, on the part of a list that starts at index `base`. */
  function FilterOut(cols: seq<Col>, drop: seq<int>, base: int): (r: seq<Col>)
    requires StrictlyIncreasing(drop)
    requires forall j :: 0 <= j < |drop| ==> base <= drop[j] < base + |cols|
    ensures |r| == |cols| - |drop|
    ensures |drop| > 0 ==> drop[0] - base <= |r| && r[..drop[0] - base] == cols[..drop[0] - base]
    ensures |drop| == 0 ==> r == cols
    ensures forall x :: x in r <==> Kept(cols, drop, base, x)
    decreases |drop|
  {
    if |drop| == 0 then cols
    else
      var d := drop[0] - base;
      var rest := FilterOut(cols[d + 1..], drop[1..], drop[0] + 1);
      FilterOutMembers(cols, drop, base, rest);
      cols[..d] + rest
  }

  lemma FilterOutMembers(cols: seq<Col>, drop: seq<int>, base: int, rest: seq<Col>)
    requires StrictlyIncreasing(drop) && |drop| > 0
    requires forall j :: 0 <= j < |drop| ==> base <= drop[j] < base + |cols|
    requires forall x :: x in rest <==> Kept(cols[drop[0] - base + 1..], drop[1..], drop[0] + 1, x)
    ensures forall x :: x in cols[..drop[0] - base] + rest <==> Kept(cols, drop, base, x)
  {
    forall x
      ensures x in cols[..drop[0] - base] + rest <==> Kept(cols, drop, base, x)
    {
      if x in cols[..drop[0] - base] + rest {
        KeptFromParts(cols, drop, base, rest, x);
      }
      if Kept(cols, drop, base, x) {
        PartsFromKept(cols, drop, base, rest, x);
      }
    }
  }

  lemma KeptFromParts(cols: seq<Col>, drop: seq<int>, base: int, rest: seq<Col>, x: Col)
    requires StrictlyIncreasing(drop) && |drop| > 0
    requires forall j :: 0 <= j < |drop| ==> base <= drop[j] < base + |cols|
    requires x in rest ==> Kept(cols[drop[0] - base + 1..], drop[1..], drop[0] + 1, x)
    requires x in cols[..drop[0] - base] + rest
    ensures Kept(cols, drop, base, x)
  {
    var d := drop[0] - base;
    var tail := cols[d + 1..];
    if x in cols[..d] {
      var i :| 0 <= i < d && cols[..d][i] == x;
      assert base + i !in drop;
      assert cols[i] == x;
    } else {
      assert x in rest;
      var i :| 0 <= i < |tail| && drop[0] + 1 + i !in drop[1..] && tail[i] == x;
      assert base + (d + 1 + i) !in drop;
      assert cols[d + 1 + i] == x;
    }
  }

  lemma PartsFromKept(cols: seq<Col>, drop: seq<int>, base: int, rest: seq<Col>, x: Col)
    requires StrictlyIncreasing(drop) && |drop| > 0
    requires forall j :: 0 <= j < |drop| ==> base <= drop[j] < base + |cols|
    requires Kept(cols[drop[0] - base + 1..], drop[1..], drop[0] + 1, x) ==> x in rest
    requires Kept(cols, drop, base, x)
    ensures x in cols[..drop[0] - base] + rest
  {
    var d := drop[0] - base;
    var tail := cols[d + 1..];
    var i :| 0 <= i < |cols| && base + i !in drop && cols[i] == x;
    if i < d {
      assert cols[..d][i] == x;
    } else {
      assert i != d;
      assert drop[0] + 1 + (i - d - 1) !in drop[1..];
      assert tail[i - d - 1] == x;
    }
  }

  // One iteration of the loop

  /** A node none of whose children hold a column opens one on the right,
      coloured by its index. */
  function NewColumn(cols: seq<Col>, k: nat): (r: seq<Col>)
    ensures |r| == |cols| + 1 && r[..|cols|] == cols
    ensures r[|cols|] == Col(k, VLineStyles[|cols| % |VLineStyles|])
  {
    cols + [Col(k, VLineStyles[|cols| % |VLineStyles|])]
  }

  /** A node whose children hold the columns `conv` takes over the lowest of
      them, keeping its style, and the others close. */
  function MergeColumns(cols: seq<Col>, conv: seq<int>, k: nat, n: int): (r: seq<Col>)
    requires |conv| > 0 && StrictlyIncreasing(conv) && InColumns(conv, |cols|)
    requires ColsIn(cols, n) && k < n
    ensures ColsIn(r, n)
    ensures |r| == |cols| - (|conv| - 1)
    ensures conv[0] < |r| && r[conv[0]] == Col(k, cols[conv[0]].style)
    ensures forall x :: x in r <==> Kept(cols[conv[0] := Col(k, cols[conv[0]].style)], conv[1..], 0, x)
  {
    var column := conv[0];
    var replaced := cols[column := Col(k, cols[column].style)];
    var r := FilterOut(replaced, conv[1..], 0);
    KeptColumns(replaced, conv[1..], r, n);
    assert |conv| > 1 ==> column < conv[1];
    assert r[column] == replaced[column] by {
      if |conv| > 1 {
        assert r[..conv[1]][column] == replaced[..conv[1]][column];
      }
    }
    r
  }

  /** What one popped node adds: the columns afterwards, the rows drawn, and
      the column the node was drawn in. */
  datatype StepResult = StepResult(cols: seq<Col>, rows: seq<string>, column: nat)

  /** The loop body of `buildNodeGraph` for the node at list position `k`,
      which leaves `k` nodes on the list. */
  function Step(useColor: bool, showSource: bool, items: seq<Item>, k: nat, cols: seq<Col>): (r: StepResult)
    requires k < |items| && ColsIn(cols, |items|)
    ensures ColsIn(r.cols, |items|)
    ensures r.column < |r.cols| && r.cols[r.column].pos == k
    ensures |r.rows| >= 1
  {
    var conv := Converging(items, cols, k, |cols|);
    if |conv| == 0 then OpenStep(useColor, showSource, items, k, cols)
    else JoinStep(useColor, showSource, items, k, cols)
  }

  /** A node none of whose children holds a column draws its label and,
      when no source is shown and it is not the first node, the separating row. */
  lemma OpenRowCount(useColor: bool, showSource: bool, items: seq<Item>, k: nat, cols: seq<Col>)
    requires k < |items| && ColsIn(cols, |items|) && |Converging(items, cols, k, |cols|)| == 0
    ensures |Step(useColor, showSource, items, k, cols).rows|
            == |Label(items[k], showSource)| + (if !showSource && k > 0 then 1 else 0)
  {
    assert Step(useColor, showSource, items, k, cols).rows == OpenStep(useColor, showSource, items, k, cols).rows;
  }

  /** A node whose children hold the columns `Converging(...)` draws in
      addition two rows for every one of those columns but the lowest. */
  lemma JoinRowCount(useColor: bool, showSource: bool, items: seq<Item>, k: nat, cols: seq<Col>)
    requires k < |items| && ColsIn(cols, |items|) && |Converging(items, cols, k, |cols|)| > 0
    ensures |Step(useColor, showSource, items, k, cols).rows|
            == 2 * (|Converging(items, cols, k, |cols|)| - 1)
               + |Label(items[k], showSource)| + (if !showSource && k > 0 then 1 else 0)
  {
    assert Step(useColor, showSource, items, k, cols).rows == JoinStep(useColor, showSource, items, k, cols).rows;
  }

  /** With colour off, the row that carries a node's title: a cell per
      column, the node's glyph in its own column and bars elsewhere (blanks
      when the last node closes the graph), then the title. */
  predicate TitleRow(row: string, items: seq<Item>, k: nat, cols: seq<Col>, column: nat, isLast: bool)
    requires k < |items|
  {
    && |row| == 2 * |cols| + |items[k].title|
    && row[2 * |cols|..] == items[k].title
    && Pair(row, column) == GlyphText(items[k].kind)
    && forall i :: 0 <= i < |cols| && i != column ==> Pair(row, i) == (if isLast then "  " else "| ")
  }

  /** The state line of `cols'` with the node's column marked, followed by its title. */
  lemma TitleRowOf(items: seq<Item>, k: nat, cols': seq<Col>, column: nat, isLast: bool)
    requires k < |items| && ColsIn(cols', |items|) && column < |cols'| && cols'[column].pos == k
    ensures TitleRow(DrawStateLine(false, Lanes(items, cols'), Some(column), isLast) + items[k].title,
                     items, k, cols', column, isLast)
  {
    var line := DrawStateLine(false, Lanes(items, cols'), Some(column), isLast);
    var row := line + items[k].title;
    assert row[2 * |cols'|..] == items[k].title;
    PairOfPrefix(line, items[k].title, column);
    forall i | 0 <= i < |cols'| && i != column
      ensures Pair(row, i) == (if isLast then "  " else "| ")
    {
      PairOfPrefix(line, items[k].title, i);
    }
  }

  /** With colour off, a step draws its merge rows first and then the node's
      title row on the columns it leaves, the node's glyph in its column. */
  lemma StepTitleRow(showSource: bool, items: seq<Item>, k: nat, cols: seq<Col>)
    requires k < |items| && ColsIn(cols, |items|)
    ensures var s := Step(false, showSource, items, k, cols);
      var conv := Converging(items, cols, k, |cols|);
      && 2 * Max(0, |conv| - 1) < |s.rows|
      && TitleRow(s.rows[2 * Max(0, |conv| - 1)], items, k, s.cols, s.column, conv != [] && k == 0)
  {
    if |Converging(items, cols, k, |cols|)| == 0 {
      StepOpenTitleRow(showSource, items, k, cols);
    } else {
      StepJoinTitleRow(showSource, items, k, cols);
    }
  }

  lemma StepOpenTitleRow(showSource: bool, items: seq<Item>, k: nat, cols: seq<Col>)
    requires k < |items| && ColsIn(cols, |items|) && |Converging(items, cols, k, |cols|)| == 0
    ensures var s := Step(false, showSource, items, k, cols);
      0 < |s.rows| && TitleRow(s.rows[0], items, k, s.cols, s.column, false)
  {
    assert Step(false, showSource, items, k, cols) == OpenStep(false, showSource, items, k, cols);
    OpenTitleRow(showSource, items, k, cols);
  }

  lemma StepJoinTitleRow(showSource: bool, items: seq<Item>, k: nat, cols: seq<Col>)
    requires k < |items| && ColsIn(cols, |items|) && |Converging(items, cols, k, |cols|)| > 0
    ensures var s := Step(false, showSource, items, k, cols);
      var conv := Converging(items, cols, k, |cols|);
      && 2 * (|conv| - 1) < |s.rows|
      && TitleRow(s.rows[2 * (|conv| - 1)], items, k, s.cols, s.column, k == 0)
  {
    assert Step(false, showSource, items, k, cols) == JoinStep(false, showSource, items, k, cols);
    JoinTitleRow(showSource, items, k, cols);
  }

  lemma OpenTitleRow(showSource: bool, items: seq<Item>, k: nat, cols: seq<Col>)
    requires k < |items| && ColsIn(cols, |items|) && |Converging(items, cols, k, |cols|)| == 0
    ensures var s := OpenStep(false, showSource, items, k, cols);
      && 0 < |s.rows|
      && TitleRow(s.rows[0], items, k, s.cols, s.column, false)
  {
    var cols' := NewColumn(cols, k);
    assert OpenStep(false, showSource, items, k, cols).rows == StepRows(false, showSource, items, k, cols, [], cols', |cols|);
    RowsTitle(showSource, items, k, cols, [], cols', |cols|);
  }

  lemma JoinTitleRow(showSource: bool, items: seq<Item>, k: nat, cols: seq<Col>)
    requires k < |items| && ColsIn(cols, |items|) && |Converging(items, cols, k, |cols|)| > 0
    ensures var s := JoinStep(false, showSource, items, k, cols);
      var conv := Converging(items, cols, k, |cols|);
      && 2 * (|conv| - 1) < |s.rows|
      && TitleRow(s.rows[2 * (|conv| - 1)], items, k, s.cols, s.column, k == 0)
  {
    var conv := Converging(items, cols, k, |cols|);
    var cols' := MergeColumns(cols, conv, k, |items|);
    assert JoinStep(false, showSource, items, k, cols).rows == StepRows(false, showSource, items, k, cols, conv, cols', conv[0]);
    RowsTitle(showSource, items, k, cols, conv, cols', conv[0]);
  }

  lemma RowsTitle(showSource: bool, items: seq<Item>, k: nat, cols: seq<Col>, conv: seq<int>, cols': seq<Col>, column: nat)
    requires k < |items| && ColsIn(cols, |items|) && ColsIn(cols', |items|)
    requires StrictlyIncreasing(conv) && InColumns(conv, |cols|)
    requires column < |cols'| && cols'[column].pos == k
    ensures var r := StepRows(false, showSource, items, k, cols, conv, cols', column);
      && 2 * Max(0, |conv| - 1) < |r|
      && TitleRow(r[2 * Max(0, |conv| - 1)], items, k, cols', column, conv != [] && k == 0)
  {
    var merges := if conv == [] then [] else DrawMergeEdges(false, conv[1..], conv[0], Lanes(items, cols));
    var isLast := conv != [] && k == 0;
    var rows := DrawState(false, Lanes(items, cols'), Some(column), Label(items[k], showSource), isLast);
    var r := merges + rows + Trailer(false, showSource, items, k, cols');
    assert StepRows(false, showSource, items, k, cols, conv, cols', column) == r;
    ConcatAt(merges, rows, Trailer(false, showSource, items, k, cols'));
    TitleRowOf(items, k, cols', column, isLast);
  }

  /** With colour off, a step whose node takes over converging columns first
      draws the merge blocks of all of them but the lowest, into the lowest. */
  lemma StepMergeRows(showSource: bool, items: seq<Item>, k: nat, cols: seq<Col>)
    requires k < |items| && ColsIn(cols, |items|) && |Converging(items, cols, k, |cols|)| > 0
    ensures var conv := Converging(items, cols, k, |cols|);
      InColumns(conv[1..], |cols|) && Distinct(conv[1..])
    ensures var conv := Converging(items, cols, k, |cols|);
      && 2 * (|conv| - 1) <= |Step(false, showSource, items, k, cols).rows|
      && Step(false, showSource, items, k, cols).rows[..2 * (|conv| - 1)]
         == DrawMergeEdges(false, conv[1..], conv[0], Lanes(items, cols))
  {
    var conv := Converging(items, cols, k, |cols|);
    TailMergeable(conv, |cols|);
    var cols' := MergeColumns(cols, conv, k, |items|);
    assert Step(false, showSource, items, k, cols) == JoinStep(false, showSource, items, k, cols);
    assert JoinStep(false, showSource, items, k, cols).rows == StepRows(false, showSource, items, k, cols, conv, cols', conv[0]);
    RowsMerges(showSource, items, k, cols, conv, cols', conv[0]);
  }

  /** The columns above the lowest converging one are distinct columns. */
  lemma TailMergeable(conv: seq<int>, n: int)
    requires |conv| > 0 && StrictlyIncreasing(conv) && InColumns(conv, n)
    ensures InColumns(conv[1..], n) && Distinct(conv[1..])
  {
    assert forall i :: 0 <= i < |conv| - 1 ==> conv[1..][i] == conv[i + 1];
  }

  /** In `a + b + c`, `a` comes first and `b` starts right after it. */
  lemma ConcatAt<T>(a: seq<T>, b: seq<T>, c: seq<T>)
    ensures (a + b + c)[..|a|] == a
    ensures |b| > 0 ==> (a + b + c)[|a|] == b[0]
  {
  }

  lemma RowsMerges(showSource: bool, items: seq<Item>, k: nat, cols: seq<Col>, conv: seq<int>, cols': seq<Col>, column: nat)
    requires k < |items| && ColsIn(cols, |items|) && ColsIn(cols', |items|)
    requires StrictlyIncreasing(conv) && InColumns(conv, |cols|) && |conv| > 0
    ensures var r := StepRows(false, showSource, items, k, cols, conv, cols', column);
      && 2 * (|conv| - 1) <= |r|
      && r[..2 * (|conv| - 1)] == DrawMergeEdges(false, conv[1..], conv[0], Lanes(items, cols))
  {
    var merges := DrawMergeEdges(false, conv[1..], conv[0], Lanes(items, cols));
    var rows := DrawState(false, Lanes(items, cols'), Some(column), Label(items[k], showSource), k == 0);
    var r := merges + rows + Trailer(false, showSource, items, k, cols');
    assert StepRows(false, showSource, items, k, cols, conv, cols', column) == r;
    ConcatAt(merges, rows, Trailer(false, showSource, items, k, cols'));
  }

  /** The step for a node none of whose children holds a column. */
  function OpenStep(useColor: bool, showSource: bool, items: seq<Item>, k: nat, cols: seq<Col>): (r: StepResult)
    requires k < |items| && ColsIn(cols, |items|) && |Converging(items, cols, k, |cols|)| == 0
    ensures ColsIn(r.cols, |items|)
    ensures r.column == |cols| && |r.cols| == |cols| + 1 && r.cols[..|cols|] == cols
    ensures r.cols[r.column] == Col(k, VLineStyles[|cols| % |VLineStyles|])
    ensures |r.rows| == |Label(items[k], showSource)| + (if !showSource && k > 0 then 1 else 0)
  {
    var cols' := NewColumn(cols, k);
    StepResult(cols', StepRows(useColor, showSource, items, k, cols, [], cols', |cols|), |cols|)
  }

  /** The step for a node whose children hold the columns `Converging(...)`. */
  function JoinStep(useColor: bool, showSource: bool, items: seq<Item>, k: nat, cols: seq<Col>): (r: StepResult)
    requires k < |items| && ColsIn(cols, |items|) && |Converging(items, cols, k, |cols|)| > 0
    ensures ColsIn(r.cols, |items|)
    ensures var conv := Converging(items, cols, k, |cols|);
      && r.column == conv[0]
      && |r.cols| == |cols| - (|conv| - 1)
      && r.column < |r.cols| && r.cols[r.column] == Col(k, cols[r.column].style)
      && |r.rows| == 2 * (|conv| - 1) + |Label(items[k], showSource)| + (if !showSource && k > 0 then 1 else 0)
  {
    var conv := Converging(items, cols, k, |cols|);
    var cols' := MergeColumns(cols, conv, k, |items|);
    StepResult(cols', StepRows(useColor, showSource, items, k, cols, conv, cols', conv[0]), conv[0])
  }

  /** The rows of one iteration: the merge edges of the columns `conv` other
      than the lowest, the node's state rows drawn on the new columns `cols'`
      at `column`, then the separating row. */
  function StepRows(useColor: bool, showSource: bool, items: seq<Item>, k: nat,
                    cols: seq<Col>, conv: seq<int>, cols': seq<Col>, column: int): (r: seq<string>)
    requires k < |items| && ColsIn(cols, |items|) && ColsIn(cols', |items|)
    requires StrictlyIncreasing(conv) && InColumns(conv, |cols|)
    ensures |r| == 2 * Max(0, |conv| - 1) + |Label(items[k], showSource)| + (if !showSource && k > 0 then 1 else 0)
  {
    var merges := if conv == [] then [] else DrawMergeEdges(useColor, conv[1..], conv[0], Lanes(items, cols));
    var rows := DrawState(useColor, Lanes(items, cols'), Some(column), Label(items[k], showSource), conv != [] && k == 0);
    merges + rows + Trailer(useColor, showSource, items, k, cols')
  }

  /** The empty state row drawn between nodes when no source is shown. */
  function Trailer(useColor: bool, showSource: bool, items: seq<Item>, k: nat, cols: seq<Col>): (r: seq<string>)
    requires ColsIn(cols, |items|)
    ensures |r| == (if !showSource && k > 0 then 1 else 0)
  {
    if !showSource && 0 < k then DrawState(useColor, Lanes(items, cols), None, [], false) else []
  }

  /** Every column left by `FilterOut` is one of the columns it started from. */
  lemma KeptColumns(cols: seq<Col>, drop: seq<int>, r: seq<Col>, n: int)
    requires ColsIn(cols, n)
    requires forall x :: x in r <==> Kept(cols, drop, 0, x)
    ensures ColsIn(r, n)
  {
    forall i | 0 <= i < |r|
      ensures r[i].pos < n
    {
      assert r[i] in r;
      var j :| 0 <= j < |cols| && 0 + j !in drop && cols[j] == r[i];
    }
  }

  // The whole loop

  datatype Graph = Graph(cols: seq<Col>, rows: seq<string>)

  /** The loop of `buildNodeGraph` while `k` nodes remain on the list. */
  function Run(useColor: bool, showSource: bool, items: seq<Item>, k: nat, cols: seq<Col>): (r: Graph)
    requires k <= |items| && ColsIn(cols, |items|)
    ensures ColsIn(r.cols, |items|)
    ensures |r.rows| >= k
    decreases k
  {
    if k == 0 then Graph(cols, [])
    else
      var s := Step(useColor, showSource, items, k - 1, cols);
      var g := Run(useColor, showSource, items, k - 1, s.cols);
      Graph(g.cols, s.rows + g.rows)
  }

  /** `buildNodeGraph(list)`: the rows for the whole list. */
  function BuildNodeGraph(useColor: bool, showSource: bool, items: seq<Item>): (r: seq<string>)
    ensures |r| >= |items|
  {
    Run(useColor, showSource, items, |items|, []).rows
  }

  // The column invariant

  /** Some column currently ends in the node at list position `x`. */
  predicate Open(cols: seq<Col>, x: int) {
    exists i :: 0 <= i < |cols| && cols[i].pos == x
  }

  /** With `k` nodes left, the open columns are exactly the processed nodes
      whose parents are still on the list (or absent from it). */
  predicate OpenColumns(items: seq<Item>, cols: seq<Col>, k: nat) {
    && ColsIn(cols, |items|)
    && (forall i :: 0 <= i < |cols| ==> k <= cols[i].pos && items[cols[i].pos].parent < k)
    && (forall x :: k <= x < |items| && items[x].parent < k ==> Open(cols, x))
  }

  /** One loop iteration keeps the invariant: the node's children close
      (merging into its column) and the node itself opens. */
  lemma StepKeepsColumns(useColor: bool, showSource: bool, items: seq<Item>, k: nat, cols: seq<Col>)
    requires WellFormed(items) && k < |items| && OpenColumns(items, cols, k + 1)
    ensures OpenColumns(items, Step(useColor, showSource, items, k, cols).cols, k)
  {
    var conv := Converging(items, cols, k, |cols|);
    if conv == [] {
      OpenKeepsColumns(items, k, cols);
    } else {
      MergeKeepsColumns(items, k, cols, conv);
    }
  }

  lemma OpenKeepsColumns(items: seq<Item>, k: nat, cols: seq<Col>)
    requires WellFormed(items) && k < |items| && OpenColumns(items, cols, k + 1)
    requires forall i :: 0 <= i < |cols| ==> items[cols[i].pos].parent != k
    ensures OpenColumns(items, NewColumn(cols, k), k)
  {
    var r := NewColumn(cols, k);
    assert Open(r, k);
    forall x | k < x < |items| && items[x].parent < k
      ensures Open(r, x)
    {
      var i :| 0 <= i < |cols| && cols[i].pos == x;
      assert r[..|cols|][i] == r[i];
    }
    forall i | 0 <= i < |r|
      ensures k <= r[i].pos && items[r[i].pos].parent < k
    {
      if i < |cols| {
        assert r[..|cols|][i] == r[i];
      }
    }
  }

  lemma MergeKeepsColumns(items: seq<Item>, k: nat, cols: seq<Col>, conv: seq<int>)
    requires WellFormed(items) && k < |items| && OpenColumns(items, cols, k + 1)
    requires |conv| > 0 && StrictlyIncreasing(conv) && InColumns(conv, |cols|)
    requires forall i :: 0 <= i < |cols| ==> (i in conv <==> items[cols[i].pos].parent == k)
    ensures OpenColumns(items, MergeColumns(cols, conv, k, |items|), k)
  {
    var r := MergeColumns(cols, conv, k, |items|);
    var column := conv[0];
    var rest := conv[1..];
    var replaced := cols[column := Col(k, cols[column].style)];
    assert Open(r, k);
    forall x | k < x < |items| && items[x].parent < k
      ensures Open(r, x)
    {
      var i :| 0 <= i < |cols| && cols[i].pos == x;
      assert i !in conv;
      assert replaced[i] == cols[i];
      assert Kept(replaced, rest, 0, cols[i]);
      var j :| 0 <= j < |r| && r[j] == cols[i];
    }
    forall i | 0 <= i < |r|
      ensures k <= r[i].pos && items[r[i].pos].parent < k
    {
      assert r[i] in r;
      var j :| 0 <= j < |replaced| && 0 + j !in rest && replaced[j] == r[i];
      if j != column {
        assert j !in conv;
      }
    }
  }

  lemma {:induction false} RunKeepsColumns(useColor: bool, showSource: bool, items: seq<Item>, k: nat, cols: seq<Col>)
    requires WellFormed(items) && k <= |items| && OpenColumns(items, cols, k)
    ensures OpenColumns(items, Run(useColor, showSource, items, k, cols).cols, 0)
    decreases k
  {
    if k > 0 {
      var s := Step(useColor, showSource, items, k - 1, cols);
      StepKeepsColumns(useColor, showSource, items, k - 1, cols);
      RunKeepsColumns(useColor, showSource, items, k - 1, s.cols);
      assert Run(useColor, showSource, items, k, cols).cols == Run(useColor, showSource, items, k - 1, s.cols).cols;
    }
  }

  /** When the list is used up, the open columns are exactly its top-level
      nodes: every other node has merged into its parent's column. */
  lemma FinalColumns(useColor: bool, showSource: bool, items: seq<Item>)
    requires WellFormed(items)
    ensures var cols := Run(useColor, showSource, items, |items|, []).cols;
      && (forall i :: 0 <= i < |cols| ==> items[cols[i].pos].parent < 0)
      && (forall x :: 0 <= x < |items| ==> (Open(cols, x) <==> items[x].parent < 0))
  {
    RunKeepsColumns(useColor, showSource, items, |items|, []);
  }
}

=== FILE: parse_tree.dfy ===
/** `getParseTree` and `treeToList`: the tracer's arena copied into a tree,
    either whole (minus hidden subtrees) or pruned to the paths that lead to
    furthest failures, and its pre-order flattening. */
module ParseTree {
  import opened Results
  import opened TraceEvents
  import opened TraceTree

  /** `getParseTree()` versus `getParseTree('fail')`. */
  datatype View = Full | Failures

  /** A copy made by `getParseTree`: the arena node `id` it copies (type, path,
      rule, location and number are read from there) and its copied children. */
  datatype PTree = PTree(id: nat, children: seq<PTree>)

  /** `isHidden(node)`: the abstract path filter applied to `path + rule`. */
  predicate Hidden(t: Tracer, hidden: string -> bool, c: nat)
    requires c < |t.nodes|
  {
    hidden(t.nodes[c].path + t.nodes[c].rule)
  }

  /** The filter that hides nothing. */
  function NoneHidden(): string -> bool {
    s => false
  }

  predicate Above(t: Tracer, p: nat, cs: seq<nat>) {
    forall j :: 0 <= j < |cs| ==> p < cs[j] < |t.nodes|
  }

  function Ids(ts: seq<PTree>): (r: seq<nat>)
    ensures |r| == |ts| && forall k :: 0 <= k < |ts| ==> r[k] == ts[k].id
  {
    seq(|ts|, k requires 0 <= k < |ts| => ts[k].id)
  }

  /** `a` keeps some of the elements of `b`, in order. */
  predicate Subsequence(a: seq<nat>, b: seq<nat>)
    decreases |b|
  {
    |a| == 0 || (|b| > 0 && ((a[0] == b[0] && Subsequence(a[1..], b[1..])) || Subsequence(a, b[1..])))
  }

  /** The children a full view keeps: the visible ones, in order. */
  function Visible(t: Tracer, hidden: string -> bool, cs: seq<nat>): seq<nat>
    requires forall j :: 0 <= j < |cs| ==> cs[j] < |t.nodes|
  {
    if |cs| == 0 then []
    else (if Hidden(t, hidden, cs[0]) then [] else [cs[0]]) + Visible(t, hidden, cs[1..])
  }

  /** A child `buildChilden` keeps: the filter does not skip it and its copy exists. */
  predicate Copied(t: Tracer, hidden: string -> bool, view: View, c: nat)
    requires ChildrenLinked(t.nodes) && c < |t.nodes|
  {
    !(view == Full && Hidden(t, hidden, c)) && GetParseTree(t, hidden, view, c).Some?
  }

  /** The children of `cs` that `buildChilden` keeps, in order. */
  function Survivors(t: Tracer, hidden: string -> bool, view: View, cs: seq<nat>): seq<nat>
    requires ChildrenLinked(t.nodes) && forall j :: 0 <= j < |cs| ==> cs[j] < |t.nodes|
  {
    if |cs| == 0 then []
    else (if Copied(t, hidden, view, cs[0]) then [cs[0]] else []) + Survivors(t, hidden, view, cs[1..])
  }

  /** Every copied node copies an arena node, and its children copy some of
      that node's children in their order. */
  predicate Faithful(t: Tracer, tr: PTree)
    decreases tr
  {
    && tr.id < |t.nodes|
    && Subsequence(Ids(tr.children), Children(t.nodes[tr.id]))
    && forall k :: 0 <= k < |tr.children| ==> Faithful(t, tr.children[k])
  }

  /** Every leaf copies a node of `fs`. */
  predicate LeavesIn(tr: PTree, fs: seq<nat>)
    decreases tr
  {
    && (|tr.children| == 0 ==> tr.id in fs)
    && forall k :: 0 <= k < |tr.children| ==> LeavesIn(tr.children[k], fs)
  }

  /** `getParseTree(type, node)`: copies node `p` with the copies of its
      matches and then its fails. The full view skips hidden children with
      their whole subtree; the failure view drops a node with no surviving
      child that is not in `maxFails`. */
  function GetParseTree(t: Tracer, hidden: string -> bool, view: View, p: nat): (r: Option<PTree>)
    requires ChildrenLinked(t.nodes) && p < |t.nodes|
    ensures r.Some? ==> r.value.id == p && Faithful(t, r.value)
    ensures view == Full ==> r.Some?
    ensures view == Full ==> Ids(r.value.children) == Visible(t, hidden, Children(t.nodes[p]))
    ensures view == Failures && p in t.maxFails ==> r.Some?
    ensures view == Failures && r.Some? ==> LeavesIn(r.value, t.maxFails)
    decreases |t.nodes| - p, 1, 0
  {
    var kids := Kids(t, hidden, view, p, Children(t.nodes[p]));
    if |kids| == 0 && view == Failures && p !in t.maxFails then None
    else Some(PTree(p, kids))
  }

  /** `buildChilden` over the child indices `cs` of node `p`. */
  function Kids(t: Tracer, hidden: string -> bool, view: View, p: nat, cs: seq<nat>): (r: seq<PTree>)
    requires ChildrenLinked(t.nodes) && p < |t.nodes| && Above(t, p, cs)
    ensures KidsOk(t, hidden, view, cs, r)
    decreases |t.nodes| - p, 0, |cs|
  {
    if |cs| == 0 then []
    else
      var rest := Kids(t, hidden, view, p, cs[1..]);
      if view == Full && Hidden(t, hidden, cs[0]) then
        SkipKid(t, hidden, view, p, cs, rest);
        rest
      else
        match GetParseTree(t, hidden, view, cs[0])
        case None =>
          SkipKid(t, hidden, view, p, cs, rest);
          rest
        case Some(k) =>
          KeepKid(t, hidden, view, p, cs, k, rest);
          [k] + rest
  }

  /** What `Kids` promises of the copies of `cs[1..]`. */
  predicate KidsOk(t: Tracer, hidden: string -> bool, view: View, cs: seq<nat>, r: seq<PTree>)
    requires forall j :: 0 <= j < |cs| ==> cs[j] < |t.nodes|
  {
    && Subsequence(Ids(r), cs)
    && (forall k :: 0 <= k < |r| ==> Faithful(t, r[k]))
    && (view == Full ==> Ids(r) == Visible(t, hidden, cs))
    && (view == Failures ==> forall k :: 0 <= k < |r| ==> LeavesIn(r[k], t.maxFails))
  }

  /** Leaving the first child out: it is hidden, or it has no copy in the failure view. */
  lemma SkipKid(t: Tracer, hidden: string -> bool, view: View, p: nat, cs: seq<nat>, rest: seq<PTree>)
    requires p < |t.nodes| && Above(t, p, cs) && |cs| > 0
    requires view == Full ==> Hidden(t, hidden, cs[0])
    requires KidsOk(t, hidden, view, cs[1..], rest)
    ensures KidsOk(t, hidden, view, cs, rest)
  {
    SkipChild(Ids(rest), cs);
  }

  /** Putting the first child's copy in front. */
  lemma KeepKid(t: Tracer, hidden: string -> bool, view: View, p: nat, cs: seq<nat>, k: PTree, rest: seq<PTree>)
    requires p < |t.nodes| && Above(t, p, cs) && |cs| > 0
    requires view == Full ==> !Hidden(t, hidden, cs[0])
    requires k.id == cs[0] && Faithful(t, k) && (view == Failures ==> LeavesIn(k, t.maxFails))
    requires KidsOk(t, hidden, view, cs[1..], rest)
    ensures KidsOk(t, hidden, view, cs, [k] + rest)
  {
    KeepChild(k, rest, cs);
  }

  lemma SkipChild(a: seq<nat>, cs: seq<nat>)
    requires |cs| > 0 && Subsequence(a, cs[1..])
    ensures Subsequence(a, cs)
  {
  }

  lemma KeepChild(k: PTree, rest: seq<PTree>, cs: seq<nat>)
    requires |cs| > 0 && k.id == cs[0] && Subsequence(Ids(rest), cs[1..])
    ensures Ids([k] + rest) == [cs[0]] + Ids(rest)
    ensures Subsequence(Ids([k] + rest), cs)
  {
    assert Ids([k] + rest) == [cs[0]] + Ids(rest);
    assert Ids([k] + rest)[1..] == Ids(rest);
  }

  /** Each of `ts` is the very copy `getParseTree` makes of its node. */
  predicate ExactCopies(t: Tracer, hidden: string -> bool, view: View, ts: seq<PTree>)
    requires ChildrenLinked(t.nodes)
  {
    forall k :: 0 <= k < |ts| ==> ts[k].id < |t.nodes| && GetParseTree(t, hidden, view, ts[k].id) == Some(ts[k])
  }

  /** `buildChilden` keeps exactly the surviving children, in order, each as
      its own full `getParseTree` copy (so the copy is exact at every depth). */
  lemma {:induction false} KidsExact(t: Tracer, hidden: string -> bool, view: View, p: nat, cs: seq<nat>)
    requires ChildrenLinked(t.nodes) && p < |t.nodes| && Above(t, p, cs)
    ensures Ids(Kids(t, hidden, view, p, cs)) == Survivors(t, hidden, view, cs)
    ensures ExactCopies(t, hidden, view, Kids(t, hidden, view, p, cs))
    decreases |cs|
  {
    if |cs| > 0 {
      KidsExact(t, hidden, view, p, cs[1..]);
      var rest := Kids(t, hidden, view, p, cs[1..]);
      if Copied(t, hidden, view, cs[0]) {
        var k := GetParseTree(t, hidden, view, cs[0]).value;
        KeepExact(t, hidden, view, p, cs, k, rest);
      } else {
        assert Kids(t, hidden, view, p, cs) == rest;
      }
    }
  }

  lemma KeepExact(t: Tracer, hidden: string -> bool, view: View, p: nat, cs: seq<nat>, k: PTree, rest: seq<PTree>)
    requires ChildrenLinked(t.nodes) && p < |t.nodes| && Above(t, p, cs) && |cs| > 0
    requires Copied(t, hidden, view, cs[0]) && GetParseTree(t, hidden, view, cs[0]) == Some(k)
    requires rest == Kids(t, hidden, view, p, cs[1..])
    requires Ids(rest) == Survivors(t, hidden, view, cs[1..]) && ExactCopies(t, hidden, view, rest)
    ensures Ids(Kids(t, hidden, view, p, cs)) == Survivors(t, hidden, view, cs)
    ensures ExactCopies(t, hidden, view, Kids(t, hidden, view, p, cs))
  {
    KidsKeepFirst(t, hidden, view, p, cs, k);
    assert Survivors(t, hidden, view, cs) == [cs[0]] + Survivors(t, hidden, view, cs[1..]);
    ExactCons(t, hidden, view, k, rest);
  }

  /** An exact copy in front of exact copies. */
  lemma ExactCons(t: Tracer, hidden: string -> bool, view: View, k: PTree, rest: seq<PTree>)
    requires ChildrenLinked(t.nodes) && k.id < |t.nodes|
    requires GetParseTree(t, hidden, view, k.id) == Some(k) && ExactCopies(t, hidden, view, rest)
    ensures Ids([k] + rest) == [k.id] + Ids(rest)
    ensures ExactCopies(t, hidden, view, [k] + rest)
  {
    var r := [k] + rest;
    forall j | 0 <= j < |r|
      ensures r[j].id < |t.nodes| && GetParseTree(t, hidden, view, r[j].id) == Some(r[j])
    {
      if j > 0 {
        assert r[j] == rest[j - 1];
      }
    }
  }

  /** A copied first child heads the kept copies. */
  lemma KidsKeepFirst(t: Tracer, hidden: string -> bool, view: View, p: nat, cs: seq<nat>, k: PTree)
    requires ChildrenLinked(t.nodes) && p < |t.nodes| && Above(t, p, cs) && |cs| > 0
    requires Copied(t, hidden, view, cs[0]) && GetParseTree(t, hidden, view, cs[0]) == Some(k)
    ensures Kids(t, hidden, view, p, cs) == [k] + Kids(t, hidden, view, p, cs[1..])
    ensures k.id == cs[0]
  {
  }

  /** A copy's children are the copies of exactly the surviving children. */
  lemma GetParseTreeExact(t: Tracer, hidden: string -> bool, view: View, p: nat)
    requires ChildrenLinked(t.nodes) && p < |t.nodes|
    requires GetParseTree(t, hidden, view, p).Some?
    ensures Ids(GetParseTree(t, hidden, view, p).value.children) == Survivors(t, hidden, view, Children(t.nodes[p]))
    ensures ExactCopies(t, hidden, view, GetParseTree(t, hidden, view, p).value.children)
  {
    KidsExact(t, hidden, view, p, Children(t.nodes[p]));
  }

  // ---------------------------------------------------------------------------
  // The failure view

  /** The failure view does not consult the path filter. */
  lemma {:induction false} FailureViewIgnoresHidden(t: Tracer, h1: string -> bool, h2: string -> bool, p: nat)
    requires ChildrenLinked(t.nodes) && p < |t.nodes|
    ensures GetParseTree(t, h1, Failures, p) == GetParseTree(t, h2, Failures, p)
    decreases |t.nodes| - p, 1, 0
  {
    KidsIgnoreHidden(t, h1, h2, p, Children(t.nodes[p]));
  }

  lemma {:induction false} KidsIgnoreHidden(t: Tracer, h1: string -> bool, h2: string -> bool, p: nat, cs: seq<nat>)
    requires ChildrenLinked(t.nodes) && p < |t.nodes| && Above(t, p, cs)
    ensures Kids(t, h1, Failures, p, cs) == Kids(t, h2, Failures, p, cs)
    decreases |t.nodes| - p, 0, |cs|
  {
    if |cs| > 0 {
      KidsIgnoreHidden(t, h1, h2, p, cs[1..]);
      FailureViewIgnoresHidden(t, h1, h2, cs[0]);
    }
  }

  function TreeIds(tr: PTree): set<nat>
    decreases tr
  {
    {tr.id} + ForestIds(tr.children)
  }

  function ForestIds(ts: seq<PTree>): set<nat>
    decreases ts
  {
    if |ts| == 0 then {} else TreeIds(ts[0]) + ForestIds(ts[1..])
  }

  /** The unfiltered copy of node `p`: every finished descendant. */
  function Unfiltered(t: Tracer, p: nat): PTree
    requires ChildrenLinked(t.nodes) && p < |t.nodes|
  {
    GetParseTree(t, NoneHidden(), Full, p).value
  }

  /** Some node of `ids` is a member of `fs`. */
  predicate Meets(ids: set<nat>, fs: seq<nat>) {
    exists m :: m in ids && m in fs
  }

  lemma MeetsUnion(a: set<nat>, b: set<nat>, fs: seq<nat>)
    ensures Meets(a + b, fs) <==> Meets(a, fs) || Meets(b, fs)
  {
    if Meets(a + b, fs) {
      var m :| m in a + b && m in fs;
    }
  }

  /** A node survives the failure view exactly when its unfiltered subtree
      holds a member of `maxFails`. */
  lemma {:induction false} SurvivesIffReachesFrontier(t: Tracer, hidden: string -> bool, p: nat)
    requires ChildrenLinked(t.nodes) && p < |t.nodes|
    ensures GetParseTree(t, hidden, Failures, p).Some? <==> Meets(TreeIds(Unfiltered(t, p)), t.maxFails)
    decreases |t.nodes| - p, 1, 0
  {
    KidsSurviveIffReachFrontier(t, hidden, p, Children(t.nodes[p]));
    var u := Unfiltered(t, p);
    assert u.id == p;
    MeetsUnion({p}, ForestIds(u.children), t.maxFails);
  }

  lemma {:induction false} KidsSurviveIffReachFrontier(t: Tracer, hidden: string -> bool, p: nat, cs: seq<nat>)
    requires ChildrenLinked(t.nodes) && p < |t.nodes| && Above(t, p, cs)
    ensures |Kids(t, hidden, Failures, p, cs)| > 0 <==>
      Meets(ForestIds(Kids(t, NoneHidden(), Full, p, cs)), t.maxFails)
    decreases |t.nodes| - p, 0, |cs|
  {
    if |cs| > 0 {
      KidsSurviveIffReachFrontier(t, hidden, p, cs[1..]);
      SurvivesIffReachesFrontier(t, hidden, cs[0]);
      FailureKidsCons(t, hidden, p, cs);
      UnfilteredKidsCons(t, p, cs);
      MeetsUnion(TreeIds(Unfiltered(t, cs[0])), ForestIds(Kids(t, NoneHidden(), Full, p, cs[1..])), t.maxFails);
    }
  }

  /** The failure view keeps some child of `cs` exactly when the first one
      survives or some later one is kept. */
  lemma FailureKidsCons(t: Tracer, hidden: string -> bool, p: nat, cs: seq<nat>)
    requires ChildrenLinked(t.nodes) && p < |t.nodes| && Above(t, p, cs) && |cs| > 0
    ensures |Kids(t, hidden, Failures, p, cs)| > 0 <==>
      GetParseTree(t, hidden, Failures, cs[0]).Some? || |Kids(t, hidden, Failures, p, cs[1..])| > 0
  {
  }

  /** The unfiltered copies of `cs` hold the first child's subtree and those of the rest. */
  lemma UnfilteredKidsCons(t: Tracer, p: nat, cs: seq<nat>)
    requires ChildrenLinked(t.nodes) && p < |t.nodes| && Above(t, p, cs) && |cs| > 0
    ensures ForestIds(Kids(t, NoneHidden(), Full, p, cs))
      == TreeIds(Unfiltered(t, cs[0])) + ForestIds(Kids(t, NoneHidden(), Full, p, cs[1..]))
  {
    var u := Kids(t, NoneHidden(), Full, p, cs);
    UnfilteredHead(t, p, cs);
    assert u[1..] == Kids(t, NoneHidden(), Full, p, cs[1..]);
  }

  /** With nothing hidden, the first child is always copied. */
  lemma UnfilteredHead(t: Tracer, p: nat, cs: seq<nat>)
    requires ChildrenLinked(t.nodes) && p < |t.nodes| && Above(t, p, cs) && |cs| > 0
    ensures Kids(t, NoneHidden(), Full, p, cs) == [Unfiltered(t, cs[0])] + Kids(t, NoneHidden(), Full, p, cs[1..])
  {
    assert !Hidden(t, NoneHidden(), cs[0]);
  }

  // ---------------------------------------------------------------------------
  // Reachability after a finished parse

  lemma {:induction false} ForestIdsMember(ts: seq<PTree>, m: nat)
    ensures m in ForestIds(ts) <==> exists k :: 0 <= k < |ts| && m in TreeIds(ts[k])
    decreases |ts|
  {
    if |ts| > 0 {
      ForestIdsMember(ts[1..], m);
      if m in ForestIds(ts[1..]) {
        var k :| 0 <= k < |ts[1..]| && m in TreeIds(ts[1..][k]);
        assert ts[1..][k] == ts[k + 1];
      }
      forall k | 0 < k < |ts| && m in TreeIds(ts[k])
        ensures m in ForestIds(ts[1..])
      {
        assert ts[1..][k - 1] == ts[k];
      }
    }
  }

  /** With nothing hidden, the copied children are the copies of all children. */
  lemma {:induction false} UnfilteredKids(t: Tracer, p: nat, cs: seq<nat>)
    requires ChildrenLinked(t.nodes) && p < |t.nodes| && Above(t, p, cs)
    ensures var u := Kids(t, NoneHidden(), Full, p, cs);
      |u| == |cs| && forall k :: 0 <= k < |cs| ==> u[k] == Unfiltered(t, cs[k])
    decreases |cs|
  {
    if |cs| > 0 {
      UnfilteredKids(t, p, cs[1..]);
      UnfilteredHead(t, p, cs);
      var u := Kids(t, NoneHidden(), Full, p, cs);
      forall k | 0 < k < |cs|
        ensures u[k] == Unfiltered(t, cs[k])
      {
        assert cs[1..][k - 1] == cs[k];
      }
    }
  }

  /** A node in an unfiltered subtree brings its own unfiltered subtree with it. */
  lemma {:induction false} SubtreeIds(t: Tracer, p: nat, q: nat)
    requires ChildrenLinked(t.nodes) && p < |t.nodes| && q < |t.nodes|
    requires q in TreeIds(Unfiltered(t, p))
    ensures TreeIds(Unfiltered(t, q)) <= TreeIds(Unfiltered(t, p))
    decreases |t.nodes| - p
  {
    if q != p {
      var cs := Children(t.nodes[p]);
      var u := Kids(t, NoneHidden(), Full, p, cs);
      UnfilteredKids(t, p, cs);
      ForestIdsMember(u, q);
      var k :| 0 <= k < |u| && q in TreeIds(u[k]);
      SubtreeIds(t, cs[k], q);
      forall m | m in TreeIds(u[k])
        ensures m in ForestIds(u)
      {
        ForestIdsMember(u, m);
      }
    }
  }

  /** Once the cursor is back at the root, every node is reachable from it. */
  lemma {:induction false} AllReachable(t: Tracer, i: nat)
    requires Valid(t) && t.current == 0 && i < |t.nodes|
    ensures i in TreeIds(Unfiltered(t, 0))
    decreases i
  {
    if i != 0 {
      var q := t.nodes[i].parent;
      AllReachable(t, q);
      assert !OnChain(t.nodes, 0, i);
      var cs := Children(t.nodes[q]);
      assert i in cs;
      var k :| 0 <= k < |cs| && cs[k] == i;
      var u := Kids(t, NoneHidden(), Full, q, cs);
      UnfilteredKids(t, q, cs);
      assert i in TreeIds(u[k]);
      ForestIdsMember(u, i);
      SubtreeIds(t, 0, q);
    }
  }

  lemma {:induction false} SurvivorsMember(t: Tracer, hidden: string -> bool, view: View, cs: seq<nat>, k: nat)
    requires ChildrenLinked(t.nodes) && forall j :: 0 <= j < |cs| ==> cs[j] < |t.nodes|
    requires k < |cs| && Copied(t, hidden, view, cs[k])
    ensures cs[k] in Survivors(t, hidden, view, cs)
    decreases k
  {
    if k > 0 {
      SurvivorsMember(t, hidden, view, cs[1..], k - 1);
      assert cs[1..][k - 1] == cs[k];
    }
  }

  /** A frontier member in the unfiltered subtree of `p` is kept in the
      failure view's copy of `p`: pruning never hides a real failure. */
  lemma {:induction false} FailureCopyKeeps(t: Tracer, hidden: string -> bool, p: nat, m: nat)
    requires ChildrenLinked(t.nodes) && p < |t.nodes|
    requires m in t.maxFails && m in TreeIds(Unfiltered(t, p))
    ensures GetParseTree(t, hidden, Failures, p).Some?
    ensures m in TreeIds(GetParseTree(t, hidden, Failures, p).value)
    decreases |t.nodes| - p
  {
    if m != p {
      var k := UnfilteredChild(t, p, m);
      var cs := Children(t.nodes[p]);
      FailureCopyKeeps(t, hidden, cs[k], m);
      KeptChildInCopy(t, hidden, p, k, m);
    }
  }

  /** A node below `p` in the unfiltered tree lies below one of `p`'s children. */
  lemma UnfilteredChild(t: Tracer, p: nat, m: nat) returns (k: nat)
    requires ChildrenLinked(t.nodes) && p < |t.nodes|
    requires m != p && m in TreeIds(Unfiltered(t, p))
    ensures k < |Children(t.nodes[p])| && m in TreeIds(Unfiltered(t, Children(t.nodes[p])[k]))
  {
    var cs := Children(t.nodes[p]);
    var u := Kids(t, NoneHidden(), Full, p, cs);
    UnfilteredKids(t, p, cs);
    assert m in ForestIds(u);
    ForestIdsMember(u, m);
    k :| 0 <= k < |u| && m in TreeIds(u[k]);
  }

  /** A node inside a child's failure-view copy is inside the parent's copy. */
  lemma KeptChildInCopy(t: Tracer, hidden: string -> bool, p: nat, k: nat, m: nat)
    requires ChildrenLinked(t.nodes) && p < |t.nodes| && k < |Children(t.nodes[p])|
    requires GetParseTree(t, hidden, Failures, Children(t.nodes[p])[k]).Some?
    requires m in TreeIds(GetParseTree(t, hidden, Failures, Children(t.nodes[p])[k]).value)
    ensures GetParseTree(t, hidden, Failures, p).Some?
    ensures m in TreeIds(GetParseTree(t, hidden, Failures, p).value)
  {
    var cs := Children(t.nodes[p]);
    var c := GetParseTree(t, hidden, Failures, cs[k]).value;
    SurvivorsMember(t, hidden, Failures, cs, k);
    var r := Kids(t, hidden, Failures, p, cs);
    KidsExact(t, hidden, Failures, p, cs);
    var j :| 0 <= j < |Ids(r)| && Ids(r)[j] == cs[k];
    assert r[j] == c;
    ForestIdsMember(r, m);
  }

  /** After a finished parse every frontier member appears in the backtrace tree. */
  lemma FrontierInBacktrace(t: Tracer, hidden: string -> bool, m: nat)
    requires Valid(t) && t.current == 0 && m in t.maxFails
    ensures GetParseTree(t, hidden, Failures, 0).Some?
    ensures m in TreeIds(GetParseTree(t, hidden, Failures, 0).value)
  {
    AllReachable(t, m);
    FailureCopyKeeps(t, hidden, 0, m);
  }

  /** After a finished parse the backtrace tree exists exactly when some
      failure was recorded. */
  lemma BacktraceExistsIffFailures(t: Tracer, hidden: string -> bool)
    requires Valid(t) && t.current == 0
    ensures GetParseTree(t, hidden, Failures, 0).Some? <==> |t.maxFails| > 0
  {
    SurvivesIffReachesFrontier(t, hidden, 0);
    if |t.maxFails| > 0 {
      AllReachable(t, t.maxFails[0]);
      assert t.maxFails[0] in t.maxFails;
    }
  }

  // ---------------------------------------------------------------------------
  // Pre-order flattening

  /** One element of `treeToList`'s output: the copied node and the list
      position of its parent copy (`-1` for the tree's root, whose parent is null). */
  datatype Entry = Entry(id: nat, parent: int)

  function Size(tr: PTree): nat
    decreases tr
  {
    1 + ForestSize(tr.children)
  }

  function ForestSize(ts: seq<PTree>): nat
    decreases ts
  {
    if |ts| == 0 then 0 else Size(ts[0]) + ForestSize(ts[1..])
  }

  /** `treeToList(tree)` for a tree whose copy starts at list position `base`
      and whose parent copy sits at `parentPos`. */
  function TreeToList(tr: PTree, base: int, parentPos: int): (r: seq<Entry>)
    requires parentPos < base
    ensures |r| == Size(tr)
    ensures r[0] == Entry(tr.id, parentPos)
    ensures forall k :: 0 < k < |r| ==> base <= r[k].parent < base + k
    decreases tr
  {
    [Entry(tr.id, parentPos)] + ForestToList(tr.children, base + 1, base)
  }

  /** The children's lists, one after the other. */
  function ForestToList(ts: seq<PTree>, base: int, parentPos: int): (r: seq<Entry>)
    requires parentPos < base
    ensures |r| == ForestSize(ts)
    ensures forall k :: 0 <= k < |r| ==> r[k].parent == parentPos || base <= r[k].parent < base + k
    decreases ts
  {
    if |ts| == 0 then []
    else
      var first := TreeToList(ts[0], base, parentPos);
      var rest := ForestToList(ts[1..], base + |first|, parentPos);
      assert forall k :: |first| <= k < |first| + |rest| ==> (first + rest)[k] == rest[k - |first|];
      first + rest
  }

  /** `treeToList` of a possibly null tree. */
  function ListOf(tree: Option<PTree>): (r: seq<Entry>)
    ensures tree.None? <==> |r| == 0
    ensures tree.Some? ==> |r| == Size(tree.value) && r[0] == Entry(tree.value.id, -1)
    ensures forall k :: 0 < k < |r| ==> 0 <= r[k].parent < k
  {
    if tree.None? then [] else TreeToList(tree.value, 0, -1)
  }

  /** The copied node of each entry, in list order. */
  function EntryIds(r: seq<Entry>): seq<nat> {
    seq(|r|, k requires 0 <= k < |r| => r[k].id)
  }

  /** Pre-order: a node, then its children's subtrees left to right. */
  function PreOrder(tr: PTree): seq<nat>
    decreases tr
  {
    [tr.id] + ForestPreOrder(tr.children)
  }

  function ForestPreOrder(ts: seq<PTree>): seq<nat>
    decreases ts
  {
    if |ts| == 0 then [] else PreOrder(ts[0]) + ForestPreOrder(ts[1..])
  }

  lemma ConcatIds(x: seq<Entry>, a: seq<Entry>, b: seq<Entry>, pa: seq<nat>, pb: seq<nat>)
    requires x == a + b && EntryIds(a) == pa && EntryIds(b) == pb
    ensures EntryIds(x) == pa + pb
  {
  }

  /** `treeToList` lists the copies in pre-order. */
  lemma {:induction false} ListPreOrder(tr: PTree, base: int, parentPos: int)
    requires parentPos < base
    ensures EntryIds(TreeToList(tr, base, parentPos)) == PreOrder(tr)
    decreases tr
  {
    var f := ForestToList(tr.children, base + 1, base);
    ForestListPreOrder(tr.children, base + 1, base);
    ConcatIds(TreeToList(tr, base, parentPos), [Entry(tr.id, parentPos)], f, [tr.id], ForestPreOrder(tr.children));
  }

  lemma {:induction false} ForestListPreOrder(ts: seq<PTree>, base: int, parentPos: int)
    requires parentPos < base
    ensures EntryIds(ForestToList(ts, base, parentPos)) == ForestPreOrder(ts)
    decreases ts
  {
    if |ts| > 0 {
      var first := TreeToList(ts[0], base, parentPos);
      var rest := ForestToList(ts[1..], base + Size(ts[0]), parentPos);
      ForestToListCons(ts, base, parentPos);
      ListPreOrder(ts[0], base, parentPos);
      ForestListPreOrder(ts[1..], base + Size(ts[0]), parentPos);
      ConcatIds(ForestToList(ts, base, parentPos), first, rest, PreOrder(ts[0]), ForestPreOrder(ts[1..]));
    }
  }

  lemma ForestToListCons(ts: seq<PTree>, base: int, parentPos: int)
    requires parentPos < base && |ts| > 0
    ensures ForestToList(ts, base, parentPos)
         == TreeToList(ts[0], base, parentPos) + ForestToList(ts[1..], base + Size(ts[0]), parentPos)
  {
  }

  /** The pre-order holds every node of the tree and nothing else. */
  lemma {:induction false} PreOrderIds(tr: PTree, m: nat)
    ensures m in PreOrder(tr) <==> m in TreeIds(tr)
    decreases tr
  {
    ForestPreOrderIds(tr.children, m);
  }

  lemma {:induction false} ForestPreOrderIds(ts: seq<PTree>, m: nat)
    ensures m in ForestPreOrder(ts) <==> m in ForestIds(ts)
    decreases ts
  {
    if |ts| > 0 {
      PreOrderIds(ts[0], m);
      ForestPreOrderIds(ts[1..], m);
    }
  }

  /** `treeToList(getParseTree(...))`: the copies in pre-order, every node of the tree listed. */
  lemma ListOfPreOrder(tree: Option<PTree>, m: nat)
    ensures tree.Some? ==> EntryIds(ListOf(tree)) == PreOrder(tree.value)
    ensures tree.Some? ==> (m in EntryIds(ListOf(tree)) <==> m in TreeIds(tree.value))
  {
    if tree.Some? {
      ListPreOrder(tree.value, 0, -1);
      PreOrderIds(tree.value, m);
    }
  }

  /** The entry at a list position `base + j` copies the arena parent of every
      entry that names that position as its parent. */
  predicate ParentsNamed(t: Tracer, r: seq<Entry>, base: int) {
    forall k :: 0 <= k < |r| && base <= r[k].parent < base + k ==>
      r[k].id < |t.nodes| && t.nodes[r[k].id].parent == r[r[k].parent - base].id
  }

  /** The entries whose parent copy lies outside the list copy children of `parentId`. */
  predicate TopParents(t: Tracer, r: seq<Entry>, parentPos: int, parentId: nat) {
    forall k :: 0 <= k < |r| && r[k].parent == parentPos ==>
      r[k].id < |t.nodes| && t.nodes[r[k].id].parent == parentId
  }

  /** In a faithful copy, the list's parent positions name the arena parents:
      the copy a node converges to in the graph copies its parent node. */
  lemma {:induction false} ListParentsFaithful(t: Tracer, tr: PTree, base: int, parentPos: int)
    requires ChildrenLinked(t.nodes) && Faithful(t, tr) && parentPos < base
    ensures ParentsNamed(t, TreeToList(tr, base, parentPos), base)
    decreases tr
  {
    var r := TreeToList(tr, base, parentPos);
    var f := ForestToList(tr.children, base + 1, base);
    assert r == [Entry(tr.id, parentPos)] + f;
    SubsequenceMembers(Ids(tr.children), Children(t.nodes[tr.id]));
    ForestParentsFaithful(t, tr.children, base + 1, base, tr.id);
    HeadParents(t, tr.id, parentPos, f, base);
  }

  /** A node's entry in front of its children's lists keeps the parent copies. */
  lemma HeadParents(t: Tracer, id: nat, parentPos: int, f: seq<Entry>, base: int)
    requires parentPos < base
    requires forall k :: 0 <= k < |f| ==> f[k].parent == base || base + 1 <= f[k].parent < base + 1 + k
    requires ParentsNamed(t, f, base + 1) && TopParents(t, f, base, id)
    ensures ParentsNamed(t, [Entry(id, parentPos)] + f, base)
  {
    var r := [Entry(id, parentPos)] + f;
    forall k | 0 < k < |r| && base <= r[k].parent < base + k
      ensures r[k].id < |t.nodes| && t.nodes[r[k].id].parent == r[r[k].parent - base].id
    {
      assert r[k] == f[k - 1];
      if f[k - 1].parent != base {
        assert r[f[k - 1].parent - base] == f[f[k - 1].parent - (base + 1)];
      } else {
        assert r[r[k].parent - base] == r[0];
      }
    }
  }

  /** Faithful copies of children of `parentId`. */
  predicate ChildCopies(t: Tracer, ts: seq<PTree>, parentId: nat)
    requires parentId < |t.nodes|
  {
    forall k :: 0 <= k < |ts| ==> Faithful(t, ts[k]) && ts[k].id in Children(t.nodes[parentId])
  }

  lemma ChildCopiesTail(t: Tracer, ts: seq<PTree>, parentId: nat)
    requires parentId < |t.nodes| && ChildCopies(t, ts, parentId) && |ts| > 0
    ensures ChildCopies(t, ts[1..], parentId)
    ensures Faithful(t, ts[0]) && ts[0].id in Children(t.nodes[parentId])
  {
    forall k | 0 <= k < |ts[1..]|
      ensures Faithful(t, ts[1..][k]) && ts[1..][k].id in Children(t.nodes[parentId])
    {
      assert ts[1..][k] == ts[k + 1];
    }
  }

  lemma {:induction false} ForestParentsFaithful(t: Tracer, ts: seq<PTree>, base: int, parentPos: int, parentId: nat)
    requires ChildrenLinked(t.nodes) && parentPos < base && parentId < |t.nodes|
    requires ChildCopies(t, ts, parentId)
    ensures ParentsNamed(t, ForestToList(ts, base, parentPos), base)
    ensures TopParents(t, ForestToList(ts, base, parentPos), parentPos, parentId)
    decreases ts
  {
    if |ts| > 0 {
      var first := TreeToList(ts[0], base, parentPos);
      var rest := ForestToList(ts[1..], base + |first|, parentPos);
      var r := ForestToList(ts, base, parentPos);
      assert r == first + rest;
      ChildCopiesTail(t, ts, parentId);
      ListParentsFaithful(t, ts[0], base, parentPos);
      ForestParentsFaithful(t, ts[1..], base + |first|, parentPos, parentId);
      ChildLinksBack(t, parentId, ts[0].id);
      ConcatParents(t, first, rest, base, parentPos, parentId);
    }
  }

  /** Two lists laid out one after the other keep their parent copies. */
  lemma ConcatParents(t: Tracer, first: seq<Entry>, rest: seq<Entry>, base: int, parentPos: int, parentId: nat)
    requires parentPos < base && |first| >= 1
    requires first[0].parent == parentPos && first[0].id < |t.nodes| && t.nodes[first[0].id].parent == parentId
    requires forall k :: 0 < k < |first| ==> base <= first[k].parent < base + k
    requires ParentsNamed(t, first, base)
    requires forall k :: 0 <= k < |rest| ==> rest[k].parent == parentPos || base + |first| <= rest[k].parent < base + |first| + k
    requires ParentsNamed(t, rest, base + |first|) && TopParents(t, rest, parentPos, parentId)
    ensures ParentsNamed(t, first + rest, base)
    ensures TopParents(t, first + rest, parentPos, parentId)
  {
    var r := first + rest;
    forall k | 0 <= k < |r| && base <= r[k].parent < base + k
      ensures r[k].id < |t.nodes| && t.nodes[r[k].id].parent == r[r[k].parent - base].id
    {
      if k < |first| {
        assert r[k] == first[k];
      } else {
        assert r[k] == rest[k - |first|];
        assert r[r[k].parent - base] == rest[r[k].parent - (base + |first|)];
      }
    }
    forall k | 0 <= k < |r| && r[k].parent == parentPos
      ensures r[k].id < |t.nodes| && t.nodes[r[k].id].parent == parentId
    {
      if k < |first| {
        assert r[k] == first[k];
      } else {
        assert r[k] == rest[k - |first|];
      }
    }
  }

  /** A listed child points back at its parent. */
  lemma ChildLinksBack(t: Tracer, p: nat, c: nat)
    requires ChildrenLinked(t.nodes) && p < |t.nodes| && c in Children(t.nodes[p])
    ensures c < |t.nodes| && t.nodes[c].parent == p
  {
    var j :| 0 <= j < |Children(t.nodes[p])| && Children(t.nodes[p])[j] == c;
  }

  lemma {:induction false} SubsequenceMembers(a: seq<nat>, b: seq<nat>)
    requires Subsequence(a, b)
    ensures forall x :: x in a ==> x in b
    decreases |b|
  {
    if |a| > 0 {
      if a[0] == b[0] && Subsequence(a[1..], b[1..]) {
        SubsequenceMembers(a[1..], b[1..]);
        assert a == [a[0]] + a[1..];
      } else {
        SubsequenceMembers(a, b[1..]);
      }
    }
  }

  /** Every node below the top of a faithful copy comes later in the arena
      than the top: children are appended after their parents. */
  lemma {:induction false} ListIdsAbove(t: Tracer, tr: PTree, base: int, parentPos: int)
    requires ChildrenLinked(t.nodes) && Faithful(t, tr) && parentPos < base
    ensures forall k :: 0 < k < |TreeToList(tr, base, parentPos)| ==> TreeToList(tr, base, parentPos)[k].id > tr.id
    decreases tr
  {
    var r := TreeToList(tr, base, parentPos);
    var f := ForestToList(tr.children, base + 1, base);
    assert r == [Entry(tr.id, parentPos)] + f;
    SubsequenceMembers(Ids(tr.children), Children(t.nodes[tr.id]));
    forall k | 0 <= k < |tr.children|
      ensures tr.children[k].id > tr.id
    {
      assert Ids(tr.children)[k] == tr.children[k].id;
      ChildAbove(t, tr.id, tr.children[k].id);
    }
    ForestIdsAbove(t, tr.children, base + 1, base, tr.id);
    assert forall k :: 0 < k < |r| ==> r[k] == f[k - 1];
  }

  lemma {:induction false} ForestIdsAbove(t: Tracer, ts: seq<PTree>, base: int, parentPos: int, p: nat)
    requires ChildrenLinked(t.nodes) && parentPos < base
    requires forall k :: 0 <= k < |ts| ==> Faithful(t, ts[k]) && ts[k].id > p
    ensures forall k :: 0 <= k < |ForestToList(ts, base, parentPos)| ==> ForestToList(ts, base, parentPos)[k].id > p
    decreases ts
  {
    if |ts| > 0 {
      var first := TreeToList(ts[0], base, parentPos);
      var rest := ForestToList(ts[1..], base + |first|, parentPos);
      var r := ForestToList(ts, base, parentPos);
      assert r == first + rest;
      ListIdsAbove(t, ts[0], base, parentPos);
      ForestIdsAbove(t, ts[1..], base + |first|, parentPos, p);
      forall k | 0 <= k < |r|
        ensures r[k].id > p
      {
        if k < |first| {
          assert r[k] == first[k];
        } else {
          assert r[k] == rest[k - |first|];
        }
      }
    }
  }

  lemma ChildAbove(t: Tracer, p: nat, c: nat)
    requires ChildrenLinked(t.nodes) && p < |t.nodes| && c in Children(t.nodes[p])
    ensures p < c
  {
    var j :| 0 <= j < |Children(t.nodes[p])| && Children(t.nodes[p])[j] == c;
  }
}

=== FILE: render.dfy ===
/** The tracer's text output: the per-node text `buildNodeText` draws (a
    title line, then the quoted source excerpt) and the two entry points
    that render the parse tree and the backtrace as column graphs. */
module Render {
  import opened Results
  import opened TextUtil
  import opened TraceEvents
  import TextQuoter
  import opened TraceTree
  import opened ParseTree
  import opened NodeGraph

  /** The tracer options that shape the text; hidden paths are the `hidden` filter. */
  datatype Options = Options(useColor: bool, maxSourceLines: int, showSource: bool,
                             showTrace: bool, showFullPath: bool, maxPathLength: int)

  /** The options of a tracer built without any. */
  const Defaults: Options := Options(true, 6, true, false, false, 64)

  const Thin: Style := Style(None, None, Some("thin"))
  const RuleStyle: Style := Style(Some("yellow"), None, Some("bold"))

  const NoTrace: string :=
    "No trace found. Make sure you use `pegjs --trace` to build your parser javascript."
  const NoBacktrace: string :=
    "No backtrace found. Make sure you use `pegjs --trace` to build your parser javascript.\n"
    + "Or, the failure might occur in the start node."

  // ---------------------------------------------------------------------------
  // Decimal numerals

  predicate IsDigit(c: char) {
    '0' <= c <= '9'
  }

  function DigitChar(d: nat): (c: char)
    requires d < 10
    ensures IsDigit(c) && c as int - '0' as int == d
  {
    ('0' as int + d) as char
  }

  /** `String(n)` for a natural number: its decimal digits, without leading zeros. */
  function Digits(n: nat): (r: string)
    ensures |r| >= 1 && forall i :: 0 <= i < |r| ==> IsDigit(r[i])
    ensures r[0] == '0' <==> n == 0
  {
    if n < 10 then [DigitChar(n)] else Digits(n / 10) + [DigitChar(n % 10)]
  }

  /** The number a string of decimal digits denotes. */
  function ValueOf(s: string): int
    requires forall i :: 0 <= i < |s| ==> IsDigit(s[i])
  {
    if |s| == 0 then 0 else ValueOf(s[..|s| - 1]) * 10 + (s[|s| - 1] as int - '0' as int)
  }

  /** Reading the digits back gives the number. */
  lemma {:induction false} DigitsRoundTrip(n: nat)
    ensures ValueOf(Digits(n)) == n
    decreases n
  {
    if n >= 10 {
      DigitsRoundTrip(n / 10);
      var r := Digits(n);
      assert r[..|r| - 1] == Digits(n / 10);
    }
  }

  /** `String(n)` for an integer. */
  function NumberText(n: int): (r: string)
    ensures |r| >= 1
    ensures r[0] == '-' <==> n < 0
    ensures n >= 0 ==> r == Digits(n)
    ensures n < 0 ==> r[1..] == Digits(-n)
  {
    if n < 0 then "-" + Digits(-n) else Digits(n)
  }

  /** The location part of a title: `line:column-line:column`. */
  function LocationText(loc: Location): (r: string)
    ensures |r| >= 1 && (IsDigit(r[0]) || r[0] == '-')
  {
    NumberText(loc.start.line) + ":" + NumberText(loc.start.column) + "-"
    + NumberText(loc.end.line) + ":" + NumberText(loc.end.column)
  }

  // ---------------------------------------------------------------------------
  // Node text

  /** The rule part of a title: the rule name, behind its truncated path when full paths are shown. */
  function RuleText(o: Options, n: Node): string {
    if o.showFullPath then Truncate(n.path, o.maxPathLength) + n.rule else n.rule
  }

  function TitleParts(o: Options, n: Node): (r: seq<string>)
    ensures |r| == (if o.showTrace then 3 else 2)
    ensures !o.useColor ==> r[|r| - 1] == RuleText(o, n)
    ensures !o.useColor ==> r[|r| - 2] == LocationText(n.location)
    ensures !o.useColor && o.showTrace ==> r[0] == "#" + NumberText(n.number)
  {
    (if o.showTrace then [SetTextStyleIf(o.useColor, "#" + NumberText(n.number), Some(Thin), None, None)] else [])
    + [SetTextStyleIf(o.useColor, LocationText(n.location), Some(Thin), None, None)]
    + [SetTextStyleIf(o.useColor, RuleText(o, n), Some(RuleStyle), None, None)]
  }

  /** The first line of `buildNodeText`: the node number when traces are
      shown, the location, and the rule, separated by spaces. */
  function Title(o: Options, n: Node): string {
    Join(TitleParts(o, n), " ")
  }

  /** Without colour, a title starts with `#` exactly when traces are shown and
      always ends with the rule text. */
  lemma TitleEnds(o: Options, n: Node)
    requires !o.useColor
    ensures var r := Title(o, n);
      && (|r| > 0 && r[0] == '#' <==> o.showTrace)
      && |RuleText(o, n)| <= |r| && r[|r| - |RuleText(o, n)|..] == RuleText(o, n)
  {
    var parts := TitleParts(o, n);
    JoinEnds(parts, " ");
    var r := Join(parts, " ");
    assert |parts[0]| > 0;
    assert r[0] == parts[0][0];
  }

  /** Without colour or trace numbers, a title is the location, a space and the rule text. */
  lemma TitleWithoutTrace(o: Options, n: Node)
    requires !o.useColor && !o.showTrace
    ensures Title(o, n) == LocationText(n.location) + " " + RuleText(o, n)
  {
    var parts := TitleParts(o, n);
    assert Join(parts, " ") == parts[0] + " " + Join(parts[1..], " ");
  }

  /** A join of at least one part starts with the first part and ends with the last. */
  lemma {:induction false} JoinEnds(parts: seq<string>, sep: string)
    requires |parts| >= 1
    ensures parts[0] <= Join(parts, sep)
    ensures var j, l := Join(parts, sep), parts[|parts| - 1];
      |l| <= |j| && j[|j| - |l|..] == l
    decreases |parts|
  {
    if |parts| > 1 {
      JoinEnds(parts[1..], sep);
      var j, l := Join(parts, sep), parts[|parts| - 1];
      var rest := Join(parts[1..], sep);
      assert j == (parts[0] + sep) + rest;
      assert parts[1..][|parts[1..]| - 1] == l;
      assert j[|j| - |l|..] == rest[|rest| - |l|..];
    }
  }

  /** Every node drawn from a tree list (each entry below the top one) has a
      location the quoter can excerpt. */
  predicate Quotable(q: TextQuoter.Quoter, t: Tracer, list: seq<Entry>) {
    forall k :: 0 < k < |list| && list[k].id < |t.nodes| ==> QuotableRange(q, t.nodes[list[k].id].location)
  }

  /** The quoter a tracer builds for itself, `new TextQuoter(source, { useColor })`:
      it colours exactly when the tracer does and keeps the default highlight. */
  predicate QuoterFor(o: Options, q: TextQuoter.Quoter) {
    q.useColor == o.useColor && q.highlight == TextQuoter.DefaultHighlight
  }

  /** The tracer's own quoter, and the nodes the graph of a view draws can be
      excerpted when sources are shown. */
  predicate Drawable(o: Options, q: TextQuoter.Quoter, t: Tracer, hidden: string -> bool, view: View)
    requires ChildrenLinked(t.nodes) && |t.nodes| > 0
  {
    QuoterFor(o, q) && (o.showSource ==> Quotable(q, t, ListOf(GetParseTree(t, hidden, view, 0))))
  }

  /** `buildNodeText(node, withSource)`: the title, then the node's source
      excerpt when sources are shown; quoting fails where `getQuotedLines` throws. */
  function NodeText(o: Options, q: TextQuoter.Quoter, n: Node): (r: Result<seq<string>>)
    requires QuoterFor(o, q)
    requires o.showSource ==> QuotableRange(q, n.location)
    ensures r.Success? ==> |r.value| >= 1 && r.value[0] == Title(o, n)
    ensures !o.showSource ==> r == Success([Title(o, n)])
    ensures o.showSource ==> (r.Success? <==> SourceLines(q, "", n.location, o.maxSourceLines).Success?)
    ensures o.showSource && r.Success? ==> r.value[1..] == SourceLines(q, "", n.location, o.maxSourceLines).value
    ensures r.Failure? ==> r.error == InvalidArrayLength
  {
    var title := Title(o, n);
    if !o.showSource then Success([title])
    else
      var lines :- SourceLines(q, "", n.location, o.maxSourceLines);
      assert ([title] + lines)[1..] == lines;
      Success([title] + lines)
  }

  // ---------------------------------------------------------------------------
  // From tree list to graph items

  /** A tree list below its top entry: parents precede children and every
      entry names a node other than the root. */
  predicate ListShape(t: Tracer, list: seq<Entry>) {
    && |list| > 0
    && forall k :: 0 < k < |list| ==> 0 <= list[k].parent < k && 0 < list[k].id < |t.nodes|
  }

  /** The graph item of one node: its type, its parent's position and its text. */
  function ItemOf(o: Options, q: TextQuoter.Quoter, n: Node, parent: int): (r: Result<Item>)
    requires QuoterFor(o, q)
    requires o.showSource ==> QuotableRange(q, n.location)
    ensures r.Success? <==> NodeText(o, q, n).Success?
    ensures r.Success? ==> ItemDraws(o, q, n, parent, r.value)
    ensures r.Failure? ==> r.error == InvalidArrayLength
  {
    var text :- NodeText(o, q, n);
    assert [text[0]] + text[1..] == text;
    Success(Item(n.kind, parent, text[0], text[1..]))
  }

  /** `item` is the graph item of node `n` whose parent copy sits at `parent`. */
  predicate ItemDraws(o: Options, q: TextQuoter.Quoter, n: Node, parent: int, item: Item)
    requires QuoterFor(o, q)
    requires o.showSource ==> QuotableRange(q, n.location)
  {
    item.kind == n.kind && item.parent == parent && NodeText(o, q, n) == Success([item.title] + item.source)
  }

  /** `items` are the graph items of `list[1..|items|+1]`. */
  predicate Draws(o: Options, q: TextQuoter.Quoter, t: Tracer, list: seq<Entry>, items: seq<Item>)
    requires ListShape(t, list) && QuoterFor(o, q)
    requires o.showSource ==> Quotable(q, t, list)
  {
    && |items| < |list|
    && forall j :: 0 <= j < |items| ==>
      ItemDraws(o, q, t.nodes[list[j + 1].id], list[j + 1].parent - 1, items[j])
  }

  /** The graph items of `list[1..n+1]`, as `buildNodeGraph` sees the list
      after its top entry is shifted off: positions and parent positions drop
      by one. The first node whose excerpt cannot be quoted fails the whole list. */
  function Items(o: Options, q: TextQuoter.Quoter, t: Tracer, list: seq<Entry>, n: nat): (r: Result<seq<Item>>)
    requires ListShape(t, list) && n < |list| && QuoterFor(o, q)
    requires o.showSource ==> Quotable(q, t, list)
    ensures !o.showSource ==> r.Success?
    ensures r.Failure? ==> r.error == InvalidArrayLength
    ensures r.Success? ==> |r.value| == n && WellFormed(r.value) && Draws(o, q, t, list, r.value)
  {
    if n == 0 then Success([])
    else
      var prev := Items(o, q, t, list, n - 1);
      if prev.Failure? then prev
      else
        var e := list[n];
        assert o.showSource ==> QuotableRange(q, t.nodes[e.id].location);
        var it := ItemOf(o, q, t.nodes[e.id], e.parent - 1);
        if it.Failure? then Failure(it.error)
        else
          DrawsOneMore(o, q, t, list, n, prev.value, it.value);
          Success(prev.value + [it.value])
  }

  lemma DrawsOneMore(o: Options, q: TextQuoter.Quoter, t: Tracer, list: seq<Entry>, n: nat, prev: seq<Item>, it: Item)
    requires ListShape(t, list) && QuoterFor(o, q) && (o.showSource ==> Quotable(q, t, list))
    requires Draws(o, q, t, list, prev) && WellFormed(prev) && |prev| + 1 == n < |list|
    requires ItemDraws(o, q, t.nodes[list[n].id], list[n].parent - 1, it)
    ensures Draws(o, q, t, list, prev + [it]) && WellFormed(prev + [it])
  {
    var r := prev + [it];
    forall j | 0 <= j < |r|
      ensures r[j].parent < j
      ensures ItemDraws(o, q, t.nodes[list[j + 1].id], list[j + 1].parent - 1, r[j])
    {
      if j < |prev| {
        assert r[j] == prev[j];
        assert ItemDraws(o, q, t.nodes[list[j + 1].id], list[j + 1].parent - 1, prev[j]);
      }
    }
  }

  /** The rows drawn for a tree, or nothing when there is no tree. */
  function GraphLines(o: Options, q: TextQuoter.Quoter, t: Tracer, hidden: string -> bool, view: View)
    : (r: Option<Result<seq<string>>>)
    requires ChildrenLinked(t.nodes) && |t.nodes| > 0
    requires Drawable(o, q, t, hidden, view)
    ensures r.None? <==> GetParseTree(t, hidden, view, 0).None?
    ensures r.Some? && !o.showSource ==> r.value.Success?
    ensures r.Some? && r.value.Failure? ==> r.value.error == InvalidArrayLength
    ensures r.Some? && r.value.Success? ==>
      |r.value.value| >= Size(GetParseTree(t, hidden, view, 0).value) - 1
  {
    var tree := GetParseTree(t, hidden, view, 0);
    var list := ListOf(tree);
    if |list| == 0 then None
    else
      ListParentsFaithful(t, tree.value, 0, -1);
      ListIdsAbove(t, tree.value, 0, -1);
      Some(ListRows(o, q, t, list))
  }

  /** The rows `buildNodeGraph` draws for a tree list after its top entry,
      or the first quoting failure. */
  function ListRows(o: Options, q: TextQuoter.Quoter, t: Tracer, list: seq<Entry>): (r: Result<seq<string>>)
    requires ListShape(t, list) && QuoterFor(o, q)
    requires o.showSource ==> Quotable(q, t, list)
    ensures !o.showSource ==> r.Success?
    ensures r.Failure? ==> r.error == InvalidArrayLength
    ensures r.Success? ==> |r.value| >= |list| - 1
  {
    var items := Items(o, q, t, list, |list| - 1);
    if items.Failure? then Failure(items.error)
    else Success(BuildNodeGraph(o.useColor, o.showSource, items.value))
  }

  /** The graph items keep the arena's parent links: an item whose parent
      position is in the list draws a node whose arena parent is the node
      drawn at that position. */
  lemma ItemParentsNamed(o: Options, q: TextQuoter.Quoter, t: Tracer, hidden: string -> bool, view: View)
    requires ChildrenLinked(t.nodes) && |t.nodes| > 0
    requires Drawable(o, q, t, hidden, view)
    requires GetParseTree(t, hidden, view, 0).Some?
    ensures var list := ListOf(GetParseTree(t, hidden, view, 0));
      ListShape(t, list) &&
      var items := Items(o, q, t, list, |list| - 1);
      items.Success? ==> forall j :: 0 <= j < |items.value| && items.value[j].parent >= 0 ==>
        t.nodes[list[j + 1].id].parent == list[items.value[j].parent + 1].id
  {
    var tree := GetParseTree(t, hidden, view, 0);
    ListParentsFaithful(t, tree.value, 0, -1);
    ListIdsAbove(t, tree.value, 0, -1);
  }

  // ---------------------------------------------------------------------------
  // Entry points

  /** The joined rows, or the quoting failure. */
  function JoinRows(rows: Result<seq<string>>): (r: Result<string>)
    ensures r.Success? <==> rows.Success?
    ensures r.Success? ==> r.value == Join(rows.value, "\n")
    ensures r.Failure? ==> r.error == rows.error
  {
    if rows.Failure? then Failure(rows.error) else Success(Join(rows.value, "\n"))
  }

  /** `getParseTreeString()`: the full tree drawn as a graph. */
  function GetParseTreeString(o: Options, q: TextQuoter.Quoter, t: Tracer, hidden: string -> bool): (r: Result<string>)
    requires ChildrenLinked(t.nodes) && |t.nodes| > 0
    requires Drawable(o, q, t, hidden, Full)
    ensures GraphLines(o, q, t, hidden, Full).Some?
    ensures r == JoinRows(GraphLines(o, q, t, hidden, Full).value)
    ensures !o.showSource ==> r.Success?
  {
    var lines := GraphLines(o, q, t, hidden, Full);
    if lines.None? then Success(NoTrace) else JoinRows(lines.value)
  }

  /** `getBacktraceString()`: the failure view drawn as a graph, or a hint
      when no node survives it. */
  function GetBacktraceString(o: Options, q: TextQuoter.Quoter, t: Tracer, hidden: string -> bool): (r: Result<string>)
    requires ChildrenLinked(t.nodes) && |t.nodes| > 0
    requires Drawable(o, q, t, hidden, Failures)
    ensures GetParseTree(t, hidden, Failures, 0).None? ==> r == Success(NoBacktrace)
    ensures GetParseTree(t, hidden, Failures, 0).Some? ==> r == JoinRows(GraphLines(o, q, t, hidden, Failures).value)
    ensures !o.showSource ==> r.Success?
  {
    var lines := GraphLines(o, q, t, hidden, Failures);
    if lines.None? then Success(NoBacktrace) else JoinRows(lines.value)
  }

  /** After a finished parse the hint is printed exactly when no failure was recorded. */
  lemma BacktraceHintIffNoFailures(o: Options, q: TextQuoter.Quoter, t: Tracer, hidden: string -> bool)
    requires Valid(t) && t.current == 0
    requires Drawable(o, q, t, hidden, Failures)
    ensures |t.maxFails| == 0 ==> GetBacktraceString(o, q, t, hidden) == Success(NoBacktrace)
    ensures |t.maxFails| > 0 ==>
      && GraphLines(o, q, t, hidden, Failures).Some?
      && GetBacktraceString(o, q, t, hidden) == JoinRows(GraphLines(o, q, t, hidden, Failures).value)
  {
    BacktraceExistsIffFailures(t, hidden);
  }

  /** Hidden paths play no part in the backtrace. */
  lemma BacktraceIgnoresHidden(o: Options, q: TextQuoter.Quoter, t: Tracer, h1: string -> bool, h2: string -> bool)
    requires ChildrenLinked(t.nodes) && |t.nodes| > 0
    requires Drawable(o, q, t, h1, Failures) && Drawable(o, q, t, h2, Failures)
    ensures GetBacktraceString(o, q, t, h1) == GetBacktraceString(o, q, t, h2)
  {
    FailureViewIgnoresHidden(t, h1, h2, 0);
    SameTreeSameLines(o, q, t, h1, h2, Failures);
  }

  /** The rows depend on the filter only through the tree it leaves. */
  lemma SameTreeSameLines(o: Options, q: TextQuoter.Quoter, t: Tracer, h1: string -> bool, h2: string -> bool, view: View)
    requires ChildrenLinked(t.nodes) && |t.nodes| > 0
    requires Drawable(o, q, t, h1, view) && Drawable(o, q, t, h2, view)
    requires GetParseTree(t, h1, view, 0) == GetParseTree(t, h2, view, 0)
    ensures GraphLines(o, q, t, h1, view) == GraphLines(o, q, t, h2, view)
  {
    var tree := GetParseTree(t, h1, view, 0);
    if |ListOf(tree)| > 0 {
      ListParentsFaithful(t, tree.value, 0, -1);
      ListIdsAbove(t, tree.value, 0, -1);
      assert GraphLines(o, q, t, h1, view) == Some(ListRows(o, q, t, ListOf(tree)));
    }
  }
}

=== FILE: results.dfy ===
/** Failure-compatible wrappers shared by every module of the model.

    `Option` stands for a JavaScript value that may be `undefined`/`null`,
    `Result` for a computation that may throw. */
module Results {

  datatype Option<+T> = None | Some(value: T)

  /** The exceptions the modelled code can throw. */
  datatype Error =
    | MissingSource        // TextQuoter: the source argument is null or undefined
    | UnsupportedNewline   // TextQuoter: a vertical tab or form feed survives normalisation
    | InvalidArrayLength   // `Array(n)` with a negative length (RangeError)
    | NullParent           // match/fail with the cursor at the root (TypeError on `parent.matches`)

  datatype Result<+T> = Success(value: T) | Failure(error: Error) {

    predicate IsFailure() {
      Failure?
    }

    function PropagateFailure<U>(): Result<U>
      requires Failure?
    {
      Failure(error)
    }

    function Extract(): T
      requires Success?
    {
      value
    }
  }

  function Max(a: int, b: int): int {
    if a < b then b else a
  }
}

=== FILE: text_graph.dfy ===
/** The ASCII flow-graph row renderer: fixed-width rows of two-character
    cells, one cell per active column, with state glyph rows and two-row
    diagonal merge blocks. */
module TextGraph {
  import opened Results
  import opened TextUtil
  import opened TraceEvents

  /** What the renderer reads of a column's occupant: its type and its column style. */
  datatype Lane = Lane(kind: Kind, style: Style)

  const Red: Style := Style(Some("red"), None, None)
  const Green: Style := Style(Some("green"), None, None)
  const Yellow: Style := Style(Some("yellow"), None, None)

  // ---------------------------------------------------------------------------
  // Rows as concatenated cells

  function Flatten<T>(parts: seq<seq<T>>): seq<T>
  {
    if |parts| == 0 then [] else parts[0] + Flatten(parts[1..])
  }

  /** The `i`th two-element cell of a row (empty past its end). */
  function Pair<T>(row: seq<T>, i: int): seq<T> {
    if 0 <= i && 2 * i + 2 <= |row| then row[2 * i .. 2 * i + 2] else []
  }

  /** Concatenating two-element parts puts part `i` at `[2 * i, 2 * i + 2)`. */
  lemma {:induction false} FlattenPairs<T>(parts: seq<seq<T>>)
    requires forall i :: 0 <= i < |parts| ==> |parts[i]| == 2
    ensures |Flatten(parts)| == 2 * |parts|
    ensures forall i :: 0 <= i < |parts| ==> Pair(Flatten(parts), i) == parts[i]
  {
    if |parts| > 0 {
      var rest := parts[1..];
      FlattenPairs(rest);
      forall i | 0 <= i < |parts|
        ensures Pair(Flatten(parts), i) == parts[i]
      {
        if i > 0 {
          assert Pair(Flatten(parts), i) == Pair(Flatten(rest), i - 1);
          assert rest[i - 1] == parts[i];
        }
      }
    }
  }

  function Paint(useColor: bool, s: string, style: Style): string {
    SetTextStyleIf(useColor, s, Some(style), None, None)
  }

  /** The state glyph of a node type, uncoloured. */
  function GlyphText(kind: Kind): string {
    match kind
    case RuleFail => "x "
    case RuleMatch => "o "
    case _ => "? "
  }

  function Glyph(useColor: bool, kind: Kind): (r: string)
    ensures !useColor ==> r == GlyphText(kind)
  {
    match kind
    case RuleFail => Paint(useColor, "x ", Red)
    case RuleMatch => Paint(useColor, "o ", Green)
    case _ => Paint(useColor, "? ", Yellow)
  }

  // ---------------------------------------------------------------------------
  // State rows

  function StateCell(useColor: bool, lanes: seq<Lane>, column: Option<int>, isLastState: bool, i: int): (r: string)
    requires 0 <= i < |lanes|
    ensures !useColor ==> |r| == 2
  {
    if column == Some(i) then Glyph(useColor, lanes[i].kind)
    else Paint(useColor, if isLastState then "  " else "| ", lanes[i].style)
  }

  /** `drawStateLine(nodes, column, isLastState)`: one cell per column, the
      glyph at `column` and a bar (blank on the last state) everywhere else. */
  function DrawStateLine(useColor: bool, lanes: seq<Lane>, column: Option<int>, isLastState: bool): (r: string)
    ensures !useColor ==> |r| == 2 * |lanes|
    ensures !useColor ==> forall i :: 0 <= i < |lanes| && column != Some(i) ==>
      Pair(r, i) == (if isLastState then "  " else "| ")
    ensures !useColor && column.Some? && 0 <= column.value < |lanes| ==>
      Pair(r, column.value) == GlyphText(lanes[column.value].kind)
  {
    var cells := seq(|lanes|, i requires 0 <= i < |lanes| => StateCell(useColor, lanes, column, isLastState, i));
    if useColor then Flatten(cells)
    else
      FlattenPairs(cells);
      Flatten(cells)
  }

  /** A row's leading cells are unchanged by text appended after it. */
  lemma PairOfPrefix(row: string, tail: string, i: int)
    requires 0 <= i && 2 * i + 2 <= |row|
    ensures Pair(row + tail, i) == Pair(row, i)
  {
    assert (row + tail)[2 * i .. 2 * i + 2] == row[2 * i .. 2 * i + 2];
  }

  /** `drawState(nodes, column, contents, isLastState)`: one row per content
      line (at least one); only the first row carries the glyph. */
  function DrawState(useColor: bool, lanes: seq<Lane>, column: Option<int>, contents: seq<string>, isLastState: bool)
    : (r: seq<string>)
    ensures |r| == Max(1, |contents|)
    ensures forall k :: 0 <= k < |r| ==>
      r[k] == DrawStateLine(useColor, lanes, if k == 0 then column else None, isLastState)
              + (if k < |contents| then contents[k] else "")
    ensures !useColor ==> forall k :: 0 < k < |r| ==>
      && |r[k]| == 2 * |lanes| + |contents[k]|
      && r[k][2 * |lanes|..] == contents[k]
      && forall i :: 0 <= i < |lanes| ==> Pair(r[k], i) == (if isLastState then "  " else "| ")
  {
    var r := seq(Max(1, |contents|), k requires 0 <= k < Max(1, |contents|) =>
      DrawStateLine(useColor, lanes, if k == 0 then column else None, isLastState)
      + (if k < |contents| then contents[k] else ""));
    if useColor then r
    else
      DrawStatePlainRows(lanes, contents, isLastState, r);
      r
  }

  lemma DrawStatePlainRows(lanes: seq<Lane>, contents: seq<string>, isLastState: bool, r: seq<string>)
    requires |r| == Max(1, |contents|)
    requires forall k :: 0 < k < |r| ==> r[k] == DrawStateLine(false, lanes, None, isLastState) + contents[k]
    ensures forall k :: 0 < k < |r| ==>
      && |r[k]| == 2 * |lanes| + |contents[k]|
      && r[k][2 * |lanes|..] == contents[k]
      && forall i :: 0 <= i < |lanes| ==> Pair(r[k], i) == (if isLastState then "  " else "| ")
  {
    var line := DrawStateLine(false, lanes, None, isLastState);
    forall k, i | 0 < k < |r| && 0 <= i < |lanes|
      ensures Pair(r[k], i) == (if isLastState then "  " else "| ")
    {
      PairOfPrefix(line, contents[k], i);
    }
  }

  // ---------------------------------------------------------------------------
  // Merge rows

  function MergeCell0(useColor: bool, lanes: seq<Lane>, fromIndex: int, toIndex: int, i: int): (r: string)
    requires 0 <= i < |lanes| && 0 <= fromIndex < |lanes|
    ensures !useColor ==> |r| == 2
  {
    var s := lanes[i].style;
    var f := lanes[fromIndex].style;
    if i <= toIndex then Paint(useColor, "| ", s)
    else if i < fromIndex - 1 then Paint(useColor, "|", s) + Paint(useColor, "_", f)
    else if i == fromIndex - 1 then Paint(useColor, "|", s) + Paint(useColor, "/", f)
    else if i > fromIndex || (i == fromIndex && toIndex + 1 == fromIndex) then Paint(useColor, "| ", s)
    else "  "
  }

  function MergeCell1(useColor: bool, lanes: seq<Lane>, fromIndex: int, toIndex: int, i: int): (r: string)
    requires 0 <= i < |lanes| && 0 <= fromIndex < |lanes|
    ensures !useColor ==> |r| == 2
  {
    if i < toIndex then Paint(useColor, "| ", lanes[i].style)
    else if i == toIndex then Paint(useColor, "|", lanes[i].style) + Paint(useColor, "/", lanes[fromIndex].style)
    else if i < fromIndex then Paint(useColor, "| ", lanes[i].style)
    else if i < |lanes| - 1 then Paint(useColor, " /", lanes[i + 1].style)
    else "  "
  }

  /** `drawMergeEdge(fromIndex, toIndex, nodes)`: two rows that fold column
      `fromIndex` diagonally into column `toIndex`. */
  function DrawMergeEdge(useColor: bool, fromIndex: int, toIndex: int, lanes: seq<Lane>): (r: seq<string>)
    requires 0 <= fromIndex < |lanes|
    ensures |r| == 2
    ensures !useColor ==> |r[0]| == 2 * |lanes| && |r[1]| == 2 * |lanes|
    ensures !useColor ==> forall i :: 0 <= i < |lanes| && i <= toIndex ==> Pair(r[0], i) == "| "
    ensures !useColor ==> forall i :: 0 <= i < |lanes| && i < toIndex ==> Pair(r[1], i) == "| "
    ensures !useColor && 0 <= toIndex < |lanes| ==> Pair(r[1], toIndex) == "|/"
    ensures !useColor ==> forall i :: 0 <= i && toIndex < i < fromIndex - 1 ==> Pair(r[0], i) == "|_"
    ensures !useColor && 0 <= toIndex < fromIndex - 1 ==> Pair(r[0], fromIndex - 1) == "|/"
    ensures !useColor ==> forall i :: 0 <= i && toIndex < i < fromIndex ==> Pair(r[1], i) == "| "
    ensures !useColor ==> forall i :: fromIndex <= i < |lanes| - 1 && toIndex < i ==> Pair(r[1], i) == " /"
  {
    var n := |lanes|;
    var top := seq(n, i requires 0 <= i < n => MergeCell0(useColor, lanes, fromIndex, toIndex, i));
    var bottom := seq(n, i requires 0 <= i < n => MergeCell1(useColor, lanes, fromIndex, toIndex, i));
    if useColor then [Flatten(top), Flatten(bottom)]
    else
      MergeRowsPlain(lanes, fromIndex, toIndex, top, bottom);
      [Flatten(top), Flatten(bottom)]
  }

  /** With colour off, the cells of the two merge rows sit at their columns. */
  lemma MergeRowsPlain(lanes: seq<Lane>, fromIndex: int, toIndex: int, top: seq<string>, bottom: seq<string>)
    requires 0 <= fromIndex < |lanes| && |top| == |lanes| && |bottom| == |lanes|
    requires forall i :: 0 <= i < |lanes| ==> top[i] == MergeCell0(false, lanes, fromIndex, toIndex, i)
    requires forall i :: 0 <= i < |lanes| ==> bottom[i] == MergeCell1(false, lanes, fromIndex, toIndex, i)
    ensures |Flatten(top)| == 2 * |lanes| && |Flatten(bottom)| == 2 * |lanes|
    ensures forall i :: 0 <= i < |lanes| ==> Pair(Flatten(top), i) == MergeCell0(false, lanes, fromIndex, toIndex, i)
    ensures forall i :: 0 <= i < |lanes| ==> Pair(Flatten(bottom), i) == MergeCell1(false, lanes, fromIndex, toIndex, i)
  {
    FlattenPairs(top);
    FlattenPairs(bottom);
  }

  // ---------------------------------------------------------------------------
  // Sorting the merge sources

  predicate Sorted(s: seq<int>) {
    forall i, j :: 0 <= i < j < |s| ==> s[i] <= s[j]
  }

  predicate StrictlyIncreasing(s: seq<int>) {
    forall i, j :: 0 <= i < j < |s| ==> s[i] < s[j]
  }

  predicate Distinct(s: seq<int>) {
    forall i, j :: 0 <= i < j < |s| ==> s[i] != s[j]
  }

  function Insert(x: int, s: seq<int>): (r: seq<int>)
    requires Sorted(s)
    ensures Sorted(r)
    ensures multiset(r) == multiset(s) + multiset{x}
    ensures StrictlyIncreasing(s) && x !in s ==> StrictlyIncreasing(r)
  {
    if |s| == 0 || x <= s[0] then
      InsertFirst(x, s);
      [x] + s
    else
      var rest := Insert(x, s[1..]);
      InsertAfterFirst(s, x, rest);
      [s[0]] + rest
  }

  lemma InsertFirst(x: int, s: seq<int>)
    requires Sorted(s) && (|s| == 0 || x <= s[0])
    ensures Sorted([x] + s)
    ensures StrictlyIncreasing(s) && x !in s ==> StrictlyIncreasing([x] + s)
  {
    if StrictlyIncreasing(s) && x !in s && |s| > 0 {
      assert x < s[0];
    }
  }

  /** Putting the head of `s` back in front of its tail with `x` inserted. */
  lemma InsertAfterFirst(s: seq<int>, x: int, rest: seq<int>)
    requires |s| > 0 && Sorted(s) && s[0] < x
    requires Sorted(rest) && multiset(rest) == multiset(s[1..]) + multiset{x}
    requires StrictlyIncreasing(s[1..]) && x !in s[1..] ==> StrictlyIncreasing(rest)
    ensures Sorted([s[0]] + rest)
    ensures multiset([s[0]] + rest) == multiset(s) + multiset{x}
    ensures StrictlyIncreasing(s) && x !in s ==> StrictlyIncreasing([s[0]] + rest)
  {
    assert s == [s[0]] + s[1..];
    LowerBound(s, x, rest);
  }

  /** Every element of `rest` (the tail of `s` with `x` inserted) is at least `s[0]`. */
  lemma LowerBound(s: seq<int>, x: int, rest: seq<int>)
    requires |s| > 0 && Sorted(s) && s[0] < x
    requires Sorted(rest) && multiset(rest) == multiset(s[1..]) + multiset{x}
    ensures Sorted([s[0]] + rest)
    ensures StrictlyIncreasing(s) && StrictlyIncreasing(rest) ==> StrictlyIncreasing([s[0]] + rest)
  {
    forall j | 0 <= j < |rest|
      ensures s[0] <= rest[j]
      ensures StrictlyIncreasing(s) ==> s[0] < rest[j]
    {
      assert rest[j] in multiset(rest);
      if rest[j] != x {
        assert rest[j] in multiset(s[1..]);
        var k :| 0 <= k < |s[1..]| && s[1..][k] == rest[j];
        assert s[k + 1] == rest[j];
      }
    }
  }

  lemma DistinctTail(s: seq<int>)
    requires |s| > 0 && Distinct(s)
    ensures Distinct(s[1..]) && s[0] !in s[1..]
  {
  }

  /** `fromIndexes.slice(0).sort((a, b) => a - b)`: an ascending copy. */
  function SortAscending(s: seq<int>): (r: seq<int>)
    ensures Sorted(r)
    ensures multiset(r) == multiset(s)
    ensures Distinct(s) ==> StrictlyIncreasing(r)
  {
    if |s| == 0 then []
    else
      var rest := SortAscending(s[1..]);
      InsertHead(s, rest);
      Insert(s[0], rest)
  }

  /** Inserting the head of `s` into a sorted copy of its tail sorts `s`. */
  lemma InsertHead(s: seq<int>, rest: seq<int>)
    requires |s| > 0 && Sorted(rest) && multiset(rest) == multiset(s[1..])
    requires Distinct(s[1..]) ==> StrictlyIncreasing(rest)
    ensures multiset(Insert(s[0], rest)) == multiset(s)
    ensures Distinct(s) ==> StrictlyIncreasing(Insert(s[0], rest))
  {
    assert s == [s[0]] + s[1..];
    if Distinct(s) {
      DistinctTail(s);
      assert s[0] !in multiset(rest);
    }
  }

  // ---------------------------------------------------------------------------
  // Merging several columns

  /** One merge of `drawMergeEdges`: the column index it folds and the working column list it draws. */
  datatype MergeStep = MergeStep(fromIndex: int, lanes: seq<Lane>)

  /** `nodes.splice(i, 1)` on a copy. */
  function Splice(lanes: seq<Lane>, i: int): (r: seq<Lane>)
    requires 0 <= i < |lanes|
    ensures |r| == |lanes| - 1
    ensures r[..i] == lanes[..i]
    ensures forall j :: i <= j < |r| ==> r[j] == lanes[j + 1]
  {
    lanes[..i] + lanes[i + 1..]
  }

  /** The indices above a spliced index move down by one. */
  function Renumber(fs: seq<int>, removed: int): (r: seq<int>)
    ensures |r| == |fs|
    ensures forall i :: 0 <= i < |fs| ==> r[i] == (if removed < fs[i] then fs[i] - 1 else fs[i])
  {
    seq(|fs|, i requires 0 <= i < |fs| => if removed < fs[i] then fs[i] - 1 else fs[i])
  }

  predicate InColumns(fs: seq<int>, n: int) {
    forall i :: 0 <= i < |fs| ==> 0 <= fs[i] < n
  }

  /** The facts a merge step records about the original column list. */
  predicate FoldsOriginal(fs: seq<int>, lanes: seq<Lane>, r: seq<MergeStep>)
    requires InColumns(fs, |lanes|)
  {
    && |r| == |fs|
    && forall k :: 0 <= k < |r| ==>
      && r[k].fromIndex == fs[k] - k
      && |r[k].lanes| == |lanes| - k
      && 0 <= r[k].fromIndex < |r[k].lanes|
      && r[k].lanes[r[k].fromIndex] == lanes[fs[k]]
  }

  /** After the first merge the remaining ascending sources, renumbered, still
      name columns of the spliced list, in the same order. */
  lemma RenumberAfterFirst(fs: seq<int>, n: int)
    requires |fs| > 0 && StrictlyIncreasing(fs) && InColumns(fs, n)
    ensures var rest := Renumber(fs[1..], fs[0]);
      && StrictlyIncreasing(rest)
      && InColumns(rest, n - 1)
      && forall i :: 0 <= i < |rest| ==> rest[i] == fs[i + 1] - 1
  {
    var rest := Renumber(fs[1..], fs[0]);
    forall i | 0 <= i < |rest|
      ensures rest[i] == fs[i + 1] - 1
    {
      assert fs[0] < fs[i + 1];
    }
  }

  lemma {:induction false} MergeStepsCons(fs: seq<int>, lanes: seq<Lane>, tail: seq<MergeStep>)
    requires |fs| > 0 && StrictlyIncreasing(fs) && InColumns(fs, |lanes|)
    requires var rest := Renumber(fs[1..], fs[0]);
      && InColumns(rest, |lanes| - 1)
      && (forall i :: 0 <= i < |rest| ==> rest[i] == fs[i + 1] - 1)
      && FoldsOriginal(rest, Splice(lanes, fs[0]), tail)
    ensures FoldsOriginal(fs, lanes, [MergeStep(fs[0], lanes)] + tail)
  {
    var r := [MergeStep(fs[0], lanes)] + tail;
    forall k | 1 <= k < |r|
      ensures r[k].fromIndex == fs[k] - k
      ensures |r[k].lanes| == |lanes| - k
      ensures 0 <= r[k].fromIndex < |r[k].lanes|
      ensures r[k].lanes[r[k].fromIndex] == lanes[fs[k]]
    {
      assert r[k] == tail[k - 1];
      LaterStep(fs, lanes, tail, k);
    }
  }

  /** The `k`th merge, taken from the merges on the spliced list, still folds `fs[k]`. */
  lemma LaterStep(fs: seq<int>, lanes: seq<Lane>, tail: seq<MergeStep>, k: int)
    requires |fs| > 0 && StrictlyIncreasing(fs) && InColumns(fs, |lanes|)
    requires var rest := Renumber(fs[1..], fs[0]);
      && InColumns(rest, |lanes| - 1)
      && (forall i :: 0 <= i < |rest| ==> rest[i] == fs[i + 1] - 1)
      && FoldsOriginal(rest, Splice(lanes, fs[0]), tail)
    requires 1 <= k < |fs|
    ensures tail[k - 1].fromIndex == fs[k] - k
    ensures |tail[k - 1].lanes| == |lanes| - k
    ensures 0 <= tail[k - 1].fromIndex < |tail[k - 1].lanes|
    ensures tail[k - 1].lanes[tail[k - 1].fromIndex] == lanes[fs[k]]
  {
    var rest := Renumber(fs[1..], fs[0]);
    var t := tail[k - 1];
    assert rest[k - 1] == fs[k] - 1;
    assert t.lanes[t.fromIndex] == Splice(lanes, fs[0])[rest[k - 1]];
    assert fs[0] < fs[k];
    SplicedAbove(lanes, fs[0], fs[k]);
  }

  /** A column to the right of a spliced one moves one place left. */
  lemma SplicedAbove(lanes: seq<Lane>, f: int, j: int)
    requires 0 <= f < j < |lanes|
    ensures Splice(lanes, f)[j - 1] == lanes[j]
  {
  }

  /** The merges `drawMergeEdges` performs for ascending source columns: after
      each splice the later sources are renumbered, so every merge still folds
      the column it named in the original list, on a list one column shorter. */
  function MergeSteps(fs: seq<int>, lanes: seq<Lane>): (r: seq<MergeStep>)
    requires StrictlyIncreasing(fs) && InColumns(fs, |lanes|)
    ensures FoldsOriginal(fs, lanes, r)
    decreases |fs|
  {
    if |fs| == 0 then []
    else
      RenumberAfterFirst(fs, |lanes|);
      var tail := MergeSteps(Renumber(fs[1..], fs[0]), Splice(lanes, fs[0]));
      MergeStepsCons(fs, lanes, tail);
      [MergeStep(fs[0], lanes)] + tail
  }

  lemma SortedSources(fromIndexes: seq<int>, sorted: seq<int>, n: int)
    requires InColumns(fromIndexes, n)
    requires multiset(sorted) == multiset(fromIndexes)
    ensures |sorted| == |fromIndexes|
    ensures InColumns(sorted, n)
  {
    assert |multiset(sorted)| == |multiset(fromIndexes)|;
    forall i | 0 <= i < |sorted|
      ensures 0 <= sorted[i] < n
    {
      assert sorted[i] in multiset(fromIndexes);
    }
  }

  /** `r` is the two-row merge blocks of `steps`, one after the other. */
  predicate BlocksOf(useColor: bool, steps: seq<MergeStep>, toIndex: int, r: seq<string>)
    requires forall k :: 0 <= k < |steps| ==> 0 <= steps[k].fromIndex < |steps[k].lanes|
  {
    && |r| == 2 * |steps|
    && forall k :: 0 <= k < |steps| ==>
      && r[2 * k] == DrawMergeEdge(useColor, steps[k].fromIndex, toIndex, steps[k].lanes)[0]
      && r[2 * k + 1] == DrawMergeEdge(useColor, steps[k].fromIndex, toIndex, steps[k].lanes)[1]
  }

  /** `drawMergeEdges(fromIndexes, toIndex, nodes)`: sorts a copy of the
      sources and emits a two-row merge block per source, each drawn on the
      column list left by the previous merges. */
  function DrawMergeEdges(useColor: bool, fromIndexes: seq<int>, toIndex: int, lanes: seq<Lane>): (r: seq<string>)
    requires InColumns(fromIndexes, |lanes|)
    requires Distinct(fromIndexes)
    ensures |r| == 2 * |fromIndexes|
    ensures !useColor ==> forall k :: 0 <= k < |fromIndexes| ==>
      |r[2 * k]| == 2 * (|lanes| - k) && |r[2 * k + 1]| == 2 * (|lanes| - k)
    ensures StrictlyIncreasing(SortAscending(fromIndexes)) && InColumns(SortAscending(fromIndexes), |lanes|)
    ensures FoldsOriginal(SortAscending(fromIndexes), lanes, MergeSteps(SortAscending(fromIndexes), lanes))
    ensures BlocksOf(useColor, MergeSteps(SortAscending(fromIndexes), lanes), toIndex, r)
  {
    var sorted := SortAscending(fromIndexes);
    SortedSources(fromIndexes, sorted, |lanes|);
    var steps := MergeSteps(sorted, lanes);
    StepsShrink(sorted, lanes, steps);
    MergeBlocks(useColor, steps, toIndex)
  }

  /** The merge steps on ascending sources work on lists one column shorter each time. */
  lemma StepsShrink(fs: seq<int>, lanes: seq<Lane>, steps: seq<MergeStep>)
    requires InColumns(fs, |lanes|) && FoldsOriginal(fs, lanes, steps)
    ensures |steps| == |fs|
    ensures forall k :: 0 <= k < |steps| ==> |steps[k].lanes| == |lanes| - k
    ensures forall k :: 0 <= k < |steps| ==> 0 <= steps[k].fromIndex < |steps[k].lanes|
  {
  }

  /** The two-row blocks of a run of merge steps, one after the other. */
  function MergeBlocks(useColor: bool, steps: seq<MergeStep>, toIndex: int): (r: seq<string>)
    requires forall k :: 0 <= k < |steps| ==> 0 <= steps[k].fromIndex < |steps[k].lanes|
    ensures |r| == 2 * |steps|
    ensures !useColor ==> forall k :: 0 <= k < |steps| ==>
      |r[2 * k]| == 2 * |steps[k].lanes| && |r[2 * k + 1]| == 2 * |steps[k].lanes|
    ensures BlocksOf(useColor, steps, toIndex, r)
  {
    var blocks := seq(|steps|, k requires 0 <= k < |steps| => DrawMergeEdge(useColor, steps[k].fromIndex, toIndex, steps[k].lanes));
    FlattenPairs(blocks);
    var r := Flatten(blocks);
    MergeBlockRows(r, blocks);
    r
  }

  lemma MergeBlockRows(r: seq<string>, blocks: seq<seq<string>>)
    requires forall k :: 0 <= k < |blocks| ==> |blocks[k]| == 2
    requires |r| == 2 * |blocks|
    requires forall k :: 0 <= k < |blocks| ==> Pair(r, k) == blocks[k]
    ensures forall k :: 0 <= k < |blocks| ==> r[2 * k] == blocks[k][0] && r[2 * k + 1] == blocks[k][1]
  {
    forall k | 0 <= k < |blocks|
      ensures r[2 * k] == blocks[k][0] && r[2 * k + 1] == blocks[k][1]
    {
      assert Pair(r, k) == blocks[k];
    }
  }
}

=== FILE: text_quoter.dfy ===
/** The source quoter: normalises a source text into lines once, then
    quotes a line range with an optional middle elision and underline rows. */
module TextQuoter {
  import opened Results
  import opened TextUtil

  const VerticalTab: char := '\U{0B}'
  const FormFeed: char := '\U{0C}'

  /** The highlight style a quoter uses unless told otherwise. */
  const DefaultHighlight: Style := Style(Some("cyan"), None, None)

  datatype Quoter = Quoter(useColor: bool, highlight: Style, sourceLines: seq<string>)

  /** No line break or other control whitespace survives inside a stored line. */
  predicate CleanLine(line: string) {
    '\n' !in line && '\r' !in line && '\t' !in line && VerticalTab !in line && FormFeed !in line
  }

  predicate ValidQuoter(q: Quoter) {
    |q.sourceLines| >= 1 && forall i :: 0 <= i < |q.sourceLines| ==> CleanLine(q.sourceLines[i])
  }

  // ---------------------------------------------------------------------------
  // Normalisation

  /** `replace(/x/g, y)` for a single character `x`: every `from` becomes `to`, nothing else moves. */
  function ReplaceChar(s: string, from: char, to: char): (r: string)
    ensures |r| == |s| && (from != to ==> from !in r)
    ensures forall i :: 0 <= i < |s| ==> r[i] == (if s[i] == from then to else s[i])
  {
    if |s| == 0 then "" else [if s[0] == from then to else s[0]] + ReplaceChar(s[1..], from, to)
  }

  /** `replace(/\r\n/g, '\n')`, matching left to right without overlap. */
  function ReplaceCrLf(s: string): (r: string)
    ensures |r| <= |s|
    ensures forall c :: c != '\r' ==> (c in r <==> c in s)
  {
    if |s| == 0 then ""
    else if |s| >= 2 && s[0] == '\r' && s[1] == '\n' then
      assert s == s[..2] + s[2..];
      "\n" + ReplaceCrLf(s[2..])
    else
      assert s == [s[0]] + s[1..];
      [s[0]] + ReplaceCrLf(s[1..])
  }

  /** Tabs become spaces, CRLF and lone CR become LF. */
  function Normalize(s: string): (r: string)
    ensures '\r' !in r && '\t' !in r
    ensures forall c :: c != '\r' && c != '\t' && c != '\n' && c != ' ' ==> (c in r <==> c in s)
  {
    var t := ReplaceChar(s, '\t', ' ');
    assert forall c :: c != '\t' && c != ' ' ==> (c in t <==> c in s) by {
      forall c | c != '\t' && c != ' '
        ensures c in t <==> c in s
      {
        if c in s {
          var i :| 0 <= i < |s| && s[i] == c;
          assert t[i] == c;
        }
        if c in t {
          var i :| 0 <= i < |t| && t[i] == c;
          assert s[i] == c;
        }
      }
    }
    var u := ReplaceCrLf(t);
    var r := ReplaceChar(u, '\r', '\n');
    assert forall c :: c != '\r' && c != '\n' ==> (c in r <==> c in u) by {
      forall c | c != '\r' && c != '\n'
        ensures c in r <==> c in u
      {
        if c in u {
          var i :| 0 <= i < |u| && u[i] == c;
          assert r[i] == c;
        }
        if c in r {
          var i :| 0 <= i < |r| && r[i] == c;
          assert u[i] == c;
        }
      }
    }
    assert '\t' !in u;
    r
  }

  /** Text with no tab and no carriage return is already normal, so normalising is idempotent. */
  lemma {:induction false} NormalizeFixesCleanText(s: string)
    requires '\r' !in s && '\t' !in s
    ensures Normalize(s) == s
  {
    ReplaceCharFixes(s, '\t', ' ');
    ReplaceCrLfFixes(s);
    ReplaceCharFixes(s, '\r', '\n');
  }

  /** The normalisation read left to right, one source character (or CRLF
      pair) at a time: the reference the three chained replaces must meet. */
  function NormalizeScan(s: string): string
    decreases |s|
  {
    if |s| == 0 then ""
    else if s[0] == '\t' then " " + NormalizeScan(s[1..])
    else if s[0] == '\r' && |s| >= 2 && s[1] == '\n' then "\n" + NormalizeScan(s[2..])
    else if s[0] == '\r' then "\n" + NormalizeScan(s[1..])
    else [s[0]] + NormalizeScan(s[1..])
  }

  lemma ReplaceCharCons(c: char, s: string, from: char, to: char)
    ensures ReplaceChar([c] + s, from, to) == [if c == from then to else c] + ReplaceChar(s, from, to)
  {
    assert ([c] + s)[1..] == s;
  }

  /** A tab becomes one space. */
  lemma NormalizeTab(s: string)
    ensures Normalize("\t" + s) == " " + Normalize(s)
  {
    ReplaceCharCons('\t', s, '\t', ' ');
    var t := ReplaceChar(s, '\t', ' ');
    assert (" " + t)[1..] == t;
    ReplaceCharCons(' ', ReplaceCrLf(t), '\r', '\n');
  }

  /** A CRLF pair becomes one line feed. */
  lemma NormalizeCrLf(s: string)
    ensures Normalize("\r\n" + s) == "\n" + Normalize(s)
  {
    var t := ReplaceChar(s, '\t', ' ');
    ReplaceCharCons('\n', s, '\t', ' ');
    ReplaceCharCons('\r', "\n" + s, '\t', ' ');
    assert "\r\n" + s == ['\r'] + ("\n" + s);
    assert ReplaceChar("\r\n" + s, '\t', ' ') == "\r\n" + t;
    assert ("\r\n" + t)[2..] == t;
    assert ReplaceCrLf("\r\n" + t) == "\n" + ReplaceCrLf(t);
    ReplaceCharCons('\n', ReplaceCrLf(t), '\r', '\n');
  }

  /** A carriage return not followed by a line feed becomes a line feed. */
  lemma NormalizeCr(s: string)
    requires |s| == 0 || s[0] != '\n'
    ensures Normalize("\r" + s) == "\n" + Normalize(s)
  {
    var t := ReplaceChar(s, '\t', ' ');
    ReplaceCharCons('\r', s, '\t', ' ');
    assert ("\r" + t)[1..] == t;
    ReplaceCharCons('\r', ReplaceCrLf(t), '\r', '\n');
  }

  /** Every other character is copied. */
  lemma NormalizeOther(c: char, s: string)
    requires c != '\t' && c != '\r'
    ensures Normalize([c] + s) == [c] + Normalize(s)
  {
    var t := ReplaceChar(s, '\t', ' ');
    ReplaceCharCons(c, s, '\t', ' ');
    assert ([c] + t)[1..] == t;
    ReplaceCharCons(c, ReplaceCrLf(t), '\r', '\n');
  }

  /** The chained replaces agree with the left-to-right reading on every input. */
  lemma {:induction false} NormalizeIsScan(s: string)
    ensures Normalize(s) == NormalizeScan(s)
    decreases |s|
  {
    if |s| > 0 {
      if s[0] == '\t' {
        NormalizeIsScan(s[1..]);
        NormalizeTab(s[1..]);
        assert s == "\t" + s[1..];
      } else if s[0] == '\r' && |s| >= 2 && s[1] == '\n' {
        NormalizeIsScan(s[2..]);
        NormalizeCrLf(s[2..]);
        assert s == "\r\n" + s[2..];
      } else if s[0] == '\r' {
        NormalizeIsScan(s[1..]);
        NormalizeCr(s[1..]);
        assert s == "\r" + s[1..];
      } else {
        NormalizeIsScan(s[1..]);
        NormalizeOther(s[0], s[1..]);
        assert s == [s[0]] + s[1..];
      }
    }
  }

  lemma NormalizeIdempotent(s: string)
    ensures Normalize(Normalize(s)) == Normalize(s)
  {
    NormalizeFixesCleanText(Normalize(s));
  }

  /** Replacing a character that does not occur changes nothing. */
  lemma {:induction false} ReplaceCharFixes(s: string, from: char, to: char)
    requires from !in s
    ensures ReplaceChar(s, from, to) == s
  {
    if |s| > 0 {
      ReplaceCharFixes(s[1..], from, to);
      assert [s[0]] + s[1..] == s;
    }
  }

  lemma {:induction false} ReplaceCrLfFixes(s: string)
    requires '\r' !in s
    ensures ReplaceCrLf(s) == s
  {
    if |s| > 0 {
      ReplaceCrLfFixes(s[1..]);
      assert [s[0]] + s[1..] == s;
    }
  }

  /** `new TextQuoter(source, { useColor, highlightStyle })`. */
  function New(source: Option<string>, useColor: bool, highlight: Style): (r: Result<Quoter>)
    ensures source.None? ==> r == Failure(MissingSource)
    ensures source.Some? ==>
      (r.Failure? <==> (VerticalTab in source.value || FormFeed in source.value))
    ensures r.Failure? ==> r.error != InvalidArrayLength && r.error != NullParent
    ensures r.Success? ==>
      && ValidQuoter(r.value)
      && r.value.useColor == useColor
      && r.value.highlight == highlight
      && |r.value.sourceLines| == Count(Normalize(source.value), '\n') + 1
      && Join(r.value.sourceLines, "\n") == Normalize(source.value)
  {
    if source.None? then Failure(MissingSource)
    else
      var text := Normalize(source.value);
      if VerticalTab in text || FormFeed in text then Failure(UnsupportedNewline)
      else
        var lines := Split(text, '\n');
        assert forall i :: 0 <= i < |lines| ==> CleanLine(lines[i]) by {
          forall i | 0 <= i < |lines|
            ensures CleanLine(lines[i])
          {
            assert Join(lines, "\n") == text;
            JoinKeepsOut(lines, "\n", i, '\r');
            JoinKeepsOut(lines, "\n", i, '\t');
            JoinKeepsOut(lines, "\n", i, VerticalTab);
            JoinKeepsOut(lines, "\n", i, FormFeed);
          }
        }
        Success(Quoter(useColor, highlight, lines))
  }

  /** A character absent from a joined text is absent from each piece. */
  lemma {:induction false} JoinKeepsOut(parts: seq<string>, sep: string, i: nat, c: char)
    requires i < |parts|
    requires c !in Join(parts, sep)
    ensures c !in parts[i]
  {
    if |parts| > 1 {
      if i == 0 {
        assert Join(parts, sep) == parts[0] + (sep + Join(parts[1..], sep));
      } else {
        assert Join(parts, sep) == (parts[0] + sep) + Join(parts[1..], sep);
        JoinKeepsOut(parts[1..], sep, i - 1, c);
      }
    }
  }

  // ---------------------------------------------------------------------------
  // Quoting

  /** A missing, zero or too small line budget becomes 3. */
  function ClampMaxLines(maxLines: int): (r: int)
    ensures r >= 3
    ensures maxLines >= 3 ==> r == maxLines
    ensures maxLines < 3 ==> r == 3
  {
    if maxLines == 0 || maxLines < 3 then 3 else maxLines
  }

  function SetStyle(q: Quoter, s: string, start: Option<int>, end: Option<int>): string {
    SetTextStyleIf(q.useColor, s, Some(q.highlight), start, end)
  }

  /** Highlights the quoted range: `[start, end)` of a one-line range, or from
      the start column on the first line, whole interior lines, and up to and
      including the end column on the last line. */
  function Highlight(q: Quoter, lines: seq<string>, sc: int, ec: int): (r: seq<string>)
    requires |lines| >= 1
    ensures |r| == |lines|
    ensures !q.useColor ==> r == lines
  {
    if |lines| == 1 then
      if sc < ec then [SetStyle(q, lines[0], Some(sc), Some(ec))] else lines
    else
      [SetStyle(q, lines[0], Some(sc), None)]
      + seq(|lines| - 2, i requires 0 <= i < |lines| - 2 => SetStyle(q, lines[i + 1], None, None))
      + [SetStyle(q, lines[|lines| - 1], Some(0), Some(ec + 1))]
  }

  /** Keeps the first `ceil(maxLines / 2)` and the last `floor(maxLines / 2)`
      lines of an over-long excerpt, with a `...` row between them. */
  function Elide(lines: seq<string>, maxLines: int): (r: seq<string>)
    requires maxLines >= 3
    ensures |lines| <= maxLines ==> r == lines
    ensures |lines| > maxLines ==>
      var head, tail := (maxLines + 1) / 2, maxLines / 2;
      && |r| == maxLines + 1
      && r[..head] == lines[..head]
      && r[head] == "..."
      && r[head + 1..] == lines[|lines| - tail..]
    ensures forall i :: 0 <= i < |r| ==> r[i] in lines || r[i] == "..."
  {
    var numSkipLines := |lines| - maxLines;
    var numHeadLines := (|lines| - numSkipLines + 1) / 2;
    var numTailLines := (|lines| - numSkipLines) / 2;
    if 0 < numSkipLines then
      lines[..numHeadLines] + ["..."] + lines[|lines| - numTailLines..]
    else
      lines
  }

  /** `drawHLine(start, length, ch)`. */
  function DrawHLine(q: Quoter, start: int, length: int, ch: string): (r: Result<string>)
    ensures r.Success? <==> start >= -1 && length >= -1
    ensures r.Success? && !q.useColor ==>
      r.value == Repeat(" ", Max(start, 0)) + Repeat(ch, Max(length, 0))
  {
    var line :- MakeLine(start, length, ch);
    assert !q.useColor ==> line == Repeat(" ", Max(start, 0)) + Repeat(ch, Max(length, 0));
    Success(SetStyle(q, line, None, None))
  }

  /** The underline rows: a caret row under a one-line range, or an underscore
      row above and a caret row below a multi-line range. */
  function AddMarkers(q: Quoter, lines: seq<string>, oneLine: bool, sc: int, ec: int): (r: Result<seq<string>>)
    requires |lines| >= 1
    ensures r.Success? ==> |r.value| == |lines| + MarkerRows(oneLine, sc, ec)
    ensures r.Success? && oneLine ==> r.value[..|lines|] == lines
    ensures r.Success? && !oneLine ==> r.value[1..|lines| + 1] == lines
    ensures r.Failure? <==>
      if oneLine then sc <= ec && sc < -1
      else sc < -1 || |lines[0]| - sc < -1 || ec < -1
    ensures r.Success? && !q.useColor && oneLine && sc <= ec ==>
      r.value[|lines|] == Repeat(" ", Max(sc, 0)) + Repeat("^", if ec == sc then 1 else ec - sc)
    ensures r.Success? && !q.useColor && !oneLine ==>
      && r.value[0] == Repeat(" ", Max(sc, 0)) + Repeat("_", Max(|lines[0]| - sc, 0))
      && r.value[|lines| + 1] == Repeat("^", Max(ec, 0))
    ensures r.Success? && !q.useColor ==>
      forall i :: 0 <= i < |r.value| ==> r.value[i] in lines || RuleRow(r.value[i])
  {
    if oneLine && sc <= ec then
      var h :- DrawHLine(q, sc, if ec - sc == 0 then 1 else ec - sc, "^");
      Success(lines + [h])
    else if !oneLine then
      var top :- DrawHLine(q, sc, |lines[0]| - sc, "_");
      var bottom :- DrawHLine(q, 0, ec, "^");
      Success([top] + lines + [bottom])
    else
      Success(lines)
  }

  /** A row drawn only with spaces, carets and underscores. */
  predicate RuleRow(row: string) {
    forall k :: 0 <= k < |row| ==> row[k] == ' ' || row[k] == '^' || row[k] == '_'
  }

  function MarkerRows(oneLine: bool, sc: int, ec: int): nat {
    if !oneLine then 2 else if sc <= ec then 1 else 0
  }

  function ContentRows(numLines: int, maxLines: int): int {
    if numLines > maxLines then maxLines + 1 else numLines
  }

  /** The column arguments that make `Array(n)` throw while drawing the underline rows. */
  predicate BadUnderline(q: Quoter, sl: int, sc: int, el: int, ec: int)
    requires 0 <= sl < |q.sourceLines|
  {
    if sl == el then sc <= ec && sc < -1
    else sc < -1 || |q.sourceLines[sl]| - sc < -1 || ec < -1
  }

  /** Prepends the quote string to every row. */
  function Prefix(quoteString: string, lines: seq<string>): (r: seq<string>)
    ensures |r| == |lines|
    ensures forall i :: 0 <= i < |r| ==> r[i] == quoteString + lines[i]
  {
    seq(|lines|, i requires 0 <= i < |lines| => quoteString + lines[i])
  }

  /** `getQuotedLines(quoteString, startLine, startColumn, endLine, endColumn, maxLines)`. */
  function GetQuotedLines(q: Quoter, quoteString: string, sl: int, sc: int, el: int, ec: int, maxLines: int)
    : (r: Result<seq<string>>)
    requires 0 <= sl <= el < |q.sourceLines|
    ensures r.Failure? ==> r.error == InvalidArrayLength
    ensures r.Success? ==> |r.value| >= 1
    ensures r.Success? ==> forall i :: 0 <= i < |r.value| ==> quoteString <= r.value[i]
    ensures r.Success? ==>
      |r.value| == ContentRows(el - sl + 1, ClampMaxLines(maxLines)) + MarkerRows(sl == el, sc, ec)
    ensures !q.useColor ==> (r.Failure? <==> BadUnderline(q, sl, sc, el, ec))
  {
    var m := ClampMaxLines(maxLines);
    var body := Elide(Highlight(q, q.sourceLines[sl..el + 1], sc, ec), m);
    assert !q.useColor && sl < el ==> body[0] == q.sourceLines[sl];
    var marked :- AddMarkers(q, body, sl == el, sc, ec);
    Success(Prefix(quoteString, marked))
  }

  /** The rows `getQuotedLines` assembles before prefixing: the highlighted,
      elided excerpt with its underline rows. */
  function MarkedRows(q: Quoter, sl: int, sc: int, el: int, ec: int, maxLines: int): Result<seq<string>>
    requires 0 <= sl <= el < |q.sourceLines|
  {
    AddMarkers(q, Elide(Highlight(q, q.sourceLines[sl..el + 1], sc, ec), ClampMaxLines(maxLines)), sl == el, sc, ec)
  }

  lemma QuotedLinesAreMarkedRows(q: Quoter, qs: string, sl: int, sc: int, el: int, ec: int, maxLines: int)
    requires 0 <= sl <= el < |q.sourceLines|
    requires GetQuotedLines(q, qs, sl, sc, el, ec, maxLines).Success?
    ensures MarkedRows(q, sl, sc, el, ec, maxLines).Success?
    ensures GetQuotedLines(q, qs, sl, sc, el, ec, maxLines).value == Prefix(qs, MarkedRows(q, sl, sc, el, ec, maxLines).value)
  {
  }

  /** Colour off, the rows between the underline rows are the raw source lines
      of the range, elided in the middle past `maxLines`. */
  lemma QuotedLinesContent(q: Quoter, qs: string, sl: int, sc: int, el: int, ec: int, maxLines: int)
    requires 0 <= sl <= el < |q.sourceLines|
    requires !q.useColor
    requires GetQuotedLines(q, qs, sl, sc, el, ec, maxLines).Success?
    ensures QuotedContent(GetQuotedLines(q, qs, sl, sc, el, ec, maxLines).value, q.sourceLines, qs, sl, el, ClampMaxLines(maxLines))
  {
    QuotedLinesAreMarkedRows(q, qs, sl, sc, el, ec, maxLines);
    MarkedRowsHoldBody(q, sl, sc, el, ec, maxLines);
    PrefixedContent(q.sourceLines, qs, sl, el, ClampMaxLines(maxLines),
      Elide(q.sourceLines[sl..el + 1], ClampMaxLines(maxLines)), MarkedRows(q, sl, sc, el, ec, maxLines).value);
  }

  /** Colour off, the marked rows hold the elided raw lines after the
      underscore row, if any. */
  lemma MarkedRowsHoldBody(q: Quoter, sl: int, sc: int, el: int, ec: int, maxLines: int)
    requires 0 <= sl <= el < |q.sourceLines| && !q.useColor
    requires MarkedRows(q, sl, sc, el, ec, maxLines).Success?
    ensures var body := Elide(q.sourceLines[sl..el + 1], ClampMaxLines(maxLines));
      var marked := MarkedRows(q, sl, sc, el, ec, maxLines).value;
      && (sl == el ==> |body| <= |marked| && marked[..|body|] == body)
      && (sl < el ==> |body| + 1 <= |marked| && marked[1..|body| + 1] == body)
  {
    var raw := q.sourceLines[sl..el + 1];
    assert Highlight(q, raw, sc, ec) == raw;
    var body := Elide(raw, ClampMaxLines(maxLines));
    assert MarkedRows(q, sl, sc, el, ec, maxLines) == AddMarkers(q, body, sl == el, sc, ec);
  }

  /** Colour off, a one-line range ends in a caret row under its columns, and a
      multi-line range opens with an underscore row and ends in a caret row. */
  lemma QuotedLinesMarkers(q: Quoter, qs: string, sl: int, sc: int, el: int, ec: int, maxLines: int)
    requires 0 <= sl <= el < |q.sourceLines|
    requires !q.useColor
    requires GetQuotedLines(q, qs, sl, sc, el, ec, maxLines).Success?
    ensures var r := GetQuotedLines(q, qs, sl, sc, el, ec, maxLines).value;
      && (sl == el && sc <= ec ==>
           r[|r| - 1] == qs + Repeat(" ", Max(sc, 0)) + Repeat("^", if ec == sc then 1 else ec - sc))
      && (sl < el ==>
           && r[0] == qs + Repeat(" ", Max(sc, 0)) + Repeat("_", Max(|q.sourceLines[sl]| - sc, 0))
           && r[|r| - 1] == qs + Repeat("^", Max(ec, 0)))
  {
    var m := ClampMaxLines(maxLines);
    var body := Elide(Highlight(q, q.sourceLines[sl..el + 1], sc, ec), m);
    QuotedLinesAreMarkedRows(q, qs, sl, sc, el, ec, maxLines);
    assert MarkedRows(q, sl, sc, el, ec, maxLines) == AddMarkers(q, body, sl == el, sc, ec);
    PrefixedMarkers(q, qs, body, sl == el, sc, ec);
    if sl < el {
      assert body[0] == q.sourceLines[sl];
    }
  }

  lemma PrefixedMarkers(q: Quoter, qs: string, body: seq<string>, oneLine: bool, sc: int, ec: int)
    requires |body| >= 1 && !q.useColor
    requires AddMarkers(q, body, oneLine, sc, ec).Success?
    ensures var r := Prefix(qs, AddMarkers(q, body, oneLine, sc, ec).value);
      && (oneLine && sc <= ec ==>
           r[|r| - 1] == qs + Repeat(" ", Max(sc, 0)) + Repeat("^", if ec == sc then 1 else ec - sc))
      && (!oneLine ==>
           && r[0] == qs + Repeat(" ", Max(sc, 0)) + Repeat("_", Max(|body[0]| - sc, 0))
           && r[|r| - 1] == qs + Repeat("^", Max(ec, 0)))
  {
  }

  lemma PrefixedContent(src: seq<string>, qs: string, sl: int, el: int, m: int, body: seq<string>, marked: seq<string>)
    requires 0 <= sl <= el < |src| && m >= 3
    requires body == Elide(src[sl..el + 1], m)
    requires sl == el ==> |body| <= |marked| && marked[..|body|] == body
    requires sl < el ==> |body| + 1 <= |marked| && marked[1..|body| + 1] == body
    ensures QuotedContent(Prefix(qs, marked), src, qs, sl, el, m)
  {
    var off := if sl < el then 1 else 0;
    PrefixSlice(qs, marked, off, off + |body|);
    assert Prefix(qs, marked)[off..off + |body|] == Prefix(qs, body);
    if el - sl + 1 > m {
      LongContent(src, qs, sl, el, m, Prefix(qs, marked)[off..off + |body|]);
    }
  }

  lemma LongContent(src: seq<string>, qs: string, sl: int, el: int, m: int, rows: seq<string>)
    requires 0 <= sl <= el < |src| && m >= 3 && el - sl + 1 > m
    requires rows == Prefix(qs, Elide(src[sl..el + 1], m))
    ensures
      var head, tail := (m + 1) / 2, m / 2;
      && |rows| == head + 1 + tail
      && rows[..head] == Prefix(qs, src[sl..sl + head])
      && rows[head] == qs + "..."
      && rows[head + 1..] == Prefix(qs, src[el + 1 - tail..el + 1])
  {
    var head, tail := (m + 1) / 2, m / 2;
    ElidedContent(src[sl..el + 1], qs, m, Elide(src[sl..el + 1], m), rows);
    assert src[sl..el + 1][..head] == src[sl..sl + head];
    assert src[sl..el + 1][el - sl + 1 - tail..] == src[el + 1 - tail..el + 1];
  }

  lemma ElidedContent(raw: seq<string>, qs: string, m: int, body: seq<string>, rows: seq<string>)
    requires m >= 3 && |raw| > m
    requires body == Elide(raw, m)
    requires rows == Prefix(qs, body)
    ensures
      var head, tail := (m + 1) / 2, m / 2;
      && |rows| == head + 1 + tail
      && rows[..head] == Prefix(qs, raw[..head])
      && rows[head] == qs + "..."
      && rows[head + 1..] == Prefix(qs, raw[|raw| - tail..])
  {
    var head, tail := (m + 1) / 2, m / 2;
    PrefixSlice(qs, body, 0, head);
    PrefixSlice(qs, body, head + 1, |body|);
  }

  lemma PrefixSlice(qs: string, lines: seq<string>, i: int, j: int)
    requires 0 <= i <= j <= |lines|
    ensures Prefix(qs, lines)[i..j] == Prefix(qs, lines[i..j])
  {
  }

  /** Colour off, the rows between the underline rows are the source lines of
      the range, with the middle replaced by `...` when it exceeds `maxLines`. */
  predicate QuotedContent(r: seq<string>, src: seq<string>, qs: string, sl: int, el: int, m: int)
    requires 0 <= sl <= el < |src|
    requires m >= 3
  {
    var off := if sl < el then 1 else 0;
    var n := el - sl + 1;
    if n <= m then
      && off + n <= |r|
      && r[off..off + n] == Prefix(qs, src[sl..el + 1])
    else
      var head, tail := (m + 1) / 2, m / 2;
      && off + head + 1 + tail <= |r|
      && r[off..off + head] == Prefix(qs, src[sl..sl + head])
      && r[off + head] == qs + "..."
      && r[off + head + 1..off + head + 1 + tail] == Prefix(qs, src[el + 1 - tail..el + 1])
  }

  /** `getQuotedText(...)`: the quoted rows joined with line feeds. */
  function GetQuotedText(q: Quoter, quoteString: string, sl: int, sc: int, el: int, ec: int, maxLines: int)
    : (r: Result<string>)
    requires 0 <= sl <= el < |q.sourceLines|
    ensures r.Success? <==> GetQuotedLines(q, quoteString, sl, sc, el, ec, maxLines).Success?
  {
    var lines :- GetQuotedLines(q, quoteString, sl, sc, el, ec, maxLines);
    Success(Join(lines, "\n"))
  }

  /** Colour off, no row before prefixing holds a line feed: source rows are
      clean, and the other rows are "..." or underline rows. */
  lemma MarkedRowsClean(q: Quoter, sl: int, sc: int, el: int, ec: int, maxLines: int)
    requires ValidQuoter(q) && !q.useColor
    requires 0 <= sl <= el < |q.sourceLines|
    requires MarkedRows(q, sl, sc, el, ec, maxLines).Success?
    ensures forall i :: 0 <= i < |MarkedRows(q, sl, sc, el, ec, maxLines).value| ==>
      '\n' !in MarkedRows(q, sl, sc, el, ec, maxLines).value[i]
  {
    var m := ClampMaxLines(maxLines);
    var raw := q.sourceLines[sl..el + 1];
    var body := Elide(Highlight(q, raw, sc, ec), m);
    assert body == Elide(raw, m);
    var marked := MarkedRows(q, sl, sc, el, ec, maxLines).value;
    assert marked == AddMarkers(q, body, sl == el, sc, ec).value;
    forall i | 0 <= i < |marked|
      ensures '\n' !in marked[i]
    {
      var row := marked[i];
      if row in body {
        if row != "..." {
          assert row in raw;
          var k :| 0 <= k < |raw| && raw[k] == row;
          assert CleanLine(q.sourceLines[sl + k]);
        }
      } else {
        assert RuleRow(row);
      }
    }
  }

  /** Colour off, splitting the quoted text at line feeds gives back the quoted
      rows, provided the quote string itself has no line feed. */
  lemma QuotedTextSplitsBack(q: Quoter, qs: string, sl: int, sc: int, el: int, ec: int, maxLines: int)
    requires ValidQuoter(q) && !q.useColor && '\n' !in qs
    requires 0 <= sl <= el < |q.sourceLines|
    requires GetQuotedLines(q, qs, sl, sc, el, ec, maxLines).Success?
    ensures Split(GetQuotedText(q, qs, sl, sc, el, ec, maxLines).value, '\n')
         == GetQuotedLines(q, qs, sl, sc, el, ec, maxLines).value
  {
    QuotedLinesAreMarkedRows(q, qs, sl, sc, el, ec, maxLines);
    MarkedRowsClean(q, sl, sc, el, ec, maxLines);
    var marked := MarkedRows(q, sl, sc, el, ec, maxLines).value;
    var lines := GetQuotedLines(q, qs, sl, sc, el, ec, maxLines).value;
    forall i | 0 <= i < |lines|
      ensures '\n' !in lines[i]
    {
      assert lines[i] == qs + marked[i];
    }
    SplitJoin(lines, '\n');
  }
}

=== FILE: text_util.dfy ===
/** Small total string functions of the formatter: truncation from the
    front, ANSI SGR styling of a substring (Select Graphic Rendition,
    section 8.3.117 of ECMA-48), repeated characters, and the two
    JavaScript built-ins the rest of the model leans on, `split` and `join`. */
module TextUtil {
  import opened Results

  /** A style descriptor; each part is absent (`undefined`/`null`) or a name. */
  datatype Style = Style(color: Option<string>, background: Option<string>, attribute: Option<string>)

  const ColorMap: map<string, string> := map[
    "black" := "30", "red" := "31", "green" := "32", "yellow" := "33",
    "blue" := "34", "magenta" := "35", "cyan" := "36", "white" := "37"]

  const BgColorMap: map<string, string> := map[
    "black" := "40", "red" := "41", "green" := "42", "yellow" := "43",
    "blue" := "44", "magenta" := "45", "cyan" := "46", "white" := "47"]

  const AttrMap: map<string, string> := map[
    "bold" := "1", "thin" := "2", "underline" := "4",
    "blink" := "5", "reverse" := "7", "invisible" := "8"]

  const Esc: char := '\U{1B}'

  /** The SGR sequence that resets every attribute. */
  const Reset: string := [Esc] + "[0m"

  // ---------------------------------------------------------------------------
  // JavaScript built-ins

  /** How `String.prototype.slice` reads one index: negative counts from the end,
      everything is clamped into `[0, len]`. */
  function SliceIndex(i: int, len: nat): (r: nat)
    ensures r <= len
    ensures 0 <= i <= len ==> r == i
  {
    if i < 0 then (if len + i < 0 then 0 else len + i)
    else if i > len then len
    else i
  }

  /** `s.slice(a, b)`. */
  function Slice(s: string, a: int, b: int): (r: string)
    ensures 0 <= a <= b <= |s| ==> r == s[a..b]
    ensures |r| == Max(SliceIndex(b, |s|) - SliceIndex(a, |s|), 0)
  {
    var i := SliceIndex(a, |s|);
    var j := SliceIndex(b, |s|);
    if i < j then s[i..j] else ""
  }

  /** `parts.join(sep)`. */
  function Join(parts: seq<string>, sep: string): string
  {
    if |parts| == 0 then ""
    else if |parts| == 1 then parts[0]
    else parts[0] + sep + Join(parts[1..], sep)
  }

  function Count(s: string, c: char): nat
  {
    if |s| == 0 then 0 else (if s[0] == c then 1 else 0) + Count(s[1..], c)
  }

  /** `s.split(sep)` for a one-character separator: the pieces between
      separators, one more piece than there are separators. */
  function Split(s: string, sep: char): (r: seq<string>)
    ensures |r| == Count(s, sep) + 1
    ensures forall i :: 0 <= i < |r| ==> sep !in r[i]
    ensures Join(r, [sep]) == s
  {
    if |s| == 0 then [""]
    else
      var rest := Split(s[1..], sep);
      if s[0] == sep then
        assert s == [sep] + s[1..];
        [""] + rest
      else
        var r := [[s[0]] + rest[0]] + rest[1..];
        assert s == [s[0]] + s[1..];
        assert Join(r, [sep]) == [s[0]] + Join(rest, [sep]) by {
          if |rest| > 1 {
            assert r[1..] == rest[1..];
          }
        }
        r
  }

  lemma {:induction false} SplitNoSeparator(s: string, sep: char)
    requires sep !in s
    ensures Split(s, sep) == [s]
  {
    if |s| > 0 {
      SplitNoSeparator(s[1..], sep);
      assert [s[0]] + s[1..] == s;
    }
  }

  lemma {:induction false} SplitAfterPiece(a: string, sep: char, b: string)
    requires sep !in a
    ensures Split(a + [sep] + b, sep) == [a] + Split(b, sep)
  {
    if |a| == 0 {
      assert a + [sep] + b == [sep] + b;
      assert ([sep] + b)[1..] == b;
    } else {
      var s := a + [sep] + b;
      assert s[1..] == a[1..] + [sep] + b;
      SplitAfterPiece(a[1..], sep, b);
      assert [a[0]] + a[1..] == a;
    }
  }

  /** Splitting a joined text gives back its pieces when no piece holds the separator. */
  lemma {:induction false} SplitJoin(parts: seq<string>, sep: char)
    requires |parts| >= 1
    requires forall i :: 0 <= i < |parts| ==> sep !in parts[i]
    ensures Split(Join(parts, [sep]), sep) == parts
  {
    if |parts| == 1 {
      SplitNoSeparator(parts[0], sep);
    } else {
      SplitJoin(parts[1..], sep);
      SplitAfterPiece(parts[0], sep, Join(parts[1..], [sep]));
      assert [parts[0]] + parts[1..] == parts;
    }
  }

  // ---------------------------------------------------------------------------
  // TextUtil

  /** `n` copies of `ch`. */
  function Repeat(ch: string, n: nat): (r: string)
    ensures |r| == n * |ch|
    ensures |ch| == 1 ==> forall i :: 0 <= i < |r| ==> r[i] == ch[0]
  {
    if n == 0 then ""
    else
      var rest := Repeat(ch, n - 1);
      assert |ch + rest| == n * |ch| by {
        assert n * |ch| == |ch| + (n - 1) * |ch|;
      }
      ch + rest
  }

  /** `truncate(str, maxlen)`: keeps the tail of a string longer than `maxlen`
      behind a `...` marker. */
  function Truncate(s: string, maxlen: int): (r: string)
    ensures maxlen <= 0 || |s| <= maxlen ==> r == s
    ensures 0 < maxlen < |s| ==>
      && |r| == Max(maxlen, 3)
      && r[..3] == "..."
      && r[3..] == s[|s| - (|r| - 3)..]
  {
    if 0 < maxlen && maxlen < |s| then
      "..." + Slice(s, |s| - maxlen + 3, |s|)
    else
      s
  }

  /** Truncating twice with the same bound changes nothing more. */
  lemma TruncateIdempotent(s: string, maxlen: int)
    ensures Truncate(Truncate(s, maxlen), maxlen) == Truncate(s, maxlen)
  {
  }

  /** The number of members every object literal inherits from `Object.prototype`. */
  const ProtoCount: nat := 12

  /** The `i`th member name of `Object.prototype`. */
  function ProtoMember(i: nat): string
    requires i < ProtoCount
  {
    if i == 0 then "constructor" else if i == 1 then "hasOwnProperty"
    else if i == 2 then "isPrototypeOf" else if i == 3 then "propertyIsEnumerable"
    else if i == 4 then "toLocaleString" else if i == 5 then "toString"
    else if i == 6 then "valueOf" else if i == 7 then "__proto__"
    else if i == 8 then "__defineGetter__" else if i == 9 then "__defineSetter__"
    else if i == 10 then "__lookupGetter__" else "__lookupSetter__"
  }

  /** `name` is one of the members from the `i`th on. */
  predicate InheritedFrom(name: string, i: nat)
    decreases ProtoCount - i
  {
    i < ProtoCount && (name == ProtoMember(i) || InheritedFrom(name, i + 1))
  }

  /** A lookup such as `COLOR_MAP[name]` on an object literal also finds the
      members inherited from `Object.prototype`. */
  predicate Inherited(name: string) {
    InheritedFrom(name, 0)
  }

  /** No inherited member shadows an entry of the three tables. */
  lemma {:induction false} InheritedNotOwn(name: string, i: nat)
    requires InheritedFrom(name, i)
    ensures name !in ColorMap && name !in BgColorMap && name !in AttrMap
    decreases ProtoCount - i
  {
    if name != ProtoMember(i) {
      InheritedNotOwn(name, i + 1);
    }
  }

  /** The text an inherited member becomes when joined into the SGR parameter
      list: `__proto__` is `Object.prototype` itself, `constructor` is the
      built-in `Object`, and every other member is the built-in function of
      that name, printed as native code. */
  function InheritedText(name: string): string {
    if name == "__proto__" then "[object Object]"
    else "function " + (if name == "constructor" then "Object" else name) + "() { [native code] }"
  }

  /** `table[name] || fallback` on an object literal: an own entry, else an
      inherited member, else the fallback (every own entry is non-empty). */
  function Lookup(table: map<string, string>, name: string, fallback: string): string {
    if name in table then table[name]
    else if Inherited(name) then InheritedText(name)
    else fallback
  }

  function ColorCode(name: string): string {
    Lookup(ColorMap, name, "37")
  }

  function BackgroundCode(name: string): string {
    Lookup(BgColorMap, name, "40")
  }

  function AttributeCode(name: string): string {
    Lookup(AttrMap, name, "")
  }

  function Present<T>(o: Option<T>): nat {
    if o.Some? then 1 else 0
  }

  /** The SGR parameters of a style, foreground first, then background, then attribute. */
  function Codes(style: Style): (codes: seq<string>)
    ensures |codes| == Present(style.color) + Present(style.background) + Present(style.attribute)
    ensures style.color.Some? ==> codes[0] == ColorCode(style.color.value)
    ensures style.attribute.Some? ==> codes[|codes| - 1] == AttributeCode(style.attribute.value)
  {
    (if style.color.Some? then [ColorCode(style.color.value)] else [])
    + (if style.background.Some? then [BackgroundCode(style.background.value)] else [])
    + (if style.attribute.Some? then [AttributeCode(style.attribute.value)] else [])
  }

  /** The escape sequence that switches a style on. */
  function Sgr(codes: seq<string>): (r: string)
    ensures |r| >= 3 && r[0] == Esc && r[|r| - 1] == 'm'
  {
    [Esc] + "[" + Join(codes, ";") + "m"
  }

  /** The index a ranged style ends at: a falsy `end` (absent or 0) means the whole string. */
  function EndOf(s: string, end: Option<int>): int {
    if end.None? || end.value == 0 then |s| else end.value
  }

  /** True when a style contributes no SGR code at all. */
  predicate Plain(style: Option<Style>) {
    style.None? || Codes(style.value) == []
  }

  /** `setTextStyle(str, style, start, end)`: wraps the whole string, or the
      slice `[start, end)`, in the style's escape sequence and a reset. */
  function SetTextStyle(s: string, style: Option<Style>, start: Option<int>, end: Option<int>): (r: string)
    ensures r == s <==> Plain(style)
    ensures !Plain(style) && start.None? ==>
      r == Sgr(Codes(style.value)) + s + Reset
    ensures !Plain(style) && start.Some? && 0 <= start.value <= EndOf(s, end) <= |s| ==>
      var a, e := start.value, EndOf(s, end);
      r == s[..a] + Sgr(Codes(style.value)) + s[a..e] + Reset + s[e..]
  {
    if Plain(style) then s
    else
      var open := Sgr(Codes(style.value));
      if start.None? then
        open + s + Reset
      else
        var e := EndOf(s, end);
        var r := Slice(s, 0, start.value) + open + Slice(s, start.value, e) + Reset + Slice(s, e, |s|);
        assert |r| > |s| by {
          var i, j := SliceIndex(start.value, |s|), SliceIndex(e, |s|);
          assert |Slice(s, 0, start.value)| == i;
          assert |Slice(s, e, |s|)| == |s| - j;
        }
        r
  }

  /** Deleting the inserted escape sequences from a ranged style gives the input back. */
  lemma SetTextStyleRoundTrip(s: string, style: Style, a: int, end: Option<int>)
    requires !Plain(Some(style))
    requires 0 <= a <= EndOf(s, end) <= |s|
    ensures Unwrap(SetTextStyle(s, Some(style), Some(a), end), a, EndOf(s, end), |Sgr(Codes(style))|) == s
  {
    var r := SetTextStyle(s, Some(style), Some(a), end);
    var open := Sgr(Codes(style));
    var e := EndOf(s, end);
    assert r == s[..a] + open + s[a..e] + Reset + s[e..];
    DropInserted(s, open, Reset, a, e);
  }

  /** Deleting two pieces inserted at `a` and `e` gives the string back. */
  lemma DropInserted(s: string, open: string, close: string, a: int, e: int)
    requires 0 <= a <= e <= |s| && close == Reset
    ensures Unwrap(s[..a] + open + s[a..e] + close + s[e..], a, e, |open|) == s
  {
    var r := s[..a] + open + s[a..e] + close + s[e..];
    assert r[..a] == s[..a];
    assert r[a + |open| .. e + |open|] == s[a..e];
    assert r[e + |open| + |close| ..] == s[e..];
    assert s[..a] + s[a..e] + s[e..] == s;
  }

  /** The text of a ranged style with the `o`-character opening sequence and
      the reset removed again. */
  function Unwrap(r: string, a: int, e: int, o: nat): string
    requires 0 <= a <= e && e + o + |Reset| <= |r|
  {
    r[..a] + r[a + o .. e + o] + r[e + o + |Reset| ..]
  }

  /** Unknown colour names fall back to white foreground and black background.
      A name is unknown when the table has no entry for it, own or inherited. */
  lemma UnknownColorsFallBack(fg: string, bg: string)
    requires fg !in ColorMap && !Inherited(fg) && bg !in BgColorMap && !Inherited(bg)
    ensures Sgr(Codes(Style(Some(fg), Some(bg), None))) == [Esc] + "[37;40m"
  {
    assert ColorCode(fg) == "37" && BackgroundCode(bg) == "40";
    assert Codes(Style(Some(fg), Some(bg), None)) == ["37", "40"];
    assert Join(["37", "40"], ";") == "37;40";
  }

  /** A name inherited from `Object.prototype` gets no fallback: its member
      is printed into the escape sequence in every part of the style. */
  lemma InheritedNamesLeak(name: string)
    requires Inherited(name)
    ensures Codes(Style(Some(name), Some(name), Some(name))) == [InheritedText(name), InheritedText(name), InheritedText(name)]
    ensures ColorCode(name) != "37" && BackgroundCode(name) != "40" && AttributeCode(name) != ""
  {
    InheritedNotOwn(name, 0);
  }

  /** The wrapper both `TextGraph.setTextStyle` and `TextQuoter.setTextStyle`
      put around `SetTextStyle`: styling happens only when colour is on. */
  function SetTextStyleIf(useColor: bool, s: string, style: Option<Style>, start: Option<int>, end: Option<int>): (r: string)
    ensures !useColor ==> r == s
    ensures useColor ==> r == SetTextStyle(s, style, start, end)
  {
    if useColor then SetTextStyle(s, style, start, end) else s
  }

  /** `makeIndent(n, ch)`: `Array(n + 1).join(ch)`, which throws for `n < -1`. */
  function MakeIndent(n: int, ch: string): (r: Result<string>)
    ensures r.Success? <==> n >= -1
    ensures r.Success? ==> |r.value| == Max(n, 0) * |ch|
    ensures r.Success? && |ch| == 1 ==> forall i :: 0 <= i < |r.value| ==> r.value[i] == ch[0]
  {
    var k := n + 1;
    if k < 0 then Failure(InvalidArrayLength)
    else Success(Repeat(ch, if k == 0 then 0 else k - 1))
  }

  /** `makeLine(indent, length, ch)`: `indent` spaces followed by `length` copies of `ch`. */
  function MakeLine(indent: int, length: int, ch: string): (r: Result<string>)
    ensures r.Success? <==> indent >= -1 && length >= -1
    ensures r.Success? ==> |r.value| == Max(indent, 0) + Max(length, 0) * |ch|
    ensures r.Success? ==> forall i :: 0 <= i < Max(indent, 0) ==> r.value[i] == ' '
    ensures r.Success? && |ch| == 1 ==>
      forall i :: Max(indent, 0) <= i < |r.value| ==> r.value[i] == ch[0]
  {
    var spaces :- MakeIndent(indent, " ");
    var body :- MakeIndent(length, ch);
    Success(spaces + body)
  }

  /** The `i`th character of `s` as a string, or the empty string past its end (`s[i] || ''`). */
  function CharOrEmpty(s: string, i: nat): (r: string)
    ensures |r| == (if i < |s| then 1 else 0)
  {
    if i < |s| then [s[i]] else ""
  }

  /** `concatTextBlock(a, b)`: zips two strings character by character. */
  method ConcatTextBlock(a: string, b: string) returns (result: seq<string>)
    ensures |result| == Max(|a|, |b|)
    ensures forall i :: 0 <= i < |result| ==> result[i] == CharOrEmpty(a, i) + CharOrEmpty(b, i)
    ensures forall i :: 0 <= i < |a| ==> |result[i]| >= 1 && result[i][0] == a[i]
    ensures forall i :: 0 <= i < |b| ==> |result[i]| >= 1 && result[i][|result[i]| - 1] == b[i]
  {
    result := [];
    var i := 0;
    while i < Max(|a|, |b|)
      invariant 0 <= i <= Max(|a|, |b|)
      invariant |result| == i
      invariant forall k :: 0 <= k < i ==> result[k] == CharOrEmpty(a, k) + CharOrEmpty(b, k)
    {
      result := result + [CharOrEmpty(a, i) + CharOrEmpty(b, i)];
      i := i + 1;
    }
  }
}

=== FILE: trace_events.dfy ===
/** The trace events a PEG.js parser emits, and their source locations. */
module TraceEvents {

  /** An event's `type` string: the three the tracer recognises, or any other
      string carried verbatim (the root node's type is `OtherType("root")`). */
  datatype EventType = RuleEnter | RuleMatch | RuleFail | OtherType(name: string)

  /** The three `type` strings the tracer dispatches on. */
  const KnownNames: set<string> := {"rule.enter", "rule.match", "rule.fail"}

  /** Each string has one spelling: `OtherType` never carries one of the three names. */
  predicate Canonical(k: EventType) {
    k.OtherType? ==> k.name != "rule.enter" && k.name != "rule.match" && k.name != "rule.fail"
  }

  /** The type of an event as the parser hands it over. */
  type Kind = k: EventType | Canonical(k) witness RuleEnter

  /** The `type` string of an event type. */
  function NameOf(k: EventType): string {
    match k
    case RuleEnter => "rule.enter"
    case RuleMatch => "rule.match"
    case RuleFail => "rule.fail"
    case OtherType(name) => name
  }

  /** The event type a `type` string names: the three recognised strings get
      their own constructor, any other string is carried as it is. */
  function KindOf(name: string): (k: Kind)
    ensures (k == RuleEnter) <==> name == "rule.enter"
    ensures (k == RuleMatch) <==> name == "rule.match"
    ensures (k == RuleFail) <==> name == "rule.fail"
    ensures k.OtherType? <==> name !in KnownNames
  {
    if name == "rule.enter" then RuleEnter
    else if name == "rule.match" then RuleMatch
    else if name == "rule.fail" then RuleFail
    else OtherType(name)
  }

  /** Reading a type string and writing it back gives the same string, and
      writing a type and reading it back gives the same type. */
  lemma KindNameRoundTrip(name: string, k: Kind)
    ensures NameOf(KindOf(name)) == name
    ensures KindOf(NameOf(k)) == k
  {
  }

  datatype Position = Position(offset: int, line: int, column: int)

  datatype Location = Location(start: Position, end: Position)

  datatype Event = Event(kind: Kind, rule: string, location: Location)

  const ZeroLocation: Location := Location(Position(0, 0, 0), Position(0, 0, 0))
}

=== FILE: trace_tree.dfy ===
/** The tracer's event-driven trace tree: a cursor that descends on
    `rule.enter` and climbs back on `rule.match` / `rule.fail`, numbering the
    nodes it creates and keeping the furthest-failure frontier
    (`maxFailPos`, `maxFails`).

    The tree is an arena: `nodes[0]` is the root, every other node records
    the index of its parent, and `matches` / `fails` hold child indices in
    the order the children finished. */
module TraceTree {
  import opened Results
  import opened TraceEvents
  import TextQuoter

  datatype Node = Node(
    path: string,
    rule: string,
    kind: Kind,
    location: Location,
    parent: nat,          // the root's own entry is 0 and stands for `null`
    matches: seq<nat>,
    fails: seq<nat>,
    number: nat)          // the root carries no number in the tracer; 0 here

  datatype Tracer = Tracer(
    nodes: seq<Node>,
    current: nat,         // the cursor, `currentNode`
    maxFailPos: int,
    maxFails: seq<nat>,
    level: int,           // `currentLevel`
    numNodes: nat)

  const Root: Node := Node("", "", OtherType("root"), ZeroLocation, 0, [], [], 0)

  /** The `path` a child of `n` receives. */
  function ChildPath(n: Node): string {
    n.path + n.rule + "/"
  }

  /** Every finished child of `n`: matches first, then fails. */
  function Children(n: Node): seq<nat> {
    n.matches + n.fails
  }

  // ---------------------------------------------------------------------------
  // Shape of the arena

  predicate ParentsBelow(nodes: seq<Node>) {
    forall i :: 0 < i < |nodes| ==> nodes[i].parent < i
  }

  /** Distance from `i` to the root along parent links. */
  function Depth(nodes: seq<Node>, i: nat): nat
    requires ParentsBelow(nodes) && i < |nodes|
    decreases i
  {
    if i == 0 then 0 else 1 + Depth(nodes, nodes[i].parent)
  }

  /** `i` is the node `c` or one of its ancestors. */
  predicate OnChain(nodes: seq<Node>, c: nat, i: nat)
    requires ParentsBelow(nodes) && c < |nodes|
    decreases c
  {
    i == c || (c != 0 && OnChain(nodes, nodes[c].parent, i))
  }

  predicate RootOk(nodes: seq<Node>) {
    |nodes| > 0 && nodes[0].path == "" && nodes[0].rule == "" && nodes[0].parent == 0
  }

  /** Parents come earlier, paths extend the parent's path by its rule, and numbers are positions. */
  predicate Linked(nodes: seq<Node>) {
    && ParentsBelow(nodes)
    && (forall i :: 0 < i < |nodes| ==> nodes[i].path == ChildPath(nodes[nodes[i].parent]))
    && (forall i :: 0 <= i < |nodes| ==> nodes[i].number == i)
  }

  /** Every listed child comes later in the arena and points back at its parent. */
  predicate ChildrenLinked(nodes: seq<Node>) {
    forall p, j :: 0 <= p < |nodes| && 0 <= j < |Children(nodes[p])| ==>
      p < Children(nodes[p])[j] < |nodes| && nodes[Children(nodes[p])[j]].parent == p
  }

  /** Stack discipline: exactly the cursor and its ancestors are still
      entered, and every other node is listed among its parent's children. */
  predicate Discipline(nodes: seq<Node>, current: nat)
    requires ParentsBelow(nodes) && current < |nodes|
  {
    forall i :: 0 < i < |nodes| ==>
      && (nodes[i].kind == RuleEnter <==> OnChain(nodes, current, i))
      && (i in Children(nodes[nodes[i].parent]) <==> !OnChain(nodes, current, i))
  }

  predicate SameRule(a: Node, b: Node) {
    a.path == b.path && a.rule == b.rule
  }

  /** The frontier: finished failures at `maxFailPos`, each filed under its
      parent's `fails`, no two at the same `(path, rule)` site. */
  predicate FrontierOk(t: Tracer)
    requires ParentsBelow(t.nodes) && t.current < |t.nodes|
  {
    && t.maxFailPos >= 0
    && (forall j :: 0 <= j < |t.maxFails| ==>
          && 0 < t.maxFails[j] < |t.nodes|
          && t.nodes[t.maxFails[j]].location.start.offset == t.maxFailPos
          && !OnChain(t.nodes, t.current, t.maxFails[j])
          && t.maxFails[j] in t.nodes[t.nodes[t.maxFails[j]].parent].fails)
    && (forall j, k :: 0 <= j < k < |t.maxFails| && t.maxFails[k] < |t.nodes| ==>
          t.maxFails[j] < |t.nodes| && !SameRule(t.nodes[t.maxFails[j]], t.nodes[t.maxFails[k]]))
  }

  predicate Valid(t: Tracer) {
    && RootOk(t.nodes)
    && Linked(t.nodes)
    && ChildrenLinked(t.nodes)
    && t.current < |t.nodes|
    && t.numNodes == |t.nodes| - 1
    && t.level == Depth(t.nodes, t.current)
    && Discipline(t.nodes, t.current)
    && FrontierOk(t)
  }

  // ---------------------------------------------------------------------------
  // Frame lemmas

  /** Two arenas with the same parent links up to some length. */
  predicate SameParents(a: seq<Node>, b: seq<Node>, n: nat) {
    n <= |a| && n <= |b| && forall i :: 0 <= i < n ==> a[i].parent == b[i].parent
  }

  lemma {:induction false} ChainFrame(a: seq<Node>, b: seq<Node>, c: nat, i: nat)
    requires ParentsBelow(a) && ParentsBelow(b) && c < |a| && SameParents(a, b, c + 1)
    ensures OnChain(a, c, i) == OnChain(b, c, i)
    ensures Depth(a, c) == Depth(b, c)
    decreases c
  {
    if c != 0 {
      ChainFrame(a, b, a[c].parent, i);
    }
  }

  /** Ancestors of `c` sit at or before it. */
  lemma {:induction false} ChainBelow(nodes: seq<Node>, c: nat, i: nat)
    requires ParentsBelow(nodes) && c < |nodes| && OnChain(nodes, c, i)
    ensures i <= c
    decreases c
  {
    if i != c {
      ChainBelow(nodes, nodes[c].parent, i);
    }
  }

  // ---------------------------------------------------------------------------
  // Steps

  function Init(): (t: Tracer)
    ensures Valid(t)
    ensures t.nodes == [Root] && t.current == 0
    ensures t.maxFailPos == 0 && t.maxFails == [] && t.level == 0 && t.numNodes == 0
  {
    Tracer([Root], 0, 0, [], 0, 0)
  }

  /** `onEnter`: a fresh node under the cursor becomes the cursor. */
  function Enter(t: Tracer, e: Event): (r: Tracer)
    requires Valid(t)
    ensures |r.nodes| == |t.nodes| + 1 && r.nodes[..|t.nodes|] == t.nodes
    ensures var n := r.nodes[|t.nodes|];
      && n.path == ChildPath(t.nodes[t.current])
      && n.rule == e.rule && n.kind == e.kind && n.location == e.location
      && n.parent == t.current && n.matches == [] && n.fails == []
      && n.number == t.numNodes + 1
    ensures r.current == |t.nodes| && r.numNodes == t.numNodes + 1 && r.level == t.level + 1
    ensures r.maxFailPos == t.maxFailPos && r.maxFails == t.maxFails
    ensures e.kind == RuleEnter ==> Valid(r)
  {
    var n := Node(ChildPath(t.nodes[t.current]), e.rule, e.kind, e.location, t.current, [], [], t.numNodes + 1);
    var r := t.(nodes := t.nodes + [n], current := |t.nodes|, numNodes := t.numNodes + 1, level := t.level + 1);
    EnterValid(t, e, r);
    r
  }

  lemma EnterValid(t: Tracer, e: Event, r: Tracer)
    requires Valid(t)
    requires r == t.(nodes := t.nodes + [Node(ChildPath(t.nodes[t.current]), e.rule, e.kind, e.location, t.current, [], [], t.numNodes + 1)],
                     current := |t.nodes|, numNodes := t.numNodes + 1, level := t.level + 1)
    ensures e.kind == RuleEnter ==> Valid(r)
  {
    var nd := r.nodes[|t.nodes|];
    EnterChains(t.nodes, nd, t.current);
    EnterLinked(t.nodes, nd, t.current);
    EnterChildren(t.nodes, nd);
    if e.kind == RuleEnter {
      EnterDiscipline(t.nodes, nd, t.current);
      EnterFrontier(t, r);
    }
  }

  lemma EnterChains(a: seq<Node>, nd: Node, c: nat)
    requires ParentsBelow(a) && c < |a| && nd.parent == c
    ensures ParentsBelow(a + [nd])
    ensures forall i :: 0 <= i < |a| ==> OnChain(a + [nd], |a|, i) == OnChain(a, c, i)
    ensures Depth(a + [nd], |a|) == 1 + Depth(a, c)
  {
    var b := a + [nd];
    assert SameParents(a, b, |a|);
    forall i | 0 <= i < |a|
      ensures OnChain(b, |a|, i) == OnChain(a, c, i)
    {
      ChainFrame(a, b, c, i);
    }
    ChainFrame(a, b, c, 0);
  }

  lemma EnterLinked(a: seq<Node>, nd: Node, c: nat)
    requires RootOk(a) && Linked(a) && c < |a|
    requires nd.parent == c && nd.path == ChildPath(a[c]) && nd.number == |a|
    ensures RootOk(a + [nd]) && Linked(a + [nd])
  {
  }

  lemma EnterChildren(a: seq<Node>, nd: Node)
    requires ChildrenLinked(a) && Children(nd) == []
    ensures ChildrenLinked(a + [nd])
  {
    var b := a + [nd];
    forall p, j | 0 <= p < |b| && 0 <= j < |Children(b[p])|
      ensures p < Children(b[p])[j] < |b| && b[Children(b[p])[j]].parent == p
    {
      assert p < |a|;
      assert b[p] == a[p];
      assert Children(b[p])[j] == Children(a[p])[j];
    }
  }

  lemma EnterDiscipline(a: seq<Node>, nd: Node, c: nat)
    requires ParentsBelow(a) && ChildrenLinked(a) && c < |a| && Discipline(a, c)
    requires nd.parent == c && nd.kind == RuleEnter
    requires ParentsBelow(a + [nd])
    requires forall i :: 0 <= i < |a| ==> OnChain(a + [nd], |a|, i) == OnChain(a, c, i)
    ensures Discipline(a + [nd], |a|)
  {
    var b := a + [nd];
    forall i | 0 < i < |b|
      ensures (b[i].kind == RuleEnter <==> OnChain(b, |a|, i))
      ensures (i in Children(b[b[i].parent]) <==> !OnChain(b, |a|, i))
    {
      if i < |a| {
        assert b[i] == a[i] && b[a[i].parent] == a[a[i].parent];
      } else {
        assert |a| !in Children(a[c]);
      }
    }
  }

  lemma EnterFrontier(t: Tracer, r: Tracer)
    requires ParentsBelow(t.nodes) && t.current < |t.nodes| && FrontierOk(t)
    requires |r.nodes| == |t.nodes| + 1 && r.nodes[..|t.nodes|] == t.nodes && ParentsBelow(r.nodes)
    requires r.current == |t.nodes| && r.maxFailPos == t.maxFailPos && r.maxFails == t.maxFails
    requires forall i :: 0 <= i < |t.nodes| ==> OnChain(r.nodes, |t.nodes|, i) == OnChain(t.nodes, t.current, i)
    ensures FrontierOk(r)
  {
    forall j | 0 <= j < |r.maxFails|
      ensures r.nodes[r.maxFails[j]] == t.nodes[t.maxFails[j]]
      ensures r.nodes[r.nodes[r.maxFails[j]].parent] == t.nodes[t.nodes[t.maxFails[j]].parent]
    {
      assert r.nodes[r.maxFails[j]] == r.nodes[..|t.nodes|][t.maxFails[j]];
      assert r.nodes[t.nodes[t.maxFails[j]].parent] == r.nodes[..|t.nodes|][t.nodes[t.maxFails[j]].parent];
    }
  }

  /** The cursor's parent. */
  function ParentOf(t: Tracer): nat
    requires Valid(t) && t.current != 0
    ensures ParentOf(t) < t.current
  {
    t.nodes[t.current].parent
  }

  /** The arena after the cursor node finishes with the event `e`: its type and
      location come from the event, and it is filed under its parent's
      `fails` (when `failed`) or `matches`. */
  function Finish(t: Tracer, e: Event, failed: bool): (nodes: seq<Node>)
    requires Valid(t) && t.current != 0
    ensures |nodes| == |t.nodes|
  {
    var c := t.current;
    var p := ParentOf(t);
    var closed := t.nodes[c := t.nodes[c].(kind := e.kind, location := e.location)];
    var par := closed[p];
    closed[p := if failed then par.(fails := par.fails + [c]) else par.(matches := par.matches + [c])]
  }

  /** What finishing changes in the arena, and that it keeps the tree well formed. */
  lemma FinishFacts(t: Tracer, e: Event, failed: bool)
    requires Valid(t) && t.current != 0
    ensures var nodes, c, p := Finish(t, e, failed), t.current, ParentOf(t);
      && nodes[c] == t.nodes[c].(kind := e.kind, location := e.location)
      && nodes[p].matches == t.nodes[p].matches + (if failed then [] else [c])
      && nodes[p].fails == t.nodes[p].fails + (if failed then [c] else [])
      && nodes[p].(matches := t.nodes[p].matches, fails := t.nodes[p].fails) == t.nodes[p]
      && (forall i :: 0 <= i < |nodes| && i != c && i != p ==> nodes[i] == t.nodes[i])
  {
  }

  /** The arena after a failure, node by node. */
  lemma FinishFailed(t: Tracer, e: Event)
    requires Valid(t) && t.current != 0
    ensures var nodes, c, p := Finish(t, e, true), t.current, t.nodes[t.current].parent;
      && nodes[c] == t.nodes[c].(kind := e.kind, location := e.location)
      && nodes[p] == t.nodes[p].(fails := t.nodes[p].fails + [c])
      && (forall i :: 0 <= i < |t.nodes| && i != c && i != p ==> nodes[i] == t.nodes[i])
  {
  }

  /** The arena after a match, node by node. */
  lemma FinishMatched(t: Tracer, e: Event)
    requires Valid(t) && t.current != 0
    ensures var nodes, c, p := Finish(t, e, false), t.current, t.nodes[t.current].parent;
      && nodes[c] == t.nodes[c].(kind := e.kind, location := e.location)
      && nodes[p] == t.nodes[p].(matches := t.nodes[p].matches + [c])
      && (forall i :: 0 <= i < |t.nodes| && i != c && i != p ==> nodes[i] == t.nodes[i])
  {
  }

  /** Finishing keeps the arena's shape and moves the cursor to the parent. */
  lemma FinishValid(t: Tracer, e: Event, failed: bool, r: Tracer)
    requires Valid(t) && t.current != 0 && e.kind != RuleEnter
    requires r.nodes == Finish(t, e, failed) && r.current == ParentOf(t)
    requires r.numNodes == t.numNodes && r.level == t.level - 1
    requires r.maxFailPos >= 0
    requires forall j :: 0 <= j < |r.maxFails| ==>
      r.maxFails[j] in t.maxFails || (failed && r.maxFails[j] == t.current)
    requires forall j :: 0 <= j < |r.maxFails| && r.maxFails[j] < |r.nodes| ==>
      r.nodes[r.maxFails[j]].location.start.offset == r.maxFailPos
    requires forall j, k :: 0 <= j < k < |r.maxFails| && r.maxFails[k] < |r.nodes| ==>
      r.maxFails[j] < |r.nodes| && !SameRule(r.nodes[r.maxFails[j]], r.nodes[r.maxFails[k]])
    ensures Valid(r)
  {
    FinishTree(t, e, failed);
    FinishFrontier(t, r, failed);
  }

  /** Finishing the cursor node keeps the tree well formed around the parent. */
  lemma FinishTree(t: Tracer, e: Event, failed: bool)
    requires Valid(t) && t.current != 0 && e.kind != RuleEnter
    ensures var a, b, c, p := t.nodes, Finish(t, e, failed), t.current, ParentOf(t);
      && RootOk(b) && Linked(b) && ChildrenLinked(b) && ParentsBelow(b)
      && SameSkeleton(a, b)
      && Depth(b, p) == Depth(a, c) - 1
      && Discipline(b, p)
      && (forall i :: 0 <= i < |a| ==> (OnChain(b, p, i) <==> OnChain(a, c, i) && i != c))
      && (forall i :: 0 <= i < |a| && i != p ==> b[i].fails == a[i].fails)
      && (forall x :: x in a[p].fails ==> x in b[p].fails)
      && (failed ==> c in b[p].fails)
  {
    var a, b := t.nodes, Finish(t, e, failed);
    var c, p := t.current, ParentOf(t);
    FinishFacts(t, e, failed);
    FinishChains(a, b, c);
    FinishLinked(a, b);
    FinishChildren(a, b, c, p);
    FinishDiscipline(a, b, c, p);
  }

  /** Finishing changes no parent link, path, rule or number. */
  predicate SameSkeleton(a: seq<Node>, b: seq<Node>) {
    |a| == |b| && forall i :: 0 <= i < |a| ==>
      a[i].parent == b[i].parent && SameRule(a[i], b[i]) && a[i].number == b[i].number
  }

  lemma FinishChains(a: seq<Node>, b: seq<Node>, c: nat)
    requires ParentsBelow(a) && 0 < c < |a| && SameSkeleton(a, b)
    ensures ParentsBelow(b)
    ensures forall i :: 0 <= i < |a| ==> (OnChain(b, a[c].parent, i) <==> OnChain(a, c, i) && i != c)
    ensures Depth(b, a[c].parent) == Depth(a, c) - 1
  {
    var p := a[c].parent;
    assert SameParents(a, b, |a|);
    forall i | 0 <= i < |a|
      ensures OnChain(b, p, i) <==> OnChain(a, c, i) && i != c
    {
      ChainFrame(a, b, p, i);
      if OnChain(a, p, i) {
        ChainBelow(a, p, i);
      }
    }
    ChainFrame(a, b, p, 0);
  }

  lemma FinishLinked(a: seq<Node>, b: seq<Node>)
    requires RootOk(a) && Linked(a) && SameSkeleton(a, b)
    ensures RootOk(b) && Linked(b)
  {
    forall i | 0 < i < |b|
      ensures b[i].path == ChildPath(b[b[i].parent])
    {
      assert SameRule(a[a[i].parent], b[a[i].parent]);
    }
  }

  lemma FinishChildren(a: seq<Node>, b: seq<Node>, c: nat, p: nat)
    requires ChildrenLinked(a) && SameSkeleton(a, b) && p < c < |a| && a[c].parent == p
    requires forall i :: 0 <= i < |a| && i != p ==> Children(b[i]) == Children(a[i])
    requires forall x :: x in Children(b[p]) <==> x in Children(a[p]) || x == c
    ensures ChildrenLinked(b)
  {
    forall q, j | 0 <= q < |b| && 0 <= j < |Children(b[q])|
      ensures q < Children(b[q])[j] < |b| && b[Children(b[q])[j]].parent == q
    {
      var x := Children(b[q])[j];
      if q != p {
        assert x == Children(a[q])[j];
      } else if x != c {
        assert x in Children(a[p]);
        var j' :| 0 <= j' < |Children(a[p])| && Children(a[p])[j'] == x;
      }
    }
  }

  lemma FinishDiscipline(a: seq<Node>, b: seq<Node>, c: nat, p: nat)
    requires ParentsBelow(a) && ParentsBelow(b) && SameSkeleton(a, b) && 0 < c < |a| && a[c].parent == p
    requires Discipline(a, c)
    requires b[c].kind != RuleEnter
    requires forall i :: 0 <= i < |a| && i != c ==> b[i].kind == a[i].kind
    requires forall i :: 0 <= i < |a| && i != p ==> Children(b[i]) == Children(a[i])
    requires forall x :: x in Children(b[p]) <==> x in Children(a[p]) || x == c
    requires forall i :: 0 <= i < |a| ==> (OnChain(b, p, i) <==> OnChain(a, c, i) && i != c)
    ensures Discipline(b, p)
  {
    forall i | 0 < i < |b|
      ensures (b[i].kind == RuleEnter <==> OnChain(b, p, i))
      ensures (i in Children(b[b[i].parent]) <==> !OnChain(b, p, i))
    {
      var q := a[i].parent;
      if q != p {
        assert Children(b[q]) == Children(a[q]);
      }
    }
  }

  lemma FinishFrontier(t: Tracer, r: Tracer, failed: bool)
    requires ParentsBelow(t.nodes) && ParentsBelow(r.nodes) && SameSkeleton(t.nodes, r.nodes)
    requires 0 < t.current < |t.nodes| && FrontierOk(t)
    requires r.current == t.nodes[t.current].parent
    requires forall i :: 0 <= i < |t.nodes| ==>
      (OnChain(r.nodes, r.current, i) <==> OnChain(t.nodes, t.current, i) && i != t.current)
    requires forall i :: 0 <= i < |t.nodes| && i != r.current ==> r.nodes[i].fails == t.nodes[i].fails
    requires forall x :: x in t.nodes[r.current].fails ==> x in r.nodes[r.current].fails
    requires failed ==> t.current in r.nodes[r.current].fails
    requires r.maxFailPos >= 0
    requires forall j :: 0 <= j < |r.maxFails| ==>
      r.maxFails[j] in t.maxFails || (failed && r.maxFails[j] == t.current)
    requires forall j :: 0 <= j < |r.maxFails| && r.maxFails[j] < |r.nodes| ==>
      r.nodes[r.maxFails[j]].location.start.offset == r.maxFailPos
    requires forall j, k :: 0 <= j < k < |r.maxFails| && r.maxFails[k] < |r.nodes| ==>
      r.maxFails[j] < |r.nodes| && !SameRule(r.nodes[r.maxFails[j]], r.nodes[r.maxFails[k]])
    ensures FrontierOk(r)
  {
    var a, b := t.nodes, r.nodes;
    forall j | 0 <= j < |r.maxFails|
      ensures 0 < r.maxFails[j] < |b|
      ensures !OnChain(b, r.current, r.maxFails[j])
      ensures r.maxFails[j] in b[b[r.maxFails[j]].parent].fails
    {
      var m := r.maxFails[j];
      if m != t.current || !failed {
        var j' :| 0 <= j' < |t.maxFails| && t.maxFails[j'] == m;
        assert m in a[a[m].parent].fails && m != t.current;
      }
    }
  }

  // ---------------------------------------------------------------------------
  // Match and fail

  /** Members of the frontier are untouched when the cursor finishes. */
  lemma FrontierUntouched(t: Tracer, e: Event, failed: bool)
    requires Valid(t) && t.current != 0
    ensures forall j :: 0 <= j < |t.maxFails| ==> Finish(t, e, failed)[t.maxFails[j]] == t.nodes[t.maxFails[j]]
  {
    FinishFacts(t, e, failed);
    forall j | 0 <= j < |t.maxFails|
      ensures Finish(t, e, failed)[t.maxFails[j]] == t.nodes[t.maxFails[j]]
    {
      assert OnChain(t.nodes, t.current, ParentOf(t));
    }
  }

  /** `onMatch`: the cursor node takes the event's type and location, is
      appended to its parent's `matches`, and the cursor climbs to the parent. */
  function Match(t: Tracer, e: Event): (r: Tracer)
    requires Valid(t) && t.current != 0
    ensures r.current == t.nodes[t.current].parent
    ensures r.level == t.level - 1 && r.numNodes == t.numNodes
    ensures |r.nodes| == |t.nodes|
    ensures r.nodes[t.current] == t.nodes[t.current].(kind := e.kind, location := e.location)
    ensures var p := t.nodes[t.current].parent;
      r.nodes[p] == t.nodes[p].(matches := t.nodes[p].matches + [t.current])
    ensures forall i :: 0 <= i < |t.nodes| && i != t.current && i != t.nodes[t.current].parent ==>
      r.nodes[i] == t.nodes[i]
    ensures r.maxFailPos == t.maxFailPos && r.maxFails == t.maxFails
    ensures e.kind != RuleEnter ==> Valid(r)
  {
    var r := Tracer(Finish(t, e, false), ParentOf(t), t.maxFailPos, t.maxFails, t.level - 1, t.numNodes);
    FinishMatched(t, e);
    if e.kind == RuleEnter then r
    else
      FinishValid(t, e, false, r);
      r
  }

  /** `isParentRule(parent, child)`. */
  predicate IsParentRule(parent: Node, child: Node) {
    ChildPath(parent) == child.path
  }

  /** A frontier member already stands for the node `c`: it is a direct child
      of `c`'s site or `c`'s own site. */
  predicate Represents(nodes: seq<Node>, f: nat, c: nat)
    requires f < |nodes| && c < |nodes|
  {
    IsParentRule(nodes[c], nodes[f]) || SameRule(nodes[c], nodes[f])
  }

  predicate InArena(nodes: seq<Node>, fs: seq<nat>) {
    forall j :: 0 <= j < |fs| ==> fs[j] < |nodes|
  }

  /** The backwards scan of `onFail` for a member that already stands for `c`. */
  function Covered(nodes: seq<Node>, fs: seq<nat>, c: nat): (b: bool)
    requires c < |nodes| && InArena(nodes, fs)
    ensures b <==> exists j :: 0 <= j < |fs| && Represents(nodes, fs[j], c)
    decreases |fs|
  {
    if |fs| == 0 then false
    else
      var last := fs[|fs| - 1];
      if Represents(nodes, last, c) then true
      else
        var b := Covered(nodes, fs[..|fs| - 1], c);
        assert forall j :: 0 <= j < |fs| - 1 ==> fs[..|fs| - 1][j] == fs[j];
        b
  }

  /** The frontier after the cursor fails at `offset`. */
  function NextFrontier(t: Tracer, offset: int): (int, seq<nat>)
    requires Valid(t)
  {
    if t.maxFailPos < offset then (offset, [t.current])
    else if t.maxFailPos == offset then
      if Covered(t.nodes, t.maxFails, t.current) then (t.maxFailPos, t.maxFails)
      else (t.maxFailPos, t.maxFails + [t.current])
    else (t.maxFailPos, t.maxFails)
  }

  /** `onFail`: the frontier update, then the cursor node takes the event's
      type and location, is appended to its parent's `fails`, and the cursor
      climbs to the parent. */
  function Fail(t: Tracer, e: Event): (r: Tracer)
    requires Valid(t) && t.current != 0
    ensures r.current == t.nodes[t.current].parent
    ensures r.level == t.level - 1 && r.numNodes == t.numNodes
    ensures |r.nodes| == |t.nodes|
    ensures r.nodes[t.current] == t.nodes[t.current].(kind := e.kind, location := e.location)
    ensures var p := t.nodes[t.current].parent;
      r.nodes[p] == t.nodes[p].(fails := t.nodes[p].fails + [t.current])
    ensures forall i :: 0 <= i < |t.nodes| && i != t.current && i != t.nodes[t.current].parent ==>
      r.nodes[i] == t.nodes[i]
    ensures var offset := e.location.start.offset;
      && r.maxFailPos == Max(t.maxFailPos, offset)
      && (t.maxFailPos < offset ==> r.maxFails == [t.current])
      && (offset < t.maxFailPos ==> r.maxFails == t.maxFails)
      && (offset <= t.maxFailPos ==> r.maxFails == t.maxFails || r.maxFails == t.maxFails + [t.current])
      && (offset == t.maxFailPos ==>
            (t.current in r.maxFails <==>
               forall j :: 0 <= j < |t.maxFails| ==> !Represents(t.nodes, t.maxFails[j], t.current)))
    ensures e.kind != RuleEnter ==> Valid(r)
  {
    var next := NextFrontier(t, e.location.start.offset);
    var r := Tracer(Finish(t, e, true), ParentOf(t), next.0, next.1, t.level - 1, t.numNodes);
    FinishFailed(t, e);
    FrontierStep(t, e.location.start.offset);
    if e.kind == RuleEnter then r
    else
      FailFrontierSites(t, e, r);
      FinishValid(t, e, true, r);
      r
  }

  /** How `onFail` moves the frontier: a further failure replaces it, a nearer
      one leaves it, and one at the same offset joins it unless a member
      already stands for it. */
  lemma FrontierStep(t: Tracer, offset: int)
    requires Valid(t) && t.current != 0
    ensures var next := NextFrontier(t, offset);
      && next.0 == Max(t.maxFailPos, offset)
      && (t.maxFailPos < offset ==> next.1 == [t.current])
      && (offset < t.maxFailPos ==> next.1 == t.maxFails)
      && (offset <= t.maxFailPos ==> next.1 == t.maxFails || next.1 == t.maxFails + [t.current])
      && (offset == t.maxFailPos ==>
            (t.current in next.1 <==>
               forall j :: 0 <= j < |t.maxFails| ==> !Represents(t.nodes, t.maxFails[j], t.current)))
  {
    assert t.current !in t.maxFails;
  }

  /** The frontier `onFail` leaves keeps one member per `(path, rule)` site. */
  lemma FailFrontierSites(t: Tracer, e: Event, r: Tracer)
    requires Valid(t) && t.current != 0
    requires r.nodes == Finish(t, e, true)
    requires (r.maxFailPos, r.maxFails) == NextFrontier(t, e.location.start.offset)
    ensures forall j, k :: 0 <= j < k < |r.maxFails| && r.maxFails[k] < |r.nodes| ==>
      r.maxFails[j] < |r.nodes| && !SameRule(r.nodes[r.maxFails[j]], r.nodes[r.maxFails[k]])
  {
    FinishFacts(t, e, true);
    FrontierUntouched(t, e, true);
    var a, b := t.nodes, r.nodes;
    forall j, k | 0 <= j < k < |r.maxFails| && r.maxFails[k] < |b|
      ensures r.maxFails[j] < |b| && !SameRule(b[r.maxFails[j]], b[r.maxFails[k]])
    {
      if k < |t.maxFails| {
        assert r.maxFails[j] == t.maxFails[j] && r.maxFails[k] == t.maxFails[k];
      } else {
        assert r.maxFails[j] == t.maxFails[j] && r.maxFails[k] == t.current;
        assert !Represents(a, t.maxFails[j], t.current);
        assert SameRule(b[t.current], a[t.current]);
      }
    }
  }

  // ---------------------------------------------------------------------------
  // Dispatch

  /** `trace(evt)`: `rule.enter` descends, `rule.match` climbs as a match, and
      every other type climbs as a failure. Climbing from the root dereferences
      its null parent. */
  function Trace(t: Tracer, e: Event): (r: Result<Tracer>)
    requires Valid(t)
    ensures r.Failure? <==> e.kind != RuleEnter && t.current == 0
    ensures r.Failure? ==> r.error == NullParent
    ensures r.Success? ==> Valid(r.value)
    ensures r.Success? ==> r.value.numNodes == t.numNodes + (if e.kind == RuleEnter then 1 else 0)
    ensures r.Success? ==> r.value.maxFailPos >= t.maxFailPos
    ensures r.Success? && IsFailure(e) ==> r.value.maxFailPos >= e.location.start.offset
    ensures r.Success? && !IsFailure(e) ==> r.value.maxFailPos == t.maxFailPos
    ensures r.Success? ==> r.value.level == t.level + (if e.kind == RuleEnter then 1 else -1)
    ensures e.kind == RuleEnter ==> r == Success(Enter(t, e))
    ensures r.Success? && e.kind == RuleMatch ==> r.value == Match(t, e)
    ensures r.Success? && IsFailure(e) ==> r.value == Fail(t, e)
  {
    match e.kind
    case RuleEnter => Success(Enter(t, e))
    case RuleMatch => if t.current == 0 then Failure(NullParent) else Success(Match(t, e))
    case _ => if t.current == 0 then Failure(NullParent) else Success(Fail(t, e))
  }

  /** An event `trace` hands to `onFail`. */
  predicate IsFailure(e: Event) {
    e.kind != RuleEnter && e.kind != RuleMatch
  }

  function CountEnters(events: seq<Event>): nat {
    if |events| == 0 then 0
    else CountEnters(events[..|events| - 1]) + (if events[|events| - 1].kind == RuleEnter then 1 else 0)
  }

  /** Feeds a whole event stream to the tracer, stopping at the first throw. */
  function Replay(t: Tracer, events: seq<Event>): (r: Result<Tracer>)
    requires Valid(t)
    ensures r.Failure? ==> r.error == NullParent
    ensures r.Success? ==> Valid(r.value)
    decreases |events|
  {
    if |events| == 0 then Success(t)
    else
      var before :- Replay(t, events[..|events| - 1]);
      Trace(before, events[|events| - 1])
  }

  /** A replay that does not throw has created one node per `rule.enter` event. */
  lemma {:induction false} ReplayCountsEnters(t: Tracer, events: seq<Event>)
    requires Valid(t) && Replay(t, events).Success?
    ensures Replay(t, events).value.numNodes == t.numNodes + CountEnters(events)
    decreases |events|
  {
    if |events| > 0 {
      ReplayCountsEnters(t, events[..|events| - 1]);
    }
  }

  /** The offsets of the failure events in a stream. */
  predicate FailsAtMost(events: seq<Event>, pos: int) {
    forall i :: 0 <= i < |events| && IsFailure(events[i]) ==> events[i].location.start.offset <= pos
  }

  predicate FailsAt(events: seq<Event>, pos: int) {
    exists i :: 0 <= i < |events| && IsFailure(events[i]) && events[i].location.start.offset == pos
  }

  /** After a replay `maxFailPos` is the largest failure offset seen, or the
      starting value when no failure went beyond it. */
  lemma {:induction false} ReplayMaxFailPos(t: Tracer, events: seq<Event>)
    requires Valid(t) && Replay(t, events).Success?
    ensures var pos := Replay(t, events).value.maxFailPos;
      && pos >= t.maxFailPos
      && FailsAtMost(events, pos)
      && (pos == t.maxFailPos || FailsAt(events, pos))
    decreases |events|
  {
    if |events| > 0 {
      var init := events[..|events| - 1];
      ReplayMaxFailPos(t, init);
      var prev := Replay(t, init).value;
      assert Replay(t, events) == Trace(prev, events[|events| - 1]);
      MaxFailStep(events, t.maxFailPos, prev.maxFailPos, Replay(t, events).value.maxFailPos);
    }
  }

  /** One more event keeps `maxFailPos` the largest failure offset seen. */
  lemma MaxFailStep(events: seq<Event>, start: int, prev: int, pos: int)
    requires |events| > 0
    requires var init := events[..|events| - 1];
      prev >= start && FailsAtMost(init, prev) && (prev == start || FailsAt(init, prev))
    requires var e := events[|events| - 1];
      && pos >= prev
      && (IsFailure(e) ==> pos >= e.location.start.offset)
      && (pos != prev ==> IsFailure(e) && pos == e.location.start.offset)
    ensures pos >= start && FailsAtMost(events, pos) && (pos == start || FailsAt(events, pos))
  {
    var init := events[..|events| - 1];
    forall i | 0 <= i < |events| && IsFailure(events[i])
      ensures events[i].location.start.offset <= pos
    {
      if i < |init| {
        assert events[i] == init[i];
      }
    }
    if pos != prev {
      assert events[|events| - 1] == events[|events| - 1];
    } else if pos != start {
      var i :| 0 <= i < |init| && IsFailure(init[i]) && init[i].location.start.offset == pos;
      assert events[i] == init[i];
    }
  }

  /** An enter followed by a match returns the cursor and level to where they
      were, with the new node filed as the cursor's last match. */
  lemma EnterThenMatch(t: Tracer, enter: Event, done: Event)
    requires Valid(t) && enter.kind == RuleEnter && done.kind == RuleMatch
    ensures var r := Match(Enter(t, enter), done);
      && r.current == t.current && r.level == t.level
      && r.nodes[t.current].matches == t.nodes[t.current].matches + [|t.nodes|]
      && r.nodes[|t.nodes|].kind == RuleMatch
      && r.maxFails == t.maxFails
  {
    var mid := Enter(t, enter);
    assert mid.nodes[t.current] == t.nodes[t.current];
  }

  /** Replaying an enter and a match does not throw and ends in the state of
      `EnterThenMatch`. */
  lemma ReplayEnterMatch(t: Tracer, events: seq<Event>)
    requires Valid(t) && |events| == 2 && events[0].kind == RuleEnter && events[1].kind == RuleMatch
    ensures Replay(t, events) == Success(Match(Enter(t, events[0]), events[1]))
  {
    var first := events[..1];
    var mid := Enter(t, events[0]);
    assert first[..0] == [] && first[0] == events[0];
    assert Replay(t, first) == Success(mid);
    assert events[..|events| - 1] == first;
  }

  /** Replaying one more event traces it in the state the earlier ones left,
      unless they already threw. */
  lemma ReplaySnoc(t: Tracer, events: seq<Event>, e: Event)
    requires Valid(t)
    ensures Replay(t, events + [e]) ==
      if Replay(t, events).Failure? then Replay(t, events) else Trace(Replay(t, events).value, e)
  {
    assert (events + [e])[..|events|] == events;
  }

  // ---------------------------------------------------------------------------
  // Source excerpts

  /** `convertToZeroBasedLocation`: the parser's one-based lines and columns
      become zero-based; offsets are already zero-based. */
  function ZeroBased(loc: Location): (r: Location)
    ensures r.start.offset == loc.start.offset && r.end.offset == loc.end.offset
    ensures r.start.line + 1 == loc.start.line && r.start.column + 1 == loc.start.column
    ensures r.end.line + 1 == loc.end.line && r.end.column + 1 == loc.end.column
  {
    Location(Position(loc.start.offset, loc.start.line - 1, loc.start.column - 1),
             Position(loc.end.offset, loc.end.line - 1, loc.end.column - 1))
  }

  /** The quoter's line range for a one-based location. */
  predicate QuotableRange(q: TextQuoter.Quoter, loc: Location) {
    1 <= loc.start.line <= loc.end.line <= |q.sourceLines|
  }

  /** `getSourceLines(quoteString, location, maxLines)`: the quoted excerpt of a
      node's one-based location. */
  function SourceLines(q: TextQuoter.Quoter, quoteString: string, loc: Location, maxLines: int): (r: Result<seq<string>>)
    requires QuotableRange(q, loc)
    ensures r.Success? ==>
      |r.value| == TextQuoter.ContentRows(loc.end.line - loc.start.line + 1, TextQuoter.ClampMaxLines(maxLines))
                   + TextQuoter.MarkerRows(loc.start.line == loc.end.line, loc.start.column - 1, loc.end.column - 1)
    ensures !q.useColor ==> (r.Failure? <==>
      TextQuoter.BadUnderline(q, loc.start.line - 1, loc.start.column - 1, loc.end.line - 1, loc.end.column - 1))
  {
    var z := ZeroBased(loc);
    TextQuoter.GetQuotedLines(q, quoteString, z.start.line, z.start.column, z.end.line, z.end.column, maxLines)
  }
}
